=== FILE: README.md ===
# store-utils element binders, modelled in Dafny

This project models the DOM-binding core of `store-utils`. That library ties
reactive items of a store (atoms, computed values and collections) to HTML
elements. The model covers these parts:

- **`getDiffs`**. It reports, for every enumerable property of a new value,
  whether that property differs from the one in an old value.
- **The binder core** (`binder`). It merges options onto the global defaults
  (`debounce_time: 0`, `autodisconnect: false`) and runs a setter once. It
  then subscribes, so that later changes re-run the setter. With
  `autodisconnect` set, a notification that finds the element detached ends
  the subscription.
- **One-way binders**. These are property, text, attribute, CSS class, show
  (the class `d-none` on falsy values), innerHTML, className and disabled.
- **Two-way binders**. These are a checkbox's `checked` state, a single
  select, a radio group, a group of checkboxes against a collection, a
  multiple select against a collection, and an input's `value`. Each one
  writes the store's value to the elements and registers a listener. That
  listener hands the elements' state back to the store.
- **`bindToList`**. It keeps a container's element children in step with a
  collection: one element per item, created from a template element or a
  creator function. Each child is stamped with an `item-index` attribute, and
  the whole list is rebuilt, resized, rewritten at one index, or shrunk by
  deleting one item.
- **The `html` tagged template**. It assembles markup from the literal's
  strings, with reactive expressions replaced by `{{i}}` placeholders. It
  parses that markup into exactly one node and walks that node. The walk
  replaces text placeholders with text bindings, turns `v-text`, `v-html`,
  `v-show`, `v-disabled` and other placeholder attributes into bindings, and
  records `ref` attributes. The result is a fragment with a single
  unsubscriber.

The DOM is an immutable tree of `Dom.Node` values: kind, attributes, classes,
properties, children, a `connected` flag and a set of listeners. JavaScript
values are `JsValue.Value`. Every operation is a pure function from the old
state to the new one. The host's float formatting, number parsing and HTML
parser are parameters (`JsValue.Host`, and the `parser` argument of
`Template.HtmlWith`). A subscription is a `Reactive.Subscription` record,
and a notification is a call to the binder's `Notify` function.

## Model

| member | source | states |
|---|---|---|
| Helpers.GetDiffs | src/other/helpers.js:11-27 | The result has exactly the property names that `for…in` visits on the new value. A property is reported as changed when the old value is falsy or does not own it. Otherwise the caller's comparison decides, or `!==` when none is given. |
| Helpers.ForInKeysAreOwn | src/other/helpers.js:15-18 | Every name that `for…in` visits on an object, array or string is an own property of it. |
| Helpers.GetDiffsOfSelf | src/other/helpers.js:18-19 | Comparing a value with itself reports as changed exactly the properties holding NaN, because `NaN !== NaN`. |
| Helpers.GetDiffsAgainstFalsy | src/other/helpers.js:18-23 | Against a falsy old value, every property is reported as changed. |
| Helpers.GetDiffsOfObjects | src/other/helpers.js:18-23 | For two plain objects, a property is changed exactly when the old object lacks it or holds a value that is not strictly equal. |
| BindOptions.Assign | src/element-binders/binder.js:17 | `Object.assign` on option maps: the keys are the union, and the later map wins on shared keys. |
| BindOptions.AssignAbsorbs | src/element-binders/property.js:29-32 | Merging the global defaults a second time over options that already contain them changes nothing. This is why binders that pre-merge and then call `binder` behave the same. |
| BindOptions.AssignAssociative | src/element-binders/show.js:18-21 | Nested option merges can be regrouped. |
| JsValue.ToString | src/element-binders/text.js:12 | `String(v)` gives a string itself, "true" exactly for true, "undefined" for undefined, "null" for null, "" for an empty array, and a one-element array's element text, with nullish elements giving "". |
| JsValue.FalsyValues | src/element-binders/css_class.js:17 | `Boolean(v)` is false exactly for undefined, null, false, 0, NaN and "". Every array and object is truthy. |
| JsValue.LooselyEqualsStringCases | src/element-binders/two-way-bindings/input_value.js:35 | A string never loosely equals null, undefined or NaN. It equals an array or object exactly when it is that value's string form, and a number when it converts to that number. |
| Binder.Bind | src/element-binders/binder.js:15-32 | The first write is the setter applied with the merged options. The subscription is active. Its debounce time is the call's `debounce_time` when given, and the global default otherwise. |
| Binder.Notify | src/element-binders/binder.js:23-30 | A cancelled subscription does nothing. With `autodisconnect` and a detached element, the subscription is cancelled and nothing is written. Otherwise the setter is re-run. |
| Binder.Unsubscribe | src/element-binders/binder.js:32 | The subscription ends and the context and options are kept. |
| Binder.RunKeepsInSync | src/element-binders/binder.js:21-30 | For a setter that establishes a relation between value and element, the relation holds across any sequence of store changes, attaches, detaches and cancellations while the subscription is live. |
| Binder.BoundStaysInSync | src/element-binders/binder.js:15-32 | A fresh binding starts in sync and stays in sync over any sequence of events. |
| Binder.CancelledIsFrozen | src/element-binders/binder.js:24-27 | Once cancelled, a binding never writes again and never becomes active again. |
| Binder.StaysActiveUntilCancelled | src/element-binders/binder.js:24 | Without `autodisconnect`, a binding ends only when the caller cancels it. |
| Binder.DetachedNotificationEnds | src/element-binders/binder.js:24-27 | With `autodisconnect`, a change that arrives while the element is detached ends the binding and leaves the element untouched. |
| Dom.SetAttribute | src/element-binders/attribute.js:14 | `setAttribute` makes the attribute read back with the new value, and every other attribute is unchanged. |
| Dom.RemoveAttribute | src/element-binders/attribute.js:16 | `removeAttribute` makes the attribute absent, every other attribute is unchanged, and removing a missing attribute is a no-op. |
| Dom.ToggleClass | src/element-binders/css_class.js:21-24 | `classList.toggle(c, force)` leaves `c` present exactly when `force` is true, and no other class changes. |
| Dom.WriteProp | src/element-binders/property.js:13-15 | A property assignment stores the value the DOM converts it to, and no other property changes. |
| Dom.Converted | src/element-binders/property.js:14 | Boolean DOM properties store truthiness. String-typed properties store a string, and a string is stored unchanged. Other properties store the value itself. |
| Dom.AddListener | src/element-binders/two-way-bindings/checkbox_checked.js:33 | Adding a listener adds exactly that listener. |
| Dom.RemoveListener | src/element-binders/two-way-bindings/checkbox_checked.js:46 | Removing a listener removes exactly that listener. |
| Dom.FirstElementChild | src/element-binders/list.js:82 | The result is an element child, and it is absent only when no child is an element. |
| Dom.Clone | src/element-binders/list.js:85 | A deep clone keeps kind, attributes, classes, properties and child count. It is detached and has no listeners. |
| Dom.Append | src/element-binders/list.js:177 | Appending adds the child at the end, connected like the parent, and keeps the existing children. |
| Dom.TextNodeOf | src/other/template.js:237 | `createTextNode(s)` is a detached text node whose text is `s`. |
| PropertyBinder.Write | src/element-binders/property.js:13-15 | The named property holds the DOM conversion of the value, and nothing else changes. |
| PropertyBinder.BindToProperty | src/element-binders/property.js:28-33 | After binding, the property reflects the current value and no other property or part of the element changes. The binding is active, with the merged options and their debounce time. |
| PropertyBinder.PropertyStaysInSync | src/element-binders/property.js:28-33 | Over any sequence of events, a live property binding keeps the property equal to the conversion of the store's value. |
| TextBinder.Write | src/element-binders/text.js:11-13 | `textContent` holds `String(value)`, and nothing else changes. |
| TextBinder.BindToText | src/element-binders/text.js:23-30 | After binding, `textContent` is `String(current)`, nothing else on the element changes, and the binding is active. |
| TextBinder.NotifyText | src/element-binders/text.js:31-38 | The copied subscription callback has the three outcomes of the binder core: no-op, cancel when detached, or write. |
| TextBinder.TextIsBinderCore | src/element-binders/text.js:23-41 | The text binder's own subscription is the binder core with the text setter. |
| TextBinder.TextStaysInSync | src/element-binders/text.js:23-41 | A live text binding keeps `textContent` equal to `String(value)` over any sequence of events. |
| AttributeBinder.Write | src/element-binders/attribute.js:12-18 | A string value sets the attribute and null or undefined removes it. Any other value leaves the element untouched. No other attribute changes. |
| AttributeBinder.BindToAttr | src/element-binders/attribute.js:30-36 | After binding, the attribute reflects the current value in that sense, no other attribute or part of the element changes, and the binding is active. |
| AttributeBinder.AttributeStaysInSync | src/element-binders/attribute.js:30-36 | A live attribute binding keeps reflecting the value over any sequence of events. |
| CssClassBinder.Write | src/element-binders/css_class.js:14-26 | The class is present exactly when the value's truthiness agrees with the `remove_class_flag` reading. No other class changes. |
| CssClassBinder.BindToCssClass | src/element-binders/css_class.js:39-46 | After binding, the class follows that rule, no other class or part of the element changes, and the binding is active with the merged options. |
| CssClassBinder.DefaultMarksTruthy | src/element-binders/css_class.js:41 | With the default `remove_class_flag: false`, the class marks truthy values. |
| CssClassBinder.CssClassStaysInSync | src/element-binders/css_class.js:39-46 | A live class binding keeps the class in step with the value over any sequence of events. |
| ShowBinder.BindToShow | src/element-binders/show.js:16-22 | The hiding class follows the value through the class binder, and no other class or part of the element changes. |
| ShowBinder.ShowOptionsSurviveCssMerge | src/element-binders/show.js:18-21 | The class binder's second merge does not undo the show binder's defaults. |
| ShowBinder.ShowHidesFalsy | src/element-binders/show.js:18 | With the defaults, `d-none` is present exactly when the value is falsy. |
| HtmlBinder.BindToHtml | src/element-binders/html.js:14-16 | `innerHTML` holds the value's text, with null giving the empty string. No other property or part of the element changes, and the binding is active. |
| ClassNameBinder.BindToClassName | src/element-binders/className.js:13-15 | `className` holds `String(value)`, no other property or part of the element changes, and the binding is active. |
| DisabledBinder.BindToDisabled | src/element-binders/disabled.js:16-18 | `disabled` holds the value's truthiness, no other property or part of the element changes, and the binding is active. |
| DisabledBinder.DisabledStaysInSync | src/element-binders/disabled.js:16-18 | A live binding keeps `disabled` equal to the value's truthiness over any sequence of events. |
| KeyIndex.LastIndex | src/element-binders/checkboxes_values.js:22-26 | The value-to-element table maps each key to a position carrying that key. |
| KeyIndex.LastIndexSpec | src/element-binders/checkboxes_values.js:22-26 | A key is in the table exactly when some position carries it, and no later position carries it. The last one wins. |
| KeyIndex.LastHolderIffNoLater | src/element-binders/two-way-bindings/radios.js:24-29 | A position is the table's holder for its key exactly when no later position carries the same key. |
| CheckboxBinder.Write | src/element-binders/two-way-bindings/checkbox_checked.js:24-26 | `checked` holds the value's truthiness, and nothing else changes. |
| CheckboxBinder.BindToCheckbox | src/element-binders/two-way-bindings/checkbox_checked.js:13-33 | After binding, `checked` reflects the value, a "change" listener has been added, and the subscription is active. No other property or part of the checkbox changes. |
| CheckboxBinder.Notify | src/element-binders/two-way-bindings/checkbox_checked.js:35-43 | The store's notification is a no-op when cancelled, cancels when detached under `autodisconnect`, and writes otherwise. |
| CheckboxBinder.OnChange | src/element-binders/two-way-bindings/checkbox_checked.js:28-30 | While the listener is registered, a change hands the checkbox's `checked` state to the store. |
| CheckboxBinder.Teardown | src/element-binders/two-way-bindings/checkbox_checked.js:45-48 | The unsubscriber removes exactly the "change" listener and ends the subscription. |
| CheckboxBinder.RunStaysSynced | src/element-binders/two-way-bindings/checkbox_checked.js:28-43 | Over any sequence of store changes and user clicks, a live binding keeps `checked` equal to the store value's truthiness. |
| CheckboxBinder.CheckboxStaysSynced | src/element-binders/two-way-bindings/checkbox_checked.js:13-51 | A fresh binding starts synchronised and stays so. |
| CheckboxValuesBinder.ValueKeys | src/element-binders/checkboxes_values.js:22-26 | Each checkbox contributes its `value` as its key. |
| CheckboxValuesBinder.WriteFrom | src/element-binders/checkboxes_values.js:28-35 | The setter loop checks the table's checkbox for each value, and it changes only `checked`. |
| CheckboxValuesBinder.WriteFromFailsIffUnknown | src/element-binders/checkboxes_values.js:31-34 | The setter loop throws a TypeError exactly when some checkbox still to be visited has a value the table does not hold (`data[value]` is undefined). |
| CheckboxValuesBinder.Written | src/element-binders/checkboxes_values.js:29-33 | A written checkbox keeps its value. |
| CheckboxValuesBinder.Expected | src/element-binders/checkboxes_values.js:28-35 | This is the reference state after a write: only the table's checkboxes change, each becoming checked exactly when its value is in the collection. |
| CheckboxValuesBinder.WriteSpec | src/element-binders/checkboxes_values.js:28-35 | The setter loop produces exactly the reference state. |
| CheckboxValuesBinder.CheckedValues | src/element-binders/checkboxes_values.js:38-49 | The "change" callback collects the values of the checked checkboxes. |
| CheckboxValuesBinder.CheckedValuesConcat | src/element-binders/checkboxes_values.js:41-44 | The values are collected in list order: the values of two runs of checkboxes are those of the first run followed by those of the second. |
| CheckboxValuesBinder.CheckedValuesMembership | src/element-binders/checkboxes_values.js:41-44 | A value is collected exactly when some checked checkbox carries it. |
| CheckboxValuesBinder.AddListenerAll | src/element-binders/checkboxes_values.js:54-56 | Every checkbox gets the listener. |
| CheckboxValuesBinder.RemoveListenerAll | src/element-binders/checkboxes_values.js:68-71 | Every checkbox loses the listener. |
| CheckboxValuesBinder.BindToCheckboxValues | src/element-binders/checkboxes_values.js:13-66 | The binding builds the table from the checkboxes, adds the listeners and subscribes. Nothing is written at that point. |
| CheckboxValuesBinder.Notify | src/element-binders/checkboxes_values.js:58-66 | The notification is a no-op when cancelled. Under `autodisconnect` it throws a TypeError when there are no checkboxes, and it cancels when the first checkbox is detached. Otherwise it writes, and the write throws a TypeError exactly when some checkbox's current value is missing from the table built at bind time. |
| CheckboxValuesBinder.NotifyWritesExpected | src/element-binders/checkboxes_values.js:58-66 | A live notification writes exactly the reference state. |
| CheckboxValuesBinder.OnChange | src/element-binders/checkboxes_values.js:38-49 | While registered, a change assigns the checked values to the collection. |
| CheckboxValuesBinder.Teardown | src/element-binders/checkboxes_values.js:68-73 | The unsubscriber removes the listeners and ends the subscription. |
| CheckboxValuesBinder.ChangeRoundTrip | src/element-binders/checkboxes_values.js:38-66 | With distinct values, the collection a change produces, written back, leaves every checkbox as the user left it. |
| CheckboxValuesBinder.UnchangedByRoundTrip | src/element-binders/checkboxes_values.js:28-49 | The same round trip, stated for one checkbox. |
| SelectDom.SetSelectValue | src/element-binders/two-way-bindings/select.js:22 | Assigning `select.value` keeps the options and their values and changes only which options are selected. |
| SelectDom.SelectValueAfterSet | src/element-binders/two-way-bindings/select.js:22 | After the assignment, `select.value` is the assigned string when an option carries it, and "" otherwise. |
| SelectDom.SelectValue | src/element-binders/two-way-bindings/select.js:32 | Reading `select.value` gives the value of the first selected option, or "" when no option is selected. |
| SelectDom.WithSelected | src/element-binders/two-way-bindings/multiple_select.js:33 | Setting `selected` on an option changes only that flag. |
| SelectDom.OptionPositions | src/element-binders/two-way-bindings/multiple_select.js:24-27 | These are the positions of the select's options, and every option is among them. |
| SelectDom.SelectedValuesMembership | src/element-binders/two-way-bindings/multiple_select.js:45 | A string is among the selected values exactly when some selected option carries it. |
| SelectBinder.Write | src/element-binders/two-way-bindings/select.js:21-23 | `select.value` becomes `String(value)` when an option carries it, and "" otherwise. |
| SelectBinder.BindToSelectElement | src/element-binders/two-way-bindings/select.js:12-45 | After binding, the value is written, a "change" listener is added and the subscription is active. |
| SelectBinder.Notify | src/element-binders/two-way-bindings/select.js:37-45 | The notification is a no-op when cancelled, cancels when detached under `autodisconnect`, and writes otherwise. |
| SelectBinder.OnChange | src/element-binders/two-way-bindings/select.js:31-33 | While registered, a change hands `select.value` to the store. |
| SelectBinder.Teardown | src/element-binders/two-way-bindings/select.js:47-50 | The unsubscriber removes exactly the listener and ends the subscription. |
| SelectBinder.ChangeRoundTrip | src/element-binders/two-way-bindings/select.js:31-45 | The value a change reports, written back, leaves `select.value` as the user chose it. |
| SelectBinder.DisconnectKeepsListener | src/element-binders/two-way-bindings/select.js:39-42 | When `autodisconnect` ends the subscription, the element's "change" listener stays registered. |
| RadiosBinder.RadioKeys | src/element-binders/two-way-bindings/radios.js:24-29 | Only radios in the first radio's group, with a non-empty value, contribute a key. |
| RadiosBinder.Write | src/element-binders/two-way-bindings/radios.js:36-42 | The table's radio for `String(value)` becomes checked, and the code touches no other radio. |
| RadiosBinder.WriteChecksLastCarrier | src/element-binders/two-way-bindings/radios.js:24-42 | Of several radios carrying the value, the last one is checked. |
| RadiosBinder.WriteMissLeavesRadios | src/element-binders/two-way-bindings/radios.js:38-41 | A value no radio carries changes nothing. |
| RadiosBinder.AddListenerAll | src/element-binders/two-way-bindings/radios.js:57-59 | Every radio gets the listener. |
| RadiosBinder.RemoveListenerAll | src/element-binders/two-way-bindings/radios.js:72-74 | Every radio loses the listener. |
| RadiosBinder.BindToRadios | src/element-binders/two-way-bindings/radios.js:12-69 | With no radios, or a first radio without a name, the call does nothing. Otherwise it builds the table and makes the first write (line 44): the table's radio for `String(current)` is checked. Every other radio only gains the "change" listener, and the subscription is active. |
| RadiosBinder.BindChecksLastCarrier | src/element-binders/two-way-bindings/radios.js:25-44 | After binding, the last radio of the group carrying `String(current)` is checked, and every other radio is as it was apart from the new listener. |
| RadiosBinder.Notify | src/element-binders/two-way-bindings/radios.js:61-69 | The notification is a no-op when cancelled or inert, cancels when the first radio is detached under `autodisconnect`, and writes otherwise. |
| RadiosBinder.OnChange | src/element-binders/two-way-bindings/radios.js:50-55 | While registered, a change hands the radio's value to the store. |
| RadiosBinder.Teardown | src/element-binders/two-way-bindings/radios.js:71-76 | The unsubscriber removes the listeners and ends the subscription. An inert call has nothing to undo. |
| RadiosBinder.ChangeRoundTrip | src/element-binders/two-way-bindings/radios.js:50-69 | The value a radio reports, written back, leaves that radio checked. |
| MultipleSelectBinder.OptionKeys | src/element-binders/two-way-bindings/multiple_select.js:24-27 | Each option contributes its value as its key, and a non-option child contributes none. |
| MultipleSelectBinder.SelectAt | src/element-binders/two-way-bindings/multiple_select.js:33 | One option becomes selected and nothing else changes. |
| MultipleSelectBinder.AddFrom | src/element-binders/two-way-bindings/multiple_select.js:29-35 | Each item's option from the table is selected. Options stay options, and unselected ones are unchanged. |
| MultipleSelectBinder.Setter | src/element-binders/two-way-bindings/multiple_select.js:17-36 | The setter keeps the options and selects the table's option for each item. It never deselects an option. |
| MultipleSelectBinder.SetterSelectsItems | src/element-binders/two-way-bindings/multiple_select.js:17-36 | For every item carried by some option, an option carrying it ends up selected. |
| MultipleSelectBinder.Rescan | src/element-binders/two-way-bindings/multiple_select.js:72-78 | A whole-collection change marks each option selected exactly when its value is in the collection. |
| MultipleSelectBinder.OptionAtName | src/element-binders/two-way-bindings/multiple_select.js:57-59 | A digit property name picks the option at that index, when there is one. |
| MultipleSelectBinder.Adjust | src/element-binders/two-way-bindings/multiple_select.js:57-79 | An indexed change or delete adjusts that option alone, and any other change rescans. The options are kept. |
| MultipleSelectBinder.WholeSetMatchesCollection | src/element-binders/two-way-bindings/multiple_select.js:71-81 | After a whole-collection change of strings, an option is selected exactly when its value is in the collection. |
| MultipleSelectBinder.DeleteDeselects | src/element-binders/two-way-bindings/multiple_select.js:57-63 | Deleting an index deselects its option unless another item still names that option's value. |
| MultipleSelectBinder.BindToMultipleSelect | src/element-binders/two-way-bindings/multiple_select.js:12-48 | After binding, the options are those the setter's first write leaves (line 38): nothing that was selected is deselected. A "change" listener is added, and the subscription is active. |
| MultipleSelectBinder.BindSelectsItems | src/element-binders/two-way-bindings/multiple_select.js:17-38 | After binding, every item whose string form some option carries has a selected option carrying it. |
| MultipleSelectBinder.Notify | src/element-binders/two-way-bindings/multiple_select.js:50-83 | The notification is a no-op when cancelled, cancels when detached under `autodisconnect`, and otherwise adjusts and then re-runs the setter. |
| MultipleSelectBinder.OnChange | src/element-binders/two-way-bindings/multiple_select.js:44-46 | While registered, a change assigns the selected values. |
| MultipleSelectBinder.Teardown | src/element-binders/two-way-bindings/multiple_select.js:85-88 | The unsubscriber removes exactly the listener and ends the subscription. |
| MultipleSelectBinder.ChangeRoundTrip | src/element-binders/two-way-bindings/multiple_select.js:44-83 | With distinct option values, the selection a change reports, written back as a whole collection, leaves every option's selection as the user left it. |
| InputValueBinder.Merged | src/element-binders/two-way-bindings/input_value.js:20 | The options default `lazy` to false, and the call's own options win. |
| InputValueBinder.EventOf | src/element-binders/two-way-bindings/input_value.js:22-26 | The event is "change" exactly when `lazy` is truthy or the input is of type number. Otherwise it is "input". |
| InputValueBinder.NumberText | src/element-binders/two-way-bindings/input_value.js:37 | A number input's text is `parseFloat(String(v))` formatted back. Null or undefined throw. |
| InputValueBinder.Setter | src/element-binders/two-way-bindings/input_value.js:33-42 | A value loosely equal to the current text leaves the element as it is. Otherwise `value` is assigned `parseFloat(String(v))` formatted back for a number input, or `String(v)` for any other input. The setter throws only for a nullish value on a number input, and no property other than `value` changes. |
| InputValueBinder.BindToInputValue | src/element-binders/two-way-bindings/input_value.js:18-57 | The listener is added before the first write, so it stays registered when that write throws. On success, the element is the setter's write of the current value (line 57) plus the listener, and the subscription is active for the chosen event. |
| InputValueBinder.Notify | src/element-binders/two-way-bindings/input_value.js:59-67 | The notification is a no-op when cancelled, cancels when detached under `autodisconnect`, and otherwise runs the setter, passing on its error. |
| InputValueBinder.OnEvent | src/element-binders/two-way-bindings/input_value.js:44-53 | While registered, the listener hands the store `parseFloat` of a number input's text, or the text of any other input. |
| InputValueBinder.TextRoundTrip | src/element-binders/two-way-bindings/input_value.js:33-53 | A string written to a text input reads back through the listener as the same string. |
| InputValueBinder.TextLoopBackIsQuiet | src/element-binders/two-way-bindings/input_value.js:33-53 | A text handed to the store and written back leaves the input unchanged. |
| InputValueBinder.NumberRoundTrip | src/element-binders/two-way-bindings/input_value.js:33-53 | A number whose decimal form parses back to itself is shown in that form, and the listener reads back the same number. |
| InputValueBinder.ZeroKeepsEmptyInput | src/element-binders/two-way-bindings/input_value.js:35 | Because the comparison is loose, writing 0 to an empty input leaves it empty. |
| InputValueBinder.SetterIdempotentOnText | src/element-binders/two-way-bindings/input_value.js:33-42 | Writing the same string twice is the same as writing it once. |
| InputValueBinder.NullishNumberBindLeavesListener | src/element-binders/two-way-bindings/input_value.js:55-57 | Binding null or undefined to a number input throws, and the "change" listener stays registered. |
| InputValueBinder.Teardown | src/element-binders/two-way-bindings/input_value.js:69-73 | The unsubscriber as written removes an "input" listener only and ends the subscription. |
| InputValueBinder.TeardownLeavesChangeListener | src/element-binders/two-way-bindings/input_value.js:55-72 | A number-input binding keeps its "change" listener after the unsubscriber runs. |
| InputValueBinder.TeardownCorrected | src/element-binders/two-way-bindings/input_value.js:69-73 | The unsubscriber as intended removes the listener the binding added. |
| InputValueBinder.TeardownCorrectedRestoresListeners | src/element-binders/two-way-bindings/input_value.js:55-72 | Binding and then unsubscribing with the corrected unsubscriber leaves the element with the listeners it started with. |
| Decimal.NatToString | src/element-binders/list.js:122 | `String(n)` of an index is a non-empty digit string without a leading zero, unless it is "0". |
| Decimal.ValueOfNatToString | src/other/template.js:163 | The digits of `String(n)` read back as `n`. |
| Decimal.ParseInt | src/element-binders/list.js:210 | `parseInt` of a string is absent (NaN) when the first character after the white space is neither a sign nor a digit. |
| Decimal.ParseIntOfIntToString | src/element-binders/list.js:203-211 | `parseInt(String(i))` is `i` for every integer. |
| Decimal.ArrayIndex | src/element-binders/two-way-bindings/multiple_select.js:57-59 | A property name is an array index only if it is the canonical decimal form of a number below 2^32-1. |
| Decimal.ArrayIndexOfNatToString | src/element-binders/list.js:354-356 | Every canonical index below 2^32-1 is recognised as an array index. |
| Decimal.ToUint32 | src/element-binders/list.js:99 | `children.item(i)` reads its argument modulo 2^32, and that leaves indices in range unchanged. |
| JsText.TrimStart | src/other/template.js:150 | `trimStart` drops exactly the leading white space. |
| JsText.TrimEnd | src/other/template.js:151 | `trimEnd` drops exactly the trailing white space. |
| JsText.TrimStartAbsorbs | src/other/template.js:150 | Trimming the start of a prefix early makes no difference to a later `trimStart`. |
| JsText.TrimEndAbsorbs | src/other/template.js:151 | Trimming the end of a suffix early makes no difference to a later `trimEnd`. |
| JsText.TrimCommutes | src/other/template.js:172 | Trimming start then end equals trimming end then start. |
| ElementListBinder.GetTemplate | src/element-binders/list.js:276-288 | There is a template exactly when one was loaded, and each request yields a fresh deep clone of it. |
| ElementListBinder.ItemAt | src/element-binders/list.js:119 | `children.item(index)` finds an element child exactly when the index, read as uint32, is below the child count. |
| ElementListBinder.ItemAtOfElements | src/element-binders/list.js:119 | When every child is an element, index `i` finds the `i`-th child. |
| ElementListBinder.DetailsFor | src/element-binders/list.js:118-124 | The item setter is called with the index, the new and old values and the element at that index, exactly when that element exists. |
| ElementListBinder.SetItemValue | src/element-binders/list.js:118-127 | Writing an index stamps `item-index` with `String(index)` and calls the item setter once. The setter's result takes that item's place, and no other child changes. A missing index does nothing. Child count and kinds are kept. |
| ElementListBinder.RemoveItem | src/element-binders/list.js:98-100 | Removing an index drops that element, and a missing index changes nothing. |
| ElementListBinder.RemoveLast | src/element-binders/list.js:107-109 | The last element child is removed. |
| ElementListBinder.Grow | src/element-binders/list.js:159-162 | Growing never changes the helper, the creator, the setter or whether the container is in the document. |
| ElementListBinder.GrowSpec | src/element-binders/list.js:159-162 | Growing from `i` to `size` children keeps the first `i` children and leaves exactly `size` element children. For each new index, in order, the item setter is called once. It gets a freshly created item stamped with that index, `collection.value[index]` and an undefined old value, and its result is the child at that index. |
| ElementListBinder.Shrink | src/element-binders/list.js:163-166 | Shrinking touches only the children. |
| ElementListBinder.ShrinkSpec | src/element-binders/list.js:163-166 | Shrinking by `count` keeps exactly the first children. |
| ElementListBinder.SetListSize | src/element-binders/list.js:153-168 | A list already of the requested size is left alone. |
| ElementListBinder.SetListSizeSpec | src/element-binders/list.js:153-168 | After a resize, the list has exactly the requested number of element children. Shrinking keeps the first children and calls nothing. Growing keeps every old child and gives each new index one setter call with its collection value, as in `GrowSpec`. |
| ElementListBinder.SetAll | src/element-binders/list.js:136-138 | The item loop keeps the list's parts. |
| ElementListBinder.SetAllShape | src/element-binders/list.js:136-138 | The item loop keeps the child count and keeps every child an element. |
| ElementListBinder.SetAllSpec | src/element-binders/list.js:136-138 | The item loop calls the item setter once per item, in order, with that item's index and value. |
| ElementListBinder.SetData | src/element-binders/list.js:133-139 | Setting the data keeps the list's parts. |
| ElementListBinder.SetDataSpec | src/element-binders/list.js:133-139 | After the data is set, the list has one element per item, and each item has had its setter call. |
| ElementListBinder.SetDataOf | src/element-binders/list.js:133-139 | Reading `.length` throws for null or undefined. An array is used as it is, and a string is used as the array of its characters. Any other value has no length, so nothing happens. |
| ElementListBinder.Construct | src/element-binders/list.js:40-75 | The template is a clone of the first element child, and the container is emptied. Construction fails exactly when there is neither a creator nor a template child, leaving the container empty. |
| ElementListBinder.TemplateListIsFilled | src/element-binders/list.js:59-65 | With a template child and no creator, the list is filled from clones of the template. |
| ElementListBinder.ConstructFills | src/element-binders/list.js:40-75 | A constructed list has one element per item of the collection. |
| ElementListBinder.BindToList | src/element-binders/list.js:332-337 | Binding fails exactly when construction fails. Otherwise it returns the constructed list and an active subscription. |
| ElementListBinder.Notify | src/element-binders/list.js:337-366 | The notification is a no-op when cancelled and cancels when detached under `autodisconnect`. Otherwise it keeps the list's parts. |
| ElementListBinder.NotifyWholeIsSetData | src/element-binders/list.js:344-346 | A change of the whole collection rebuilds it with the new items. |
| ElementListBinder.NotifySetIndex | src/element-binders/list.js:354-360 | A change at index `i` rewrites that element only. |
| ElementListBinder.NotifyDeleteIndex | src/element-binders/list.js:362-364 | A delete at index `i` removes that element only. |
| ElementListBinder.NotifyLength | src/element-binders/list.js:349-352 | A change of `length` resizes the list to the collection's length. Shrinking keeps the first items. Growing gives each new item the collection's value at its index. |
| ElementListBinder.Teardown | src/element-binders/list.js:366-368 | The unsubscriber ends the subscription. |
| ElementListBinder.FirstCarrier | src/element-binders/list.js:190-196 | This is the nearest node carrying the attribute, and it is absent when none does. |
| ElementListBinder.GetListItem | src/element-binders/list.js:190-196 | The element itself is returned when it carries the attribute. Otherwise the nearest carrying ancestor is, and there is none only when the element lacks it. |
| ElementListBinder.NearestCarrierFound | src/element-binders/list.js:190-196 | The first ancestor carrying the attribute is found past any that do not carry it. |
| ElementListBinder.GetListItemIndex | src/element-binders/list.js:203-211 | The result is -1 with no list item, and otherwise `parseInt` of its `item-index`. |
| ElementListBinder.StampReadsBack | src/element-binders/list.js:203-211 | The index stamped on an item reads back from the item and from any element inside it. |
| TemplateText.FindToken | src/other/template.js:46-51 | The search finds the leftmost `{{digits}}` placeholder, and there is none before it. |
| TemplateText.Resolve | src/other/template.js:66-79 | A placeholder whose number is stored becomes a segment showing `String(value)` and carrying the item. Any other placeholder stays verbatim text. |
| TemplateText.Lex | src/other/template.js:42-90 | The segments alternate between static text and placeholders. Every reactive segment carries a stored item and shows its text. |
| TemplateText.TextToTextNodes | src/other/template.js:42-90 | There is an odd number of segments, and the last one is static. |
| TemplateText.LexExpands | src/other/template.js:42-90 | The segments' contents, joined, are the text with each placeholder substituted, so no character is lost or added. |
| TemplateText.ExpandWithoutStorage | src/other/template.js:74-77 | With nothing stored, the text is reproduced exactly. |
| TemplateText.PlaceholderResolves | src/other/template.js:161-163 | The placeholder written for expression `i` reads back as the item stored under `i`, between two empty static segments. |
| TemplateMarkup.TrimmedLiterals | src/other/template.js:150-151 | The first literal loses its leading white space and the last its trailing white space. With one literal, the second assignment overwrites the first. |
| TemplateMarkup.Piece | src/other/template.js:155-165 | A reactive expression becomes `{{i}}`, null or undefined become nothing, and anything else becomes `String(value)`. |
| TemplateMarkup.Parts | src/other/template.js:153-167 | Each literal is followed by the piece for its expression. |
| TemplateMarkup.StorageOf | src/other/template.js:158-161 | The storage holds exactly the reactive expressions, keyed by position. |
| TemplateMarkup.Assemble | src/other/template.js:141-172 | The markup's storage is that of the expressions. |
| TemplateMarkup.TrimsAreRedundant | src/other/template.js:150-172 | The literal trims change nothing, because the joined code is trimmed again. |
| TemplateMarkup.StoredPlaceholderReadsBack | src/other/template.js:158-163 | Each stored expression leaves `{{i}}` right after its literal, and that placeholder lexes back to the stored item. |
| TemplateMarkup.IsObjectExactlyObjects | src/other/template.js:97-99 | `isObject` holds exactly for object values: not null, not an array, and of type "object". The constructor check is commented out, so any such object passes, not only plain ones. |
| TemplateMarkup.OptionsOfThis | src/other/template.js:139 | An object receiver supplies the options, and anything else gives none. |
| TemplateMarkup.CreateCustomTaggedTemplate | src/other/template.js:125-128 | The bound template uses the given object as options, and a missing argument gives empty options. |
| Template.DirectiveOf | src/other/template.js:267-323 | The four `v-` names select their directive, and any other attribute name is an attribute binding under that name. |
| Template.DirectiveOfAttribute | src/other/template.js:267-323 | The directive's attribute name is the one it came from. |
| Template.CheckErrorAccepts | src/other/template.js:242-244 | Text and `v-text` accept strings and numbers. `v-html` accepts strings, `v-show` and `v-disabled` accept booleans, and attributes accept strings and nullish values. |
| Template.AttrReactive | src/other/template.js:213-223 | An attribute value resolves to a stored item only when the whole value is one placeholder. |
| Template.AttrPlaceholderResolves | src/other/template.js:213-222 | The attribute `{{i}}` resolves to the item stored under `i`. |
| Template.PlaceholderMustBeWhole | src/other/template.js:213-215 | A value that is not a single whole placeholder binds nothing. |
| Template.SegmentRequests | src/other/template.js:236-249 | A text node queues one text binding per reactive segment, at its own path, and nothing for plain text. |
| Template.AttrsCollected | src/other/template.js:204-226 | An element's attributes queue only attribute or directive bindings at its path, and its refs are recorded there. |
| Template.RefsOf | src/other/template.js:208-211 | A name is in the refs exactly when some `ref` attribute carried it. |
| Template.RefsOfLastWins | src/other/template.js:208-211 | A later `ref` of the same name overwrites an earlier one. |
| Template.Collect | src/other/template.js:191-230 | Everything the walk finds in a subtree is recorded at or below that subtree's element path. Text bindings come only from text nodes. Attribute and directive bindings are never text bindings. A node the walker does not visit adds no binding or ref of its own. |
| Template.CollectChildren | src/other/template.js:191-230 | Attribute and directive bindings and refs found among the children lie strictly below the parent. |
| Template.Walk | src/other/template.js:181-230 | As written, no attribute or directive binding and no ref is recorded for the root element itself. |
| Template.NewTextNodes | src/other/template.js:236-252 | The replacement nodes are text nodes. With static text kept there is one per segment. As written, a text without reactive segments yields none. |
| Template.BindingsOf | src/other/template.js:246-248 | Each queued request gets one active subscription. |
| Template.FirstFailure | src/other/template.js:242-316 | This is the first request that fails its type check, and every earlier one passes. |
| Template.Finish | src/other/template.js:232-336 | The checks run in binding order: all text bindings, then all element bindings. The first failure throws its message and leaves the earlier bindings subscribed. Otherwise the fragment holds every binding and the last element recorded for each ref name. |
| Template.ApplyDirective | src/other/template.js:267-323 | `v-text` writes `String(value)` to `textContent`, `v-html` writes `innerHTML`, `v-show` toggles the hiding class, and `v-disabled` writes `disabled`. Each of these then removes its own attribute. Any other name is bound as an attribute of that name. No other attribute and no child changes, where the class set counts apart from the `class` attribute (see `Dom.Node` under "## Left out"). |
| Template.ApplyAttrs | src/other/template.js:257-325 | Attributes that no stored placeholder binds keep their values. Every bound `v-text`, `v-html`, `v-show` and `v-disabled` attribute is removed. The last bound attribute of any other name reflects its item as an attribute binding does. |
| Template.Rebuild | src/other/template.js:232-325 | Only elements change. An element the walker does not visit keeps its attributes. A visited element gets the guarantees of the element phase. |
| Template.BuildFrom | src/other/template.js:181-336 | The fragment is built exactly when every queued binding passes its check. Otherwise the first failure's message is thrown, and the bindings made before it stay subscribed. A built fragment's root is the rebuilt tree, and it holds one active binding per queued request. |
| Template.HtmlWith | src/other/template.js:137-336 | Markup parsing to several nodes or to none throws the source's two messages. Otherwise the single node is cloned and built. |
| Template.Html | src/other/template.js:137-336 | Markup that parses to no node or to several nodes throws before any binding is made. Otherwise the clone is built with the walk as written: the root element keeps every attribute it was written with, and no attribute or directive binding targets it. |
| Template.RootNotBound | src/other/template.js:181-191 | When the walk skips the root, every binding that is not a text binding lies strictly below the root. |
| Template.HtmlCorrected | src/other/template.js:137-336 | With the root visited, the root element's bound directive attributes are removed, and its bound attributes reflect their items. |
| Template.Unsubscribe | src/other/template.js:328-332 | The unsubscriber ends every binding and keeps the root and the refs. |
| Template.UnsubscribeEndsAll | src/other/template.js:328-332 | After unsubscribing a built fragment, no binding is active. |
| Template.KeptSegmentsShowContents | src/other/template.js:236-252 | When every segment is inserted, the new text nodes spell the segments' contents. |
| Template.CorrectedTextIsSubstituted | src/other/template.js:236-254 | With static text inserted, the nodes that replace a text node spell its text with each stored placeholder substituted. |
| Template.CorrectedKeepsPlainText | src/other/template.js:236-254 | With static text inserted, a text without placeholders is kept as it is. |
| Template.AsWrittenDropsPlainText | src/other/template.js:239 | As written, a text without stored placeholders is removed and nothing replaces it. |
| Template.ParagraphLosesText | src/other/template.js:236-254 | As written, `<p>hi</p>` ends with no children. With static text inserted, it keeps "hi". |
| Template.RootRefIgnored | src/other/template.js:181-211 | As written, a `ref` on the root element is not recorded. The corrected walk records it with the root's empty path. |
| Template.RootDirectiveIgnored | src/other/template.js:181-223 | As written, a placeholder attribute on the root element binds nothing. The corrected walk queues it. |
| Template.WalksDifferOnlyAtRoot | src/other/template.js:181-230 | The corrected walk is the as-written walk plus the root's own attributes. |
| Template.ChildAttributeIsQueued | src/other/template.js:213-223 | A placeholder attribute on a child element is queued at that child's path in either walk. |

## Left out

- Timing. Debounce delays are recorded in each subscription but never elapse. A notification is one call to a binder's `Notify`.
- The store itself. Atoms, computed values and collections are not modelled. A reactive item is its current value, plus an id in templates. A collection change is a descriptor (property name, event type, value, old value).
- The HTML parser and the document. `innerHTML` parsing in `html` is the `parser` parameter, and `options.document` is not modelled.
- Host number formatting and parsing. `String(number)`, `parseFloat` and `Number(string)` come from `JsValue.Host`, because the model has no floating point.
- JsValue.Value: numbers are finite reals or NaN. Infinity, -Infinity and the sign of -0 are not modelled, so `String(-0)`, `1/0` and the like are outside the model.
- Template.RefsOf: the refs object, like the value tables of the radio, checkbox-group and multiple-select binders, is a plain map. JavaScript objects also carry names inherited from `Object.prototype`, such as `constructor` and `__proto__`: a lookup of such a name in an empty table finds something, and an assignment to `__proto__` is not stored. Those names are not modelled.
- TextBinder.Write: assigning `textContent` does not replace the element's children in the model. The same holds for `innerHTML`. Only the property changes.
- ElementListBinder.SetDataOf: a plain object with a numeric `length` property is treated like any other non-array value, and nothing happens.
- ElementListBinder.SetDataOf: a string is split into Dafny characters, while JavaScript indexes UTF-16 code units. The two differ for characters outside the Basic Multilingual Plane, which JavaScript splits into two surrogate items.
- SelectDom.OptionPositions: `select.options` also lists options nested in an `<optgroup>`. The model counts only the select's direct `option` children.
- MultipleSelectBinder.OptionAtName: a digit name that is not a canonical index, such as "01", makes `options["01"]` a lookup by option name or id. The model returns no option.
- RadiosBinder.Write: the browser unchecks the other radios of a group when one is checked. The model states what the code writes, so every other radio keeps its `checked` value.
- Dom.Clone: `cloneNode` does not copy expando properties set by scripts. The model's clone copies every property.
- ElementListBinder.GetListItem: `closest` is modelled with an attribute name, not a full CSS selector. Attribute names are compared exactly here and in `Dom.GetAttribute` and `Dom.SetAttribute`, while HTML elements lower-case them. So `bindToAttr(atom, el, "Title")` followed by `getAttribute("title")` finds the value in a browser and nothing in the model.
- ElementListBinder.SetItemValue: the item setter is an opaque function of the helper and the item details, and each call is recorded. Its result takes the item's place, keeping the item's kind. What a real setter does to the element is therefore not modelled.
- Decimal.ParseInt: `parseInt` is exact on integers. The loss of precision past 2^53 is not modelled, and the same holds for placeholder numbers in templates.
- InputValueBinder.Setter: the browser's sanitisation of a number input's `value` is not modelled. The written string is stored as it is.
- Template.BindingsOf: the binder called for each request is reduced to an active subscription with the merged options. Its first write is modelled by `Template.Rebuild`.
- The `console.warn` in the CSS class binder. It is output only.
- Comment and other non-element, non-text nodes. The walker visits elements and text, and the model's DOM has no other kinds.
- Dom.Node: the `class` attribute, the `classList` set and the `className` property are independent fields, while a browser keeps them as one value. So the frames of `Dom.ToggleClass`, `CssClassBinder.Write`, `ShowBinder.BindToShow`, `ClassNameBinder.BindToClassName`, `AttributeBinder.Write` and `Template.ApplyDirective` hold for the model only. In a browser, `v-show` adding "d-none" to `<div class="mt-3">` rewrites the `class` attribute to "mt-3 d-none", and a later reactive `class` attribute clears the hiding class.
- Dom.ToggleClass: `classList.toggle` throws a SyntaxError for "" and an InvalidCharacterError for a token with white space. The model accepts every token, so a bad `cssClassName` or `hide_class_name` is not an error here.
- Dom.SetAttribute: `setAttribute` throws an InvalidCharacterError for a name that is not a valid attribute name. The model accepts every name, so a bad `attribute_name` is not an error here.
- Exceptions thrown by user callbacks (item setters, element creators, comparison functions). These are treated as total functions.
- Concurrency. JavaScript's event loop runs one callback at a time, and the model applies events in sequence.

## Findings

| source | as written | input that shows it | evidently intended | confidence | as-written member | corrected member |
|---|---|---|---|---|---|---|
| src/other/template.js:236-254 | A static segment hits `continue` at line 239 before `insertBefore`. Then the original text node is removed, so all plain text inside the markup disappears. | `` html`<p>hi</p>` `` gives a paragraph with no children. `<button>-</button>` in the counter example loses its "-". | Every segment is inserted: static ones as plain text nodes, reactive ones bound to text. This is what `textToTextNodes` prepares and what the examples show. | not executed | Template.ParagraphLosesText | Template.CorrectedTextIsSubstituted |
| src/other/template.js:181-191 | The tree walker starts at the root, and `nextNode()` never returns the root itself. So the root element's `ref` and placeholder attributes are never processed. | `` html`<div ref="box"></div>` `` gives empty refs. `` html`<div title=${atom}></div>` `` binds nothing. | The root element is processed like any other element. | not executed | Template.RootDirectiveIgnored | Template.WalksDifferOnlyAtRoot |
| src/element-binders/two-way-bindings/input_value.js:69-73 | The unsubscriber removes an "input" listener. A lazy binding, and every binding of a number input, listens for "change" (line 55), so that listener stays registered. | `bindToInputValue(atom, numberInput)`, then the unsubscriber: a later "change" still assigns `atom.value`. | The unsubscriber removes the listener the binding added. | not executed | InputValueBinder.TeardownLeavesChangeListener | InputValueBinder.TeardownCorrectedRestoresListeners |

`Template.Html` models `html` as written. `Template.HtmlCorrected` inserts static text and visits the root.

=== FILE: attribute.dfy ===
/** `bindToAttr(reactive_item, element, attribute_name, options)`: a string value
    becomes the attribute's value, null or undefined removes the attribute, and
    any other value leaves the element as it is. */
module AttributeBinder {
  import opened Wrappers
  import opened JsValue
  import opened Dom
  import opened BindOptions
  import Binder

  /** The context object `{attribute_name}`. */
  datatype AttributeCtx = AttributeCtx(attributeName: string)

  function Write(v: Value, element: Node, ctx: AttributeCtx): (r: Node)
    ensures v.Str? ==> GetAttribute(r, ctx.attributeName) == Some(v.s)
    ensures IsNullish(v) ==> GetAttribute(r, ctx.attributeName) == None
    ensures !v.Str? && !IsNullish(v) ==> r == element
    ensures forall other :: other != ctx.attributeName ==> GetAttribute(r, other) == GetAttribute(element, other)
    ensures r == element.(attrs := r.attrs)
  {
    if v.Str? then SetAttribute(element, ctx.attributeName, v.s)
    else if IsNullish(v) then RemoveAttribute(element, ctx.attributeName)
    else element
  }

  function Setter(): Binder.Setter<AttributeCtx> {
    (v, e, ctx, o) => Write(v, e, ctx)
  }

  /** What an attribute binding keeps true: the attribute shows a string value
      and is absent for null or undefined; other values impose nothing. */
  predicate Reflects(name: string, v: Value, n: Node) {
    && (v.Str? ==> GetAttribute(n, name) == Some(v.s))
    && (IsNullish(v) ==> GetAttribute(n, name) == None)
  }

  function BindToAttr(globals: Options, current: Value, element: Node, name: string, options: Options)
    : (r: (Node, Binder.Binding<AttributeCtx>))
    ensures Reflects(name, current, r.0)
    ensures forall other :: other != name ==> GetAttribute(r.0, other) == GetAttribute(element, other)
    ensures r.0 == element.(attrs := r.0.attrs)
    ensures r.1.ctx == AttributeCtx(name) && r.1.options == Assign(globals, options)
    ensures r.1.subscription.active
  {
    AssignAbsorbs(globals, options);
    Binder.Bind(globals, Setter(), current, element, AttributeCtx(name), Assign(globals, options))
  }

  /** While an attribute binding is subscribed, the attribute follows the
      reactive item's current value. */
  lemma AttributeStaysInSync(globals: Options, current: Value, element: Node, name: string, options: Options,
                             steps: seq<Binder.Step>)
    ensures var (e, b) := BindToAttr(globals, current, element, name, options);
            var w := Binder.Run(Setter(), Binder.World(current, e, b), steps);
            w.binding.subscription.active ==> Reflects(name, w.source, w.element)
  {
    var reflects := (v: Value, n: Node) => Reflects(name, v, n);
    var (e, b) := BindToAttr(globals, current, element, name, options);
    Binder.RunKeepsInSync(Setter(), reflects, Binder.World(current, e, b), steps);
  }
}

=== FILE: binder.dfy ===
/** The binder core shared by the one-way binders: merge the options with the
    library defaults, apply the setter once, then subscribe to the reactive item
    so that every notification applies the setter again, unless the binding is
    set to disconnect automatically and the element has left the document, in
    which case the subscription cancels itself without touching the element. */
module Binder {
  import opened JsValue
  import opened Dom
  import opened BindOptions
  import opened Reactive

  /** A setter writes the current value of the reactive item into the element,
      given the binder's context and the merged options. */
  type Setter<!C> = (Value, Node, C, Options) -> Node

  /** A live binding: the context and merged options the setter is called with,
      and the subscription to the reactive item. */
  datatype Binding<C> = Binding(ctx: C, options: Options, subscription: Subscription)

  /** `binder(reactive_item, element, setter, ctx, options)`: the element after
      the initial write, and the binding holding an active subscription with
      the merged debounce time. */
  function Bind<C>(globals: Options, setter: Setter<C>, current: Value, element: Node, ctx: C, options: Options)
    : (r: (Node, Binding<C>))
    ensures r.0 == setter(current, element, ctx, Assign(globals, options))
    ensures r.1.ctx == ctx && r.1.options == Assign(globals, options)
    ensures r.1.subscription.active
    ensures r.1.subscription.debounceTime == (if "debounce_time" in options then options["debounce_time"] else DebounceTime(globals))
  {
    var merged := Assign(globals, options);
    (setter(current, element, ctx, merged), Binding(ctx, merged, Subscription(true, DebounceTime(merged))))
  }

  /** Whether a notification finds the binding set to disconnect and the element
      out of the document. */
  predicate Detaches<C>(b: Binding<C>, element: Node) {
    AutoDisconnect(b.options) && !element.connected
  }

  /** The subscriber callback, run when the reactive item notifies with
      `current` as its value. */
  function Notify<C>(setter: Setter<C>, b: Binding<C>, current: Value, element: Node): (r: (Node, Binding<C>))
    ensures !b.subscription.active ==> r == (element, b)
    ensures b.subscription.active && Detaches(b, element) ==>
              r.0 == element && r.1 == b.(subscription := Cancel(b.subscription))
    ensures b.subscription.active && !Detaches(b, element) ==>
              r.0 == setter(current, element, b.ctx, b.options) && r.1 == b
  {
    if !b.subscription.active then (element, b)
    else if Detaches(b, element) then (element, b.(subscription := Cancel(b.subscription)))
    else (setter(current, element, b.ctx, b.options), b)
  }

  /** The unsubscriber the binder returns. */
  function Unsubscribe<C>(b: Binding<C>): (r: Binding<C>)
    ensures !r.subscription.active
    ensures r.ctx == b.ctx && r.options == b.options
  {
    b.(subscription := Cancel(b.subscription))
  }

  // ---------------------------------------------------------------------------
  // Runs: what a binding does over a sequence of events

  /** An event in the life of a binding: the reactive item takes a new value
      (and notifies), the element is attached to or detached from the document,
      or the caller unsubscribes. */
  datatype Step = SourceSet(v: Value) | Attach(connected: bool) | Cancelled

  /** The reactive item's value, the bound element and the binding. */
  datatype World<C> = World(source: Value, element: Node, binding: Binding<C>)

  function Apply<C>(setter: Setter<C>, w: World<C>, s: Step): World<C> {
    match s
    case SourceSet(v) =>
      var (e, b) := Notify(setter, w.binding, v, w.element);
      World(v, e, b)
    case Attach(c) => w.(element := w.element.(connected := c))
    case Cancelled => w.(binding := Unsubscribe(w.binding))
  }

  function Run<C>(setter: Setter<C>, w: World<C>, steps: seq<Step>): World<C>
    decreases |steps|
  {
    if steps == [] then w else Run(setter, Apply(setter, w, steps[0]), steps[1..])
  }

  /** The world right after `binder(...)` returns. */
  function Start<C>(globals: Options, setter: Setter<C>, current: Value, element: Node, ctx: C, options: Options): World<C> {
    var (e, b) := Bind(globals, setter, current, element, ctx, options);
    World(current, e, b)
  }

  /** The binding keeps the element reflecting the reactive item's value. */
  predicate InSync<C>(reflects: (Value, Node) -> bool, w: World<C>) {
    w.binding.subscription.active ==> reflects(w.source, w.element)
  }

  /** What a setter must guarantee for `reflects` to be kept: each write makes the
      element reflect the value written, and attaching or detaching the element
      does not change what it reflects. */
  ghost predicate Establishes<C>(setter: Setter<C>, reflects: (Value, Node) -> bool, ctx: C, options: Options) {
    && (forall v, e :: reflects(v, setter(v, e, ctx, options)))
    && (forall v, e, c :: reflects(v, e) ==> reflects(v, e.(connected := c)))
  }

  /** While the subscription is active, the element reflects the reactive item's
      current value, whatever happens in between. */
  lemma {:induction false} RunKeepsInSync<C>(setter: Setter<C>, reflects: (Value, Node) -> bool, w: World<C>, steps: seq<Step>)
    requires Establishes(setter, reflects, w.binding.ctx, w.binding.options)
    requires InSync(reflects, w)
    ensures InSync(reflects, Run(setter, w, steps))
    decreases |steps|
  {
    if steps != [] {
      var w' := Apply(setter, w, steps[0]);
      assert InSync(reflects, w') by {
        match steps[0]
        case SourceSet(v) =>
        case Attach(c) =>
        case Cancelled =>
      }
      RunKeepsInSync(setter, reflects, w', steps[1..]);
    }
  }

  /** From the moment `binder(...)` returns, an active binding keeps the element
      reflecting the reactive item's current value. */
  lemma BoundStaysInSync<C>(globals: Options, setter: Setter<C>, reflects: (Value, Node) -> bool,
                            current: Value, element: Node, ctx: C, options: Options, steps: seq<Step>)
    requires Establishes(setter, reflects, ctx, Assign(globals, options))
    ensures InSync(reflects, Run(setter, Start(globals, setter, current, element, ctx, options), steps))
  {
    RunKeepsInSync(setter, reflects, Start(globals, setter, current, element, ctx, options), steps);
  }

  /** Once unsubscribed, whether by the caller or by itself, a binding never
      writes the element again and never comes back: only attaching and
      detaching change the element. */
  lemma {:induction false} CancelledIsFrozen<C>(setter: Setter<C>, w: World<C>, steps: seq<Step>)
    requires !w.binding.subscription.active
    ensures !Run(setter, w, steps).binding.subscription.active
    ensures Run(setter, w, steps).element.(connected := w.element.connected) == w.element
    decreases |steps|
  {
    if steps != [] {
      CancelledIsFrozen(setter, Apply(setter, w, steps[0]), steps[1..]);
    }
  }

  /** Without automatic disconnection, only the caller ends a binding. */
  lemma {:induction false} StaysActiveUntilCancelled<C>(setter: Setter<C>, w: World<C>, steps: seq<Step>)
    requires w.binding.subscription.active && !AutoDisconnect(w.binding.options)
    requires Cancelled !in steps
    ensures Run(setter, w, steps).binding == w.binding
    decreases |steps|
  {
    if steps != [] {
      assert steps[0] != Cancelled;
      StaysActiveUntilCancelled(setter, Apply(setter, w, steps[0]), steps[1..]);
    }
  }

  /** With automatic disconnection, the first notification that finds the
      element out of the document ends the binding. */
  lemma DetachedNotificationEnds<C>(setter: Setter<C>, w: World<C>, v: Value)
    requires AutoDisconnect(w.binding.options) && !w.element.connected
    ensures !Apply(setter, w, SourceSet(v)).binding.subscription.active
    ensures Apply(setter, w, SourceSet(v)).element == w.element
  {
  }
}

=== FILE: checkbox_checked.dfy ===
/** `bindToCheckbox(reactive_item, checkbox, options)`: a two-way binding between
    a boolean reactive item and a checkbox's `checked` state. The item's value is
    written to the checkbox; a "change" event writes the checkbox's state back to
    the item. Automatic disconnection ends the whole binding, listener included. */
module CheckboxBinder {
  import opened Wrappers
  import opened JsValue
  import opened Dom
  import opened BindOptions
  import opened Reactive

  /** The merged options, the identity of the "change" callback and the
      subscription. */
  datatype CheckboxBinding = CheckboxBinding(options: Options, handler: HandlerId, subscription: Subscription)

  function ChangeListener(h: HandlerId): Listener {
    Listener("change", h)
  }

  /** The setter: `checkbox.checked = value`. */
  function Write(v: Value, checkbox: Node): (r: Node)
    ensures GetProp(r, "checked") == Bool(Truthy(v))
    ensures forall other :: other != "checked" ==> GetProp(r, other) == GetProp(checkbox, other)
    ensures r == checkbox.(props := r.props)
  {
    SetProp(checkbox, "checked", Bool(Truthy(v)))
  }

  /** `bindToCheckbox`: write the current value, listen for "change" and
      subscribe. `h` is the identity of the new callback. */
  function BindToCheckbox(globals: Options, current: Value, checkbox: Node, options: Options, h: HandlerId)
    : (r: (Node, CheckboxBinding))
    ensures GetProp(r.0, "checked") == Bool(Truthy(current))
    ensures r.0.listeners == checkbox.listeners + {ChangeListener(h)}
    ensures forall p :: p != "checked" ==> GetProp(r.0, p) == GetProp(checkbox, p)
    ensures r.0 == checkbox.(props := r.0.props, listeners := r.0.listeners)
    ensures r.1 == CheckboxBinding(Assign(globals, options), h, Subscription(true, DebounceTime(Assign(globals, options))))
  {
    var merged := Assign(globals, options);
    (AddListener(Write(current, checkbox), ChangeListener(h)),
     CheckboxBinding(merged, h, Subscription(true, DebounceTime(merged))))
  }

  /** `unsubscribe_main`: drop the listener and the subscription. */
  function Teardown(b: CheckboxBinding, checkbox: Node): (r: (Node, CheckboxBinding))
    ensures r.0.listeners == checkbox.listeners - {ChangeListener(b.handler)}
    ensures r.0 == checkbox.(listeners := r.0.listeners)
    ensures !r.1.subscription.active && r.1.handler == b.handler && r.1.options == b.options
  {
    (RemoveListener(checkbox, ChangeListener(b.handler)), b.(subscription := Cancel(b.subscription)))
  }

  /** The subscriber callback with the notification's value. */
  function Notify(b: CheckboxBinding, value: Value, checkbox: Node): (r: (Node, CheckboxBinding))
    ensures !b.subscription.active ==> r == (checkbox, b)
    ensures b.subscription.active && AutoDisconnect(b.options) && !checkbox.connected ==>
              r == Teardown(b, checkbox)
    ensures b.subscription.active && !(AutoDisconnect(b.options) && !checkbox.connected) ==>
              r.1 == b && GetProp(r.0, "checked") == Bool(Truthy(value)) && r.0.listeners == checkbox.listeners
  {
    if !b.subscription.active then (checkbox, b)
    else if AutoDisconnect(b.options) && !checkbox.connected then Teardown(b, checkbox)
    else (Write(value, checkbox), b)
  }

  /** A "change" event on the checkbox: the value the callback assigns to the
      reactive item, if the callback is still registered. */
  function OnChange(b: CheckboxBinding, checkbox: Node): (r: Option<Value>)
    ensures r.Some? <==> ChangeListener(b.handler) in checkbox.listeners
    ensures r.Some? ==> r.value == GetProp(checkbox, "checked")
  {
    if ChangeListener(b.handler) in checkbox.listeners then Some(GetProp(checkbox, "checked")) else None
  }

  // ---------------------------------------------------------------------------
  // Runs of a checkbox binding

  /** The reactive item takes a value, the user sets the checkbox (which fires
      "change"), the checkbox is attached or detached, or the caller tears the
      binding down. */
  datatype Step = SourceSet(v: Value) | UserSets(checked: bool) | Attach(connected: bool) | Unbind

  datatype World = World(source: Value, checkbox: Node, binding: CheckboxBinding)

  function Apply(w: World, s: Step): World {
    match s
    case SourceSet(v) =>
      var (c, b) := Notify(w.binding, v, w.checkbox);
      World(v, c, b)
    case UserSets(checked) =>
      var c := SetProp(w.checkbox, "checked", Bool(checked));
      (match OnChange(w.binding, c)
       case Some(v) =>
         var (c', b) := Notify(w.binding, v, c);
         World(v, c', b)
       case None => w.(checkbox := c))
    case Attach(connected) => w.(checkbox := w.checkbox.(connected := connected))
    case Unbind =>
      var (c, b) := Teardown(w.binding, w.checkbox);
      w.(checkbox := c, binding := b)
  }

  function Run(w: World, steps: seq<Step>): World
    decreases |steps|
  {
    if steps == [] then w else Run(Apply(w, steps[0]), steps[1..])
  }

  /** While subscribed, the listener is in place and the checkbox is checked
      exactly when the item's value is truthy; once ended, the listener is gone. */
  predicate Synced(w: World) {
    && (w.binding.subscription.active ==>
          ChangeListener(w.binding.handler) in w.checkbox.listeners
          && GetProp(w.checkbox, "checked") == Bool(Truthy(w.source)))
    && (!w.binding.subscription.active ==> ChangeListener(w.binding.handler) !in w.checkbox.listeners)
  }

  lemma {:induction false} RunStaysSynced(w: World, steps: seq<Step>)
    requires Synced(w)
    ensures Synced(Run(w, steps))
    decreases |steps|
  {
    if steps != [] {
      var w' := Apply(w, steps[0]);
      assert Synced(w') by {
        match steps[0]
        case SourceSet(v) =>
        case UserSets(checked) =>
          var c := SetProp(w.checkbox, "checked", Bool(checked));
          assert c.listeners == w.checkbox.listeners;
        case Attach(connected) =>
        case Unbind =>
      }
      RunStaysSynced(w', steps[1..]);
    }
  }

  /** From the moment `bindToCheckbox` returns, in both directions: the checkbox
      shows the item's value and the item takes what the user sets, until the
      binding ends. */
  lemma CheckboxStaysSynced(globals: Options, current: Value, checkbox: Node, options: Options, h: HandlerId,
                            steps: seq<Step>)
    ensures var (c, b) := BindToCheckbox(globals, current, checkbox, options, h);
            Synced(Run(World(current, c, b), steps))
  {
    var (c, b) := BindToCheckbox(globals, current, checkbox, options, h);
    RunStaysSynced(World(current, c, b), steps);
  }
}

=== FILE: checkboxes_values.dfy ===
/** `bindToCheckboxValues(collection, checkboxes, options)`: a two-way binding
    between a collection of strings and a list of checkboxes. A checkbox is
    checked when its value is in the collection; a "change" on any checkbox
    replaces the collection by the values of the checked ones, in list order.
    Nothing is written when the binding is made. */
module CheckboxValuesBinder {
  import opened Wrappers
  import opened JsValue
  import opened Dom
  import opened BindOptions
  import opened Reactive
  import KeyIndex

  /** `data`: the checkbox for each value, built when the binding is made;
      `count` is the length of the list. */
  datatype CheckboxValuesBinding = CheckboxValuesBinding(
    options: Options, handler: HandlerId, subscription: Subscription, data: map<string, nat>, count: nat)

  function ChangeListener(h: HandlerId): Listener {
    Listener("change", h)
  }

  function BoxValue(c: Node): string {
    PropString(c, "value")
  }

  function ValueKeys(boxes: seq<Node>): (keys: seq<Option<string>>)
    ensures |keys| == |boxes| && forall i :: 0 <= i < |boxes| ==> keys[i] == Some(BoxValue(boxes[i]))
  {
    seq(|boxes|, i requires 0 <= i < |boxes| => Some(BoxValue(boxes[i])))
  }

  predicate WellFormed(b: CheckboxValuesBinding) {
    forall k :: k in b.data ==> b.data[k] < b.count
  }

  function AddListenerAll(boxes: seq<Node>, l: Listener): (r: seq<Node>)
    ensures |r| == |boxes| && forall i :: 0 <= i < |boxes| ==> r[i] == AddListener(boxes[i], l)
  {
    seq(|boxes|, i requires 0 <= i < |boxes| => AddListener(boxes[i], l))
  }

  function RemoveListenerAll(boxes: seq<Node>, l: Listener): (r: seq<Node>)
    ensures |r| == |boxes| && forall i :: 0 <= i < |boxes| ==> r[i] == RemoveListener(boxes[i], l)
  {
    seq(|boxes|, i requires 0 <= i < |boxes| => RemoveListener(boxes[i], l))
  }

  function BindToCheckboxValues(globals: Options, boxes: seq<Node>, options: Options, h: HandlerId)
    : (r: (seq<Node>, CheckboxValuesBinding))
    ensures r.0 == AddListenerAll(boxes, ChangeListener(h))
    ensures WellFormed(r.1) && r.1.count == |boxes| && r.1.data == KeyIndex.LastIndex(ValueKeys(boxes))
    ensures r.1.handler == h && r.1.subscription.active && r.1.options == Assign(globals, options)
  {
    var merged := Assign(globals, options);
    (AddListenerAll(boxes, ChangeListener(h)),
     CheckboxValuesBinding(merged, h, Subscription(true, DebounceTime(merged)), KeyIndex.LastIndex(ValueKeys(boxes)), |boxes|))
  }

  /** The setter loop from position `i` on: the checkbox the table holds for the
      i-th checkbox's current value is checked exactly when that value is in the
      collection. A value missing from the table is a TypeError. */
  function WriteFrom(boxes: seq<Node>, data: map<string, nat>, items: seq<Value>, i: nat): (r: Result<seq<Node>, JsError>)
    requires i <= |boxes| && forall k :: k in data ==> data[k] < |boxes|
    ensures r.Ok? ==> |r.value| == |boxes|
    decreases |boxes| - i
  {
    if i == |boxes| then Ok(boxes)
    else
      var value := BoxValue(boxes[i]);
      if value !in data then Err(TypeError)
      else
        var target := data[value];
        WriteFrom(boxes[target := SetProp(boxes[target], "checked", Bool(Str(value) in items))], data, items, i + 1)
  }

  /** The write throws exactly when a checkbox from position `i` on has a value
      the table built at bind time does not hold: the writes touch only
      `checked`, so every value read later is the one the checkbox had. */
  lemma {:induction false} WriteFromFailsIffUnknown(boxes: seq<Node>, data: map<string, nat>, items: seq<Value>, i: nat)
    requires i <= |boxes| && forall k :: k in data ==> data[k] < |boxes|
    ensures WriteFrom(boxes, data, items, i).Err? <==> exists k :: i <= k < |boxes| && BoxValue(boxes[k]) !in data
    decreases |boxes| - i
  {
    if i < |boxes| && BoxValue(boxes[i]) in data {
      var value := BoxValue(boxes[i]);
      var target := data[value];
      var next := boxes[target := SetProp(boxes[target], "checked", Bool(Str(value) in items))];
      assert forall k :: 0 <= k < |boxes| ==> BoxValue(next[k]) == BoxValue(boxes[k]);
      WriteFromFailsIffUnknown(next, data, items, i + 1);
      if exists k :: i <= k < |boxes| && BoxValue(boxes[k]) !in data {
        var k :| i <= k < |boxes| && BoxValue(boxes[k]) !in data;
        assert BoxValue(next[k]) !in data;
      }
    }
  }

  /** The subscriber callback; `items` is the collection's current value. */
  function Notify(b: CheckboxValuesBinding, items: seq<Value>, boxes: seq<Node>)
    : (r: Result<(seq<Node>, CheckboxValuesBinding), JsError>)
    requires WellFormed(b) && |boxes| == b.count
    ensures !b.subscription.active ==> r == Ok((boxes, b))
    ensures b.subscription.active && AutoDisconnect(b.options) && |boxes| == 0 ==> r == Err(TypeError)
    ensures b.subscription.active && AutoDisconnect(b.options) && |boxes| > 0 && !boxes[0].connected ==>
              r == Ok((boxes, b.(subscription := Cancel(b.subscription))))
    ensures b.subscription.active && (!AutoDisconnect(b.options) || (|boxes| > 0 && boxes[0].connected)) ==>
              (r.Err? <==> exists k :: 0 <= k < |boxes| && BoxValue(boxes[k]) !in b.data)
    ensures r.Ok? ==> |r.value.0| == |boxes| && r.value.1.data == b.data && r.value.1.count == b.count
  {
    WriteFromFailsIffUnknown(boxes, b.data, items, 0);
    if !b.subscription.active then Ok((boxes, b))
    else if AutoDisconnect(b.options) && |boxes| == 0 then Err(TypeError)
    else if AutoDisconnect(b.options) && !boxes[0].connected then Ok((boxes, b.(subscription := Cancel(b.subscription))))
    else
      match WriteFrom(boxes, b.data, items, 0)
      case Ok(written) => Ok((written, b))
      case Err(e) => Err(e)
  }

  /** The values of the checked checkboxes, in list order. */
  function CheckedValues(boxes: seq<Node>): (vs: seq<Value>)
    ensures |vs| <= |boxes|
  {
    if boxes == [] then []
    else (if Truthy(GetProp(boxes[0], "checked")) then [Str(BoxValue(boxes[0]))] else []) + CheckedValues(boxes[1..])
  }

  /** A "change" event on checkbox `i`: the callback assigns the checked values. */
  function OnChange(b: CheckboxValuesBinding, boxes: seq<Node>, i: nat): (r: Option<seq<Value>>)
    requires i < |boxes|
    ensures r.Some? <==> ChangeListener(b.handler) in boxes[i].listeners
    ensures r.Some? ==> r.value == CheckedValues(boxes)
  {
    if ChangeListener(b.handler) in boxes[i].listeners then Some(CheckedValues(boxes)) else None
  }

  /** The returned unsubscriber. */
  function Teardown(b: CheckboxValuesBinding, boxes: seq<Node>): (r: (seq<Node>, CheckboxValuesBinding))
    ensures r.0 == RemoveListenerAll(boxes, ChangeListener(b.handler)) && !r.1.subscription.active
  {
    (RemoveListenerAll(boxes, ChangeListener(b.handler)), b.(subscription := Cancel(b.subscription)))
  }

  // ---------------------------------------------------------------------------
  // What the setter loop computes

  /** A checkbox showing whether its value is in `items`. */
  function Written(box: Node, items: seq<Value>): (r: Node)
    ensures BoxValue(r) == BoxValue(box)
  {
    SetProp(box, "checked", Bool(Str(BoxValue(box)) in items))
  }

  /** After a write of `items`, the checkbox the table holds for each value shows
      membership in `items`; every other one is untouched. */
  function Expected(boxes: seq<Node>, items: seq<Value>): (r: seq<Node>)
    ensures |r| == |boxes|
  {
    seq(|boxes|, j requires 0 <= j < |boxes| =>
      if KeyIndex.IsLastHolder(ValueKeys(boxes), j) then Written(boxes[j], items) else boxes[j])
  }

  /** Some position below `i` carries the value of position `j`. */
  predicate SeenBefore(boxes: seq<Node>, i: nat, j: nat)
    requires j < |boxes|
  {
    exists k :: 0 <= k < i && k < |boxes| && BoxValue(boxes[k]) == BoxValue(boxes[j])
  }

  /** The state of the loop once positions below `i` are done. */
  function Partial(boxes: seq<Node>, items: seq<Value>, i: nat): (r: seq<Node>)
    ensures |r| == |boxes|
  {
    seq(|boxes|, j requires 0 <= j < |boxes| =>
      if KeyIndex.IsLastHolder(ValueKeys(boxes), j) && SeenBefore(boxes, i, j) then Written(boxes[j], items)
      else boxes[j])
  }

  /** Every checkbox's value is in the table. */
  lemma ValueInTable(boxes: seq<Node>, i: nat)
    requires i < |boxes|
    ensures BoxValue(boxes[i]) in KeyIndex.LastIndex(ValueKeys(boxes))
  {
    KeyIndex.LastIndexSpec(ValueKeys(boxes));
    assert ValueKeys(boxes)[i] == Some(BoxValue(boxes[i]));
  }

  /** One turn of the loop takes the state for `i` to the state for `i + 1`. */
  lemma PartialStep(boxes: seq<Node>, items: seq<Value>, i: nat)
    requires i < |boxes|
    ensures var data := KeyIndex.LastIndex(ValueKeys(boxes));
            var value := BoxValue(boxes[i]);
            var cur := Partial(boxes, items, i);
            && value in data
            && cur[data[value] := SetProp(cur[data[value]], "checked", Bool(Str(value) in items))] == Partial(boxes, items, i + 1)
  {
    var keys := ValueKeys(boxes);
    var data := KeyIndex.LastIndex(keys);
    var value := BoxValue(boxes[i]);
    ValueInTable(boxes, i);
    var target := data[value];
    var cur := Partial(boxes, items, i);
    var next := cur[target := SetProp(cur[target], "checked", Bool(Str(value) in items))];
    var want := Partial(boxes, items, i + 1);
    forall j | 0 <= j < |boxes| ensures next[j] == want[j] {
      PartialStepAt(boxes, items, i, j);
    }
  }

  lemma PartialStepAt(boxes: seq<Node>, items: seq<Value>, i: nat, j: nat)
    requires i < |boxes| && j < |boxes|
    requires BoxValue(boxes[i]) in KeyIndex.LastIndex(ValueKeys(boxes))
    ensures var data := KeyIndex.LastIndex(ValueKeys(boxes));
            var value := BoxValue(boxes[i]);
            var cur := Partial(boxes, items, i);
            cur[data[value] := SetProp(cur[data[value]], "checked", Bool(Str(value) in items))][j] == Partial(boxes, items, i + 1)[j]
  {
    var keys := ValueKeys(boxes);
    var data := KeyIndex.LastIndex(keys);
    var value := BoxValue(boxes[i]);
    if j == data[value] {
      StepAtTarget(boxes, items, i);
    } else {
      StepElsewhere(boxes, items, i, j);
    }
  }

  lemma StepAtTarget(boxes: seq<Node>, items: seq<Value>, i: nat)
    requires i < |boxes|
    requires BoxValue(boxes[i]) in KeyIndex.LastIndex(ValueKeys(boxes))
    ensures var target := KeyIndex.LastIndex(ValueKeys(boxes))[BoxValue(boxes[i])];
            SetProp(Partial(boxes, items, i)[target], "checked", Bool(Str(BoxValue(boxes[i])) in items))
              == Partial(boxes, items, i + 1)[target]
  {
    var keys := ValueKeys(boxes);
    var value := BoxValue(boxes[i]);
    var target := KeyIndex.LastIndex(keys)[value];
    assert keys[target] == Some(value);
    assert KeyIndex.IsLastHolder(keys, target);
    assert SeenBefore(boxes, i + 1, target);
    var w := Written(boxes[target], items);
    assert Partial(boxes, items, i + 1)[target] == w;
    SetPropSame(w, "checked", Bool(Str(value) in items));
  }

  lemma StepElsewhere(boxes: seq<Node>, items: seq<Value>, i: nat, j: nat)
    requires i < |boxes| && j < |boxes|
    requires BoxValue(boxes[i]) in KeyIndex.LastIndex(ValueKeys(boxes))
    requires j != KeyIndex.LastIndex(ValueKeys(boxes))[BoxValue(boxes[i])]
    ensures Partial(boxes, items, i)[j] == Partial(boxes, items, i + 1)[j]
  {
    var keys := ValueKeys(boxes);
    if KeyIndex.IsLastHolder(keys, j) {
      assert BoxValue(boxes[j]) != BoxValue(boxes[i]) by {
        assert keys[j] == Some(BoxValue(boxes[j]));
      }
      assert SeenBefore(boxes, i + 1, j) == SeenBefore(boxes, i, j) by {
        if SeenBefore(boxes, i + 1, j) {
          var k :| 0 <= k < i + 1 && k < |boxes| && BoxValue(boxes[k]) == BoxValue(boxes[j]);
          assert k != i;
        }
      }
    }
  }

  lemma PartialDone(boxes: seq<Node>, items: seq<Value>)
    ensures Partial(boxes, items, |boxes|) == Expected(boxes, items)
  {
    forall j | 0 <= j < |boxes| ensures Partial(boxes, items, |boxes|)[j] == Expected(boxes, items)[j] {
      SeenBeforeSelf(boxes, |boxes|, j);
    }
  }

  lemma SeenBeforeSelf(boxes: seq<Node>, i: nat, j: nat)
    requires j < i && j < |boxes|
    ensures SeenBefore(boxes, i, j)
  {
    assert 0 <= j < i && BoxValue(boxes[j]) == BoxValue(boxes[j]);
  }

  /** A checkbox that already shows a given `checked` value is unchanged by writing it again. */
  lemma SetPropSame(n: Node, key: string, v: Value)
    requires key in n.props && n.props[key] == v
    ensures SetProp(n, key, v) == n
  {
    assert n.props[key := v] == n.props;
  }

  /** The loop state changes `checked` only, so every value stays where it was. */
  lemma PartialValue(boxes: seq<Node>, items: seq<Value>, i: nat, j: nat)
    requires j < |boxes|
    ensures BoxValue(Partial(boxes, items, i)[j]) == BoxValue(boxes[j])
  {
  }

  /** One turn of the setter loop, unfolded. */
  lemma WriteFromStep(cur: seq<Node>, data: map<string, nat>, items: seq<Value>, i: nat)
    requires i < |cur| && forall k :: k in data ==> data[k] < |cur|
    requires BoxValue(cur[i]) in data
    ensures var value := BoxValue(cur[i]);
            WriteFrom(cur, data, items, i)
              == WriteFrom(cur[data[value] := SetProp(cur[data[value]], "checked", Bool(Str(value) in items))], data, items, i + 1)
  {
  }

  /** One turn of the loop, from the state for `i` to the state for `i + 1`. */
  lemma WriteFromPartialStep(boxes: seq<Node>, items: seq<Value>, i: nat)
    requires i < |boxes|
    ensures var data := KeyIndex.LastIndex(ValueKeys(boxes));
            WriteFrom(Partial(boxes, items, i), data, items, i) == WriteFrom(Partial(boxes, items, i + 1), data, items, i + 1)
  {
    var data := KeyIndex.LastIndex(ValueKeys(boxes));
    var cur := Partial(boxes, items, i);
    PartialValue(boxes, items, i, i);
    PartialStep(boxes, items, i);
    WriteFromStep(cur, data, items, i);
  }

  /** The setter loop run over a family of states of which each turn takes
      state `k` to state `k + 1` ends in the last state. */
  lemma {:induction false} WriteFromChain(data: map<string, nat>, items: seq<Value>, states: nat -> seq<Node>, n: nat, i: nat)
    requires i <= n && forall key :: key in data ==> data[key] < n
    requires forall k :: i <= k <= n ==> |states(k)| == n
    requires forall k :: i <= k < n ==> WriteFrom(states(k), data, items, k) == WriteFrom(states(k + 1), data, items, k + 1)
    ensures WriteFrom(states(i), data, items, i) == Ok(states(n))
    decreases n - i
  {
    if i < n {
      WriteFromChain(data, items, states, n, i + 1);
    }
  }

  lemma WriteFromPartial(boxes: seq<Node>, items: seq<Value>)
    ensures WriteFrom(Partial(boxes, items, 0), KeyIndex.LastIndex(ValueKeys(boxes)), items, 0) == Ok(Expected(boxes, items))
  {
    var data := KeyIndex.LastIndex(ValueKeys(boxes));
    var states := (k: nat) => Partial(boxes, items, k);
    WriteFromPartialSteps(boxes, items);
    WriteFromChain(data, items, states, |boxes|, 0);
    PartialDone(boxes, items);
  }

  lemma WriteFromPartialSteps(boxes: seq<Node>, items: seq<Value>)
    ensures var data := KeyIndex.LastIndex(ValueKeys(boxes));
            forall k :: 0 <= k < |boxes| ==>
              WriteFrom(Partial(boxes, items, k), data, items, k) == WriteFrom(Partial(boxes, items, k + 1), data, items, k + 1)
  {
    forall k | 0 <= k < |boxes| {
      WriteFromPartialStep(boxes, items, k);
    }
  }

  /** As long as no checkbox's value changed since the binding was made, a write
      succeeds, and afterwards the last checkbox carrying each value is checked
      exactly when that value is in the collection; no other checkbox changes. */
  lemma WriteSpec(boxes: seq<Node>, items: seq<Value>)
    ensures var data := KeyIndex.LastIndex(ValueKeys(boxes));
            WriteFrom(boxes, data, items, 0) == Ok(Expected(boxes, items))
  {
    assert Partial(boxes, items, 0) == boxes;
    WriteFromPartial(boxes, items);
  }

  /** The checked values of two runs of checkboxes are those of the first run
      followed by those of the second: the collection keeps list order. */
  lemma {:induction false} CheckedValuesConcat(a: seq<Node>, b: seq<Node>)
    ensures CheckedValues(a + b) == CheckedValues(a) + CheckedValues(b)
  {
    if a == [] {
      assert a + b == b;
    } else {
      assert (a + b)[0] == a[0] && (a + b)[1..] == a[1..] + b;
      CheckedValuesConcat(a[1..], b);
    }
  }

  /** A value is among the checked values exactly when some checked checkbox
      carries it. */
  lemma {:induction false} CheckedValuesMembership(boxes: seq<Node>, s: string)
    ensures Str(s) in CheckedValues(boxes) <==>
            exists k :: 0 <= k < |boxes| && Truthy(GetProp(boxes[k], "checked")) && BoxValue(boxes[k]) == s
  {
    if boxes != [] {
      CheckedValuesMembership(boxes[1..], s);
      if exists k :: 0 <= k < |boxes[1..]| && Truthy(GetProp(boxes[1..][k], "checked")) && BoxValue(boxes[1..][k]) == s {
        var k :| 0 <= k < |boxes[1..]| && Truthy(GetProp(boxes[1..][k], "checked")) && BoxValue(boxes[1..][k]) == s;
        assert boxes[k + 1] == boxes[1..][k];
      }
      if exists k :: 0 <= k < |boxes| && Truthy(GetProp(boxes[k], "checked")) && BoxValue(boxes[k]) == s {
        var k :| 0 <= k < |boxes| && Truthy(GetProp(boxes[k], "checked")) && BoxValue(boxes[k]) == s;
        if k > 0 {
          assert boxes[1..][k - 1] == boxes[k];
        }
      }
    }
  }

  /** With distinct values and boolean `checked` states, the user's choice
      survives the round trip: the collection the "change" callback assigns,
      written back by the subscription, leaves every checkbox as it was. */
  lemma ChangeRoundTrip(boxes: seq<Node>)
    requires forall i, j :: 0 <= i < j < |boxes| ==> BoxValue(boxes[i]) != BoxValue(boxes[j])
    requires forall i :: 0 <= i < |boxes| ==> "checked" in boxes[i].props && boxes[i].props["checked"].Bool?
    ensures Expected(boxes, CheckedValues(boxes)) == boxes
  {
    var vs := CheckedValues(boxes);
    forall j | 0 <= j < |boxes| ensures Expected(boxes, vs)[j] == boxes[j] {
      UnchangedByRoundTrip(boxes, j);
    }
  }

  lemma UnchangedByRoundTrip(boxes: seq<Node>, j: nat)
    requires j < |boxes|
    requires forall i, k :: 0 <= i < k < |boxes| ==> BoxValue(boxes[i]) != BoxValue(boxes[k])
    requires "checked" in boxes[j].props && boxes[j].props["checked"].Bool?
    ensures Expected(boxes, CheckedValues(boxes))[j] == boxes[j]
  {
    var s := BoxValue(boxes[j]);
    DistinctIsLastHolder(boxes, j);
    CheckedIffOwn(boxes, j);
    SetPropSame(boxes[j], "checked", Bool(Str(s) in CheckedValues(boxes)));
  }

  /** With distinct values, every checkbox holds the table entry for its value. */
  lemma DistinctIsLastHolder(boxes: seq<Node>, j: nat)
    requires j < |boxes|
    requires forall i, k :: 0 <= i < k < |boxes| ==> BoxValue(boxes[i]) != BoxValue(boxes[k])
    ensures KeyIndex.IsLastHolder(ValueKeys(boxes), j)
  {
    var keys := ValueKeys(boxes);
    KeyIndex.LastHolderIffNoLater(keys, j);
    forall k | j < k < |keys| ensures keys[k] != keys[j] {
      assert BoxValue(boxes[j]) != BoxValue(boxes[k]);
    }
  }

  /** With distinct values, a checkbox's value is among the checked values
      exactly when that checkbox is checked. */
  lemma CheckedIffOwn(boxes: seq<Node>, j: nat)
    requires j < |boxes|
    requires forall i, k :: 0 <= i < k < |boxes| ==> BoxValue(boxes[i]) != BoxValue(boxes[k])
    ensures Str(BoxValue(boxes[j])) in CheckedValues(boxes) <==> Truthy(GetProp(boxes[j], "checked"))
  {
    var s := BoxValue(boxes[j]);
    CheckedValuesMembership(boxes, s);
    forall k | 0 <= k < |boxes| && k != j ensures BoxValue(boxes[k]) != s {
      if k < j {
        assert BoxValue(boxes[k]) != BoxValue(boxes[j]);
      } else {
        assert BoxValue(boxes[j]) != BoxValue(boxes[k]);
      }
    }
  }

  /** The subscriber callback, for a table built from the checkboxes as they are
      now: it writes exactly the state `Expected` describes. */
  lemma NotifyWritesExpected(b: CheckboxValuesBinding, items: seq<Value>, boxes: seq<Node>)
    requires WellFormed(b) && |boxes| == b.count && b.data == KeyIndex.LastIndex(ValueKeys(boxes))
    requires b.subscription.active && !(AutoDisconnect(b.options) && (|boxes| == 0 || !boxes[0].connected))
    ensures Notify(b, items, boxes) == Ok((Expected(boxes, items), b))
  {
    WriteSpec(boxes, items);
  }
}

=== FILE: class_name.dfy ===
/** `bindToClassName(reactive_item, element, options)`: the property binder on
    `className`. */
module ClassNameBinder {
  import opened JsValue
  import opened Dom
  import opened BindOptions
  import Binder
  import PropertyBinder

  /** `className` holds the value's string form ("null" for null). */
  function BindToClassName(host: Host, globals: Options, current: Value, element: Node, options: Options)
    : (r: (Node, Binder.Binding<PropertyBinder.PropertyCtx>))
    ensures GetProp(r.0, "className") == Str(ToString(host, current))
    ensures forall other :: other != "className" ==> GetProp(r.0, other) == GetProp(element, other)
    ensures r.0 == element.(props := r.0.props)
    ensures r.1.ctx == PropertyBinder.PropertyCtx("className") && r.1.subscription.active
  {
    PropertyBinder.BindToProperty(host, globals, current, element, "className", options)
  }
}

=== FILE: css_class.dfy ===
/** `bindToCssClass(reactive_item, element, cssClassName, options)`: toggles one
    class on the element from the truthiness of the reactive item's value. With
    `remove_class_flag` loosely equal to false (the default) the class is present
    when the value is truthy; otherwise it is present when the value is falsy. */
module CssClassBinder {
  import opened JsValue
  import opened Dom
  import opened BindOptions
  import Binder

  /** The context object `{cssClassName}`. */
  datatype CssCtx = CssCtx(cssClassName: string)

  /** The defaults this binder adds between the library defaults and the call's
      options. */
  const CssDefaults: Options := map["remove_class_flag" := Bool(false)]

  /** Whether the class marks truthy values (`remove_class_flag == false`). */
  predicate MarksTruthy(host: Host, options: Options) {
    LooselyEqualsFalse(host, Get(options, "remove_class_flag"))
  }

  function Write(host: Host, v: Value, element: Node, ctx: CssCtx, options: Options): (r: Node)
    ensures ctx.cssClassName in r.classes <==> (Truthy(v) <==> MarksTruthy(host, options))
    ensures forall d :: d != ctx.cssClassName ==> (d in r.classes <==> d in element.classes)
    ensures r == element.(classes := r.classes)
  {
    if LooselyEqualsFalse(host, Get(options, "remove_class_flag"))
    then ToggleClass(element, ctx.cssClassName, Truthy(v))
    else ToggleClass(element, ctx.cssClassName, !Truthy(v))
  }

  function SetterOf(host: Host): Binder.Setter<CssCtx> {
    (v, e, ctx, o) => Write(host, v, e, ctx, o)
  }

  function Merged(globals: Options, options: Options): Options {
    Assign(Assign(globals, CssDefaults), options)
  }

  function BindToCssClass(host: Host, globals: Options, current: Value, element: Node, name: string, options: Options)
    : (r: (Node, Binder.Binding<CssCtx>))
    ensures name in r.0.classes <==> (Truthy(current) <==> MarksTruthy(host, Merged(globals, options)))
    ensures forall d :: d != name ==> (d in r.0.classes <==> d in element.classes)
    ensures r.0 == element.(classes := r.0.classes)
    ensures r.1.ctx == CssCtx(name) && r.1.options == Merged(globals, options) && r.1.subscription.active
  {
    AssignAbsorbs(globals, Assign(CssDefaults, options));
    Binder.Bind(globals, SetterOf(host), current, element, CssCtx(name), Merged(globals, options))
  }

  /** Left at its default, the flag makes the class mark truthy values. */
  lemma DefaultMarksTruthy(host: Host, globals: Options, options: Options)
    requires "remove_class_flag" !in options
    ensures MarksTruthy(host, Merged(globals, options))
  {
  }

  /** While a class binding is subscribed, the class is present exactly when the
      truthiness of the current value is the one the flag selects. */
  lemma CssClassStaysInSync(host: Host, globals: Options, current: Value, element: Node, name: string,
                            options: Options, steps: seq<Binder.Step>)
    ensures var (e, b) := BindToCssClass(host, globals, current, element, name, options);
            var w := Binder.Run(SetterOf(host), Binder.World(current, e, b), steps);
            w.binding.subscription.active ==>
              (name in w.element.classes <==> (Truthy(w.source) <==> MarksTruthy(host, Merged(globals, options))))
  {
    var merged := Merged(globals, options);
    var reflects := (v: Value, n: Node) => (name in n.classes <==> (Truthy(v) <==> MarksTruthy(host, merged)));
    var (e, b) := BindToCssClass(host, globals, current, element, name, options);
    Binder.RunKeepsInSync(SetterOf(host), reflects, Binder.World(current, e, b), steps);
  }
}

=== FILE: decimal.dfy ===
/** Integer text conversions: the decimal form `String(i)` of an integer-valued
    number, the global `parseInt(s)` with no radix (ECMA-262, section 19.2.5), the
    test `/^\d+$/`, and array-index property names (ECMA-262, section 6.1.7). */
module Decimal {
  import opened Wrappers
  import JsText

  predicate IsDigit(c: char) {
    '0' <= c <= '9'
  }

  /** `/^\d+$/.test(s)`: one or more ASCII digits and nothing else. */
  predicate AllDigits(s: string) {
    |s| > 0 && forall i :: 0 <= i < |s| ==> IsDigit(s[i])
  }

  predicate IsHexDigit(c: char) {
    IsDigit(c) || 'a' <= c <= 'f' || 'A' <= c <= 'F'
  }

  /** The value of a hexadecimal (hence also decimal) digit. */
  function DigitValue(c: char): (d: nat)
    requires IsHexDigit(c)
    ensures d < 16
    ensures IsDigit(c) <==> d < 10
  {
    if IsDigit(c) then (c - '0') as nat
    else if 'a' <= c <= 'f' then (c - 'a') as nat + 10
    else (c - 'A') as nat + 10
  }

  predicate IsRadixDigit(c: char, radix: nat)
    requires radix == 10 || radix == 16
  {
    IsHexDigit(c) && DigitValue(c) < radix
  }

  function DigitChar(d: nat): (c: char)
    requires d < 10
    ensures IsDigit(c) && DigitValue(c) == d
  {
    ('0' as int + d) as char
  }

  /** The number a string of radix digits denotes. */
  function ValueIn(s: string, radix: nat): nat
    requires radix == 10 || radix == 16
    requires forall i :: 0 <= i < |s| ==> IsRadixDigit(s[i], radix)
  {
    if s == [] then 0
    else
      assert IsRadixDigit(s[|s| - 1], radix);
      ValueIn(s[..|s| - 1], radix) * radix + DigitValue(s[|s| - 1])
  }

  /** The decimal form of a natural number, without leading zeros. */
  function NatToString(n: nat): (s: string)
    ensures |s| > 0 && AllDigits(s)
    ensures s[0] == '0' ==> n == 0 && s == "0"
  {
    if n < 10 then [DigitChar(n)]
    else NatToString(n / 10) + [DigitChar(n % 10)]
  }

  /** `String(i)` for an integer-valued number below 10^21 in magnitude. */
  function IntToString(i: int): string {
    if i < 0 then "-" + NatToString(-i) else NatToString(i)
  }

  /** Reading back the decimal form of `n` gives `n`. */
  lemma {:induction false} ValueOfNatToString(n: nat)
    ensures ValueIn(NatToString(n), 10) == n
  {
    if n >= 10 {
      var s := NatToString(n);
      assert s[..|s| - 1] == NatToString(n / 10);
      ValueOfNatToString(n / 10);
    }
  }

  /** The longest prefix of `s` made of radix digits. */
  function DigitPrefix(s: string, radix: nat): (p: string)
    requires radix == 10 || radix == 16
    ensures |p| <= |s| && p == s[..|p|]
    ensures forall i :: 0 <= i < |p| ==> IsRadixDigit(p[i], radix)
    ensures |p| < |s| ==> !IsRadixDigit(s[|p|], radix)
  {
    if s == [] || !IsRadixDigit(s[0], radix) then []
    else [s[0]] + DigitPrefix(s[1..], radix)
  }

  lemma {:induction false} DigitPrefixOfDigits(s: string)
    requires forall i :: 0 <= i < |s| ==> IsDigit(s[i])
    ensures DigitPrefix(s, 10) == s
  {
    if s != [] {
      DigitPrefixOfDigits(s[1..]);
    }
  }

  /** What `parseInt(s)` reads when no radix is given: leading whitespace is
      skipped, one sign is read, a "0x" or "0X" prefix selects radix 16, and the
      longest run of digits in that radix follows. */
  datatype IntLiteral = IntLiteral(negative: bool, radix: nat, digits: string)

  function ScanInt(s: string): (l: IntLiteral)
    ensures l.radix == 10 || l.radix == 16
    ensures forall i :: 0 <= i < |l.digits| ==> IsRadixDigit(l.digits[i], l.radix)
  {
    var t := JsText.TrimStart(s);
    var negative := |t| > 0 && t[0] == '-';
    var u := if |t| > 0 && (t[0] == '-' || t[0] == '+') then t[1..] else t;
    var hex := |u| >= 2 && u[0] == '0' && (u[1] == 'x' || u[1] == 'X');
    var radix := if hex then 16 else 10;
    IntLiteral(negative, radix, DigitPrefix(if hex then u[2..] else u, radix))
  }

  /** `parseInt(s)` with no radix argument; `None` stands for NaN. A negative zero
      is represented by 0, which every use of the result treats alike. */
  function ParseInt(s: string): (r: Option<int>)
    ensures (|s| > 0 && !JsText.IsWhiteSpace(s[0]) && s[0] != '-' && s[0] != '+' && !IsDigit(s[0]))
            ==> r.None?
  {
    var l := ScanInt(s);
    if l.digits == [] then None
    else
      var magnitude: int := ValueIn(l.digits, l.radix);
      Some(if l.negative then -magnitude else magnitude)
  }

  /** `parseInt(String(i))` is `i` for every integer: the item-index stamp of the
      list binder reads back as the index it was written from. */
  lemma ParseIntOfIntToString(i: int)
    ensures ParseInt(IntToString(i)) == Some(i)
  {
    var n: nat := if i < 0 then -i else i;
    ScanIntOfIntToString(i);
    ValueOfNatToString(n);
  }

  /** A string that starts with a character other than whitespace is its own
      `trimStart()`. */
  lemma TrimStartOfNonBlank(s: string)
    requires s != [] && !JsText.IsWhiteSpace(s[0])
    ensures JsText.TrimStart(s) == s
  {
    JsText.Uncons(s);
    JsText.TrimStartCons(s[0], s[1..]);
  }

  lemma DigitIsNotBlank(c: char)
    requires IsDigit(c)
    ensures !JsText.IsWhiteSpace(c)
  {
  }

  /** `parseInt` reads a canonical digit string as it is, in base 10. */
  lemma ScanIntOfDigits(d: string)
    requires d != [] && AllDigits(d) && (d[0] == '0' ==> d == "0")
    ensures ScanInt(d) == IntLiteral(false, 10, d)
  {
    DigitIsNotBlank(d[0]);
    TrimStartOfNonBlank(d);
    DigitPrefixOfDigits(d);
  }

  /** `parseInt` reads a minus sign followed by a canonical digit string as a
      negative literal in base 10. */
  lemma ScanIntOfNegative(d: string)
    requires d != [] && AllDigits(d) && (d[0] == '0' ==> d == "0")
    ensures ScanInt("-" + d) == IntLiteral(true, 10, d)
  {
    JsText.ConsParts('-', d);
    TrimStartOfNonBlank("-" + d);
    DigitPrefixOfDigits(d);
  }

  /** `parseInt` reads the sign of `String(i)` and then all its digits, in base 10. */
  lemma ScanIntOfIntToString(i: int)
    ensures ScanInt(IntToString(i)) == IntLiteral(i < 0, 10, NatToString(if i < 0 then -i else i))
  {
    if i < 0 {
      ScanIntOfNegative(NatToString(-i));
    } else {
      ScanIntOfDigits(NatToString(i));
    }
  }

  /** The array index a property name denotes: a digit string in canonical form
      (no leading zero unless it is "0") whose value is at most 2^32 - 2. */
  function ArrayIndex(p: string): (r: Option<nat>)
    ensures r.Some? ==> AllDigits(p) && NatToString(r.value) == p && r.value < 0xFFFF_FFFF
  {
    if AllDigits(p) && NatToString(ValueIn(p, 10)) == p && ValueIn(p, 10) < 0xFFFF_FFFF
    then Some(ValueIn(p, 10))
    else None
  }

  /** Every index below 2^32 - 1 is named by its decimal form. */
  lemma ArrayIndexOfNatToString(n: nat)
    requires n < 0xFFFF_FFFF
    ensures ArrayIndex(NatToString(n)) == Some(n)
  {
    ValueOfNatToString(n);
  }

  /** WebIDL conversion of an integer to `unsigned long` (ToUint32). */
  function ToUint32(i: int): (k: nat)
    ensures k < 0x1_0000_0000
    ensures 0 <= i < 0x1_0000_0000 ==> k == i
  {
    i % 0x1_0000_0000
  }
}

=== FILE: disabled.dfy ===
/** `bindToDisabled(reactive_item, element, options)`: the property binder on
    `disabled`. */
module DisabledBinder {
  import opened JsValue
  import opened Dom
  import opened BindOptions
  import Binder
  import PropertyBinder

  /** `disabled` is the truthiness of the value. */
  function BindToDisabled(host: Host, globals: Options, current: Value, element: Node, options: Options)
    : (r: (Node, Binder.Binding<PropertyBinder.PropertyCtx>))
    ensures GetProp(r.0, "disabled") == Bool(Truthy(current))
    ensures forall other :: other != "disabled" ==> GetProp(r.0, other) == GetProp(element, other)
    ensures r.0 == element.(props := r.0.props)
    ensures r.1.ctx == PropertyBinder.PropertyCtx("disabled") && r.1.subscription.active
  {
    PropertyBinder.BindToProperty(host, globals, current, element, "disabled", options)
  }

  /** While subscribed, the element is disabled exactly when the reactive item's
      current value is truthy. */
  lemma DisabledStaysInSync(host: Host, globals: Options, current: Value, element: Node, options: Options,
                            steps: seq<Binder.Step>)
    ensures var w := PropertyBinder.RunFrom(host, globals, current, element, "disabled", options, steps);
            w.binding.subscription.active ==> (PropFlag(w.element, "disabled") <==> Truthy(w.source))
  {
    PropertyBinder.PropertyStaysInSync(host, globals, current, element, "disabled", options, steps);
  }
}

=== FILE: dom.dfy ===
/** The DOM as plain data. A node is an element or a text node with its
    attributes (in order), its class set, its named properties (`value`,
    `checked`, `selected`, `disabled`, `className`, `innerHTML`, `textContent`,
    `name`, `type`, ...), its children, whether it is connected to a document,
    and the event listeners registered on it. The `class` attribute, the class
    set and the `className` property are three separate fields here, while a
    browser keeps them as one value. */
module Dom {
  import opened Wrappers
  import opened JsValue

  datatype NodeKind = ElementNode(tag: string) | TextNode

  datatype Attr = Attr(name: string, value: string)

  /** A listener is an event type and the identity of the callback. */
  type HandlerId = nat
  datatype Listener = Listener(event: string, handler: HandlerId)

  datatype Node = Node(
    kind: NodeKind,
    attrs: seq<Attr>,
    classes: set<string>,
    props: map<string, Value>,
    children: seq<Node>,
    connected: bool,
    listeners: set<Listener>)

  /** `document.createTextNode(s)`: a detached text node holding `s`. */
  function TextNodeOf(s: string): (t: Node)
    ensures t.kind == TextNode && !t.connected
    ensures GetProp(t, "textContent") == Str(s)
  {
    Node(TextNode, [], {}, map["textContent" := Str(s)], [], false, {})
  }

  // ---------------------------------------------------------------------------
  // Attributes

  function FindAttr(attrs: seq<Attr>, name: string): Option<string> {
    if attrs == [] then None
    else if attrs[0].name == name then Some(attrs[0].value)
    else FindAttr(attrs[1..], name)
  }

  /** `n.getAttribute(name)`; `None` stands for null. */
  function GetAttribute(n: Node, name: string): Option<string> {
    FindAttr(n.attrs, name)
  }

  function SetAttr(attrs: seq<Attr>, name: string, value: string): (r: seq<Attr>)
    ensures FindAttr(r, name) == Some(value)
    ensures forall other :: other != name ==> FindAttr(r, other) == FindAttr(attrs, other)
    ensures FindAttr(attrs, name).None? ==> r == attrs + [Attr(name, value)]
  {
    if attrs == [] then [Attr(name, value)]
    else if attrs[0].name == name then [Attr(name, value)] + attrs[1..]
    else [attrs[0]] + SetAttr(attrs[1..], name, value)
  }

  /** `n.setAttribute(name, value)`: an existing attribute keeps its place and
      takes the new value, a new one is appended; nothing else changes. Names
      are compared exactly, and every name is accepted. */
  function SetAttribute(n: Node, name: string, value: string): (r: Node)
    ensures GetAttribute(r, name) == Some(value)
    ensures forall other :: other != name ==> GetAttribute(r, other) == GetAttribute(n, other)
    ensures r == n.(attrs := r.attrs)
  {
    n.(attrs := SetAttr(n.attrs, name, value))
  }

  function RemoveAttr(attrs: seq<Attr>, name: string): (r: seq<Attr>)
    ensures FindAttr(r, name) == None
    ensures forall other :: other != name ==> FindAttr(r, other) == FindAttr(attrs, other)
    ensures FindAttr(attrs, name).None? ==> r == attrs
  {
    if attrs == [] then []
    else if attrs[0].name == name then RemoveAttr(attrs[1..], name)
    else [attrs[0]] + RemoveAttr(attrs[1..], name)
  }

  /** `n.removeAttribute(name)`: the attribute is gone and every other one is
      as before (the DOM keeps names unique, so there is at most one to drop). */
  function RemoveAttribute(n: Node, name: string): (r: Node)
    ensures GetAttribute(r, name) == None
    ensures forall other :: other != name ==> GetAttribute(r, other) == GetAttribute(n, other)
    ensures r == n.(attrs := r.attrs)
    ensures GetAttribute(n, name).None? ==> r == n
  {
    n.(attrs := RemoveAttr(n.attrs, name))
  }

  // ---------------------------------------------------------------------------
  // Classes, properties, listeners

  /** `n.classList.toggle(c, force)`: `c` is present exactly when `force` holds.
      Every token is accepted, including "" and tokens with white space. */
  function ToggleClass(n: Node, c: string, force: bool): (r: Node)
    ensures c in r.classes <==> force
    ensures forall d :: d != c ==> (d in r.classes <==> d in n.classes)
    ensures r == n.(classes := r.classes)
  {
    n.(classes := if force then n.classes + {c} else n.classes - {c})
  }

  /** `n[key]`; a property never written reads as undefined. */
  function GetProp(n: Node, key: string): Value {
    if key in n.props then n.props[key] else Undefined
  }

  /** `n[key] = v`. */
  function SetProp(n: Node, key: string, v: Value): (r: Node)
    ensures GetProp(r, key) == v
    ensures forall other :: other != key ==> GetProp(r, other) == GetProp(n, other)
    ensures r == n.(props := r.props)
  {
    n.(props := n.props[key := v])
  }

  /** A string-valued DOM property (`value`, `name`, `type`); one never set
      reads as the empty string. */
  function PropString(n: Node, key: string): string {
    match GetProp(n, key)
    case Str(s) => s
    case _ => ""
  }

  /** How the DOM converts a value assigned to one of the properties the
      binders write (WebIDL conversions): `checked`, `selected` and `disabled`
      are booleans; `textContent` is a nullable string, so null and undefined
      become ""; `innerHTML` and `value` turn null (only) into ""; `className`,
      `name` and `type` are plain strings; any other name is an ordinary
      JavaScript property that stores the value as given. */
  function Converted(host: Host, key: string, v: Value): (r: Value)
    ensures key in {"checked", "selected", "disabled"} ==> r == Bool(Truthy(v))
    ensures key !in {"checked", "selected", "disabled", "textContent", "innerHTML", "value", "className", "name", "type"} ==> r == v
    ensures key in {"textContent", "innerHTML", "value", "className", "name", "type"} ==> r.Str?
    ensures key in {"textContent", "innerHTML", "value", "className", "name", "type"} && v.Str? ==> r == v
  {
    if key in {"checked", "selected", "disabled"} then Bool(Truthy(v))
    else if key == "textContent" && IsNullish(v) then Str("")
    else if (key == "innerHTML" || key == "value") && v.Null? then Str("")
    else if key in {"textContent", "innerHTML", "value", "className", "name", "type"} then Str(ToString(host, v))
    else v
  }

  /** `n[key] = v` as the DOM performs it. */
  function WriteProp(host: Host, n: Node, key: string, v: Value): (r: Node)
    ensures GetProp(r, key) == Converted(host, key, v)
    ensures forall other :: other != key ==> GetProp(r, other) == GetProp(n, other)
    ensures r == n.(props := r.props)
  {
    SetProp(n, key, Converted(host, key, v))
  }

  /** The value of a boolean DOM property (`checked`, `selected`). */
  predicate PropFlag(n: Node, key: string) {
    GetProp(n, key) == Bool(true)
  }

  /** `n.addEventListener(event, handler)`; registering the same pair twice
      has no further effect. */
  function AddListener(n: Node, l: Listener): (r: Node)
    ensures r.listeners == n.listeners + {l}
    ensures r == n.(listeners := r.listeners)
  {
    n.(listeners := n.listeners + {l})
  }

  /** `n.removeEventListener(event, handler)`. */
  function RemoveListener(n: Node, l: Listener): (r: Node)
    ensures r.listeners == n.listeners - {l}
    ensures r == n.(listeners := r.listeners)
  {
    n.(listeners := n.listeners - {l})
  }

  // ---------------------------------------------------------------------------
  // Element children and element paths

  predicate IsElement(n: Node) {
    n.kind.ElementNode?
  }

  /** The positions of the children that satisfy `p`, in order. */
  function PositionsWhere(children: seq<Node>, p: Node -> bool): (pos: seq<nat>)
    ensures forall k :: 0 <= k < |pos| ==> pos[k] < |children| && p(children[pos[k]])
    ensures forall k, m :: 0 <= k < m < |pos| ==> pos[k] < pos[m]
    ensures forall j :: 0 <= j < |children| && p(children[j]) ==> j in pos
    decreases |children|
  {
    if children == [] then []
    else
      var last := |children| - 1;
      var front := PositionsWhere(children[..last], p);
      if p(children[last]) then front + [last] else front
  }

  /** When every child satisfies `p`, the positions are all of them, in order. */
  lemma {:induction false} PositionsOfAll(children: seq<Node>, p: Node -> bool)
    requires forall j :: 0 <= j < |children| ==> p(children[j])
    ensures PositionsWhere(children, p) == seq(|children|, i requires 0 <= i < |children| => i)
    decreases |children|
  {
    if children != [] {
      var last := |children| - 1;
      var front := children[..last];
      forall j | 0 <= j < last ensures p(front[j]) {
        assert front[j] == children[j];
      }
      PositionsOfAll(front, p);
      PositionsWhereLast(children, p);
      AllPositionsLast(last);
    }
  }

  lemma PositionsWhereLast(children: seq<Node>, p: Node -> bool)
    requires children != [] && p(children[|children| - 1])
    ensures PositionsWhere(children, p) == PositionsWhere(children[..|children| - 1], p) + [|children| - 1]
  {
  }

  lemma AllPositionsLast(n: nat)
    ensures seq(n + 1, i requires 0 <= i < n + 1 => i) == seq(n, i requires 0 <= i < n => i) + [n]
  {
  }

  /** The positions of the element children among all children, in order. */
  function ElementPositions(children: seq<Node>): (pos: seq<nat>)
    ensures forall k :: 0 <= k < |pos| ==> pos[k] < |children| && IsElement(children[pos[k]])
    ensures forall j :: 0 <= j < |children| && IsElement(children[j]) ==> j in pos
  {
    PositionsWhere(children, IsElement)
  }

  /** The first child that satisfies `p`. */
  function FirstWhere(children: seq<Node>, p: Node -> bool): (r: Option<nat>)
    ensures r.Some? ==> r.value < |children| && p(children[r.value])
                        && forall i :: 0 <= i < r.value ==> !p(children[i])
    ensures r.None? ==> forall i :: 0 <= i < |children| ==> !p(children[i])
  {
    if children == [] then None
    else if p(children[0]) then Some(0)
    else match FirstWhere(children[1..], p)
         case Some(j) => Some(j + 1)
         case None => None
  }

  /** `n.firstElementChild`. */
  function FirstElementChild(n: Node): (r: Option<Node>)
    ensures r.Some? ==> IsElement(r.value) && r.value in n.children
    ensures r.None? ==> forall j :: 0 <= j < |n.children| ==> !IsElement(n.children[j])
  {
    var pos := ElementPositions(n.children);
    if pos == [] then None else Some(n.children[pos[0]])
  }

  /** The element reached from `root` by choosing, at each step, the k-th
      element child. Text nodes are not counted, so an element path stays valid
      when text nodes are inserted or removed. */
  function ElementAt(root: Node, path: seq<nat>): Option<Node>
    decreases |path|
  {
    if path == [] then Some(root)
    else
      var pos := ElementPositions(root.children);
      if path[0] < |pos| then ElementAt(root.children[pos[path[0]]], path[1..]) else None
  }

  /** `root` with the element at `path` replaced by `f` of it; unchanged when
      there is no such element. */
  function UpdateElementAt(root: Node, path: seq<nat>, f: Node -> Node): Node
    decreases |path|
  {
    if path == [] then f(root)
    else
      var pos := ElementPositions(root.children);
      if path[0] < |pos| then
        var j := pos[path[0]];
        root.(children := root.children[j := UpdateElementAt(root.children[j], path[1..], f)])
      else root
  }

  // ---------------------------------------------------------------------------
  // Cloning and insertion

  /** `n.cloneNode(true)`: the same tree, detached, with no event listeners. */
  function Clone(n: Node): (r: Node)
    ensures r.kind == n.kind && r.attrs == n.attrs && r.classes == n.classes && r.props == n.props
    ensures |r.children| == |n.children| && !r.connected && r.listeners == {}
    decreases n
  {
    n.(children := seq(|n.children|, i requires 0 <= i < |n.children| => Clone(n.children[i])),
       connected := false, listeners := {})
  }

  /** `n` and all its descendants marked as in or out of the document. */
  function WithConnected(n: Node, c: bool): (r: Node)
    ensures r.kind == n.kind && r.attrs == n.attrs && r.classes == n.classes && r.props == n.props
    ensures r.listeners == n.listeners && |r.children| == |n.children| && r.connected == c
    decreases n
  {
    n.(children := seq(|n.children|, i requires 0 <= i < |n.children| => WithConnected(n.children[i], c)),
       connected := c)
  }

  /** `parent.append(child)`: the child becomes the last child and is in the
      document exactly when the parent is. */
  function Append(parent: Node, child: Node): (r: Node)
    ensures |r.children| == |parent.children| + 1
    ensures r.children[..|parent.children|] == parent.children
    ensures r.children[|parent.children|] == WithConnected(child, parent.connected)
    ensures r == parent.(children := r.children)
  {
    parent.(children := parent.children + [WithConnected(child, parent.connected)])
  }
}

=== FILE: helpers.dfy ===
/** `getDiffs(new_object, old_object, compare)`: for every property name a
    `for...in` loop visits on the new value, whether that property differs from
    the old value's own property of the same name. */
module Helpers {
  import opened Wrappers
  import opened JsValue
  import Decimal

  /** Arrays never hold more than 2^32 - 1 elements, so their indices are the
      naturals below that bound. */
  const MaxArrayLength: nat := 0xFFFF_FFFF

  /** The names `for (prop in v)` visits: an object's enumerable fields, the
      indices of an array or of a string, and nothing for any other value. */
  function ForInKeys(v: Value): set<string> {
    match v
    case Obj(_, fields) => fields.Keys
    case Arr(_, items) => set i | 0 <= i < |items| && i < MaxArrayLength :: Decimal.NatToString(i)
    case Str(s) => set i | 0 <= i < |s| && i < MaxArrayLength :: Decimal.NatToString(i)
    case _ => {}
  }

  /** The array index `key` names within a length, if any. */
  function IndexWithin(key: string, length: nat): Option<nat> {
    match Decimal.ArrayIndex(key)
    case Some(i) => if i < length then Some(i) else None
    case None => None
  }

  /** `v.hasOwnProperty(key)` for a value that is not null or undefined. */
  predicate HasOwn(v: Value, key: string) {
    match v
    case Obj(_, fields) => key in fields
    case Arr(_, items) => key == "length" || IndexWithin(key, |items|).Some?
    case Str(s) => key == "length" || IndexWithin(key, |s|).Some?
    case _ => false
  }

  /** `v[key]` for an own property of `v`, undefined otherwise. */
  function Member(v: Value, key: string): Value {
    match v
    case Obj(_, fields) => if key in fields then fields[key] else Undefined
    case Arr(_, items) =>
      if key == "length" then Num(|items| as real)
      else (match IndexWithin(key, |items|) case Some(i) => items[i] case None => Undefined)
    case Str(s) =>
      if key == "length" then Num(|s| as real)
      else (match IndexWithin(key, |s|) case Some(i) => Str([s[i]]) case None => Undefined)
    case _ => Undefined
  }

  /** The comparison `getDiffs` applies to a property both values own: the
      caller's function when one is given, `!==` otherwise. */
  function Differs(compare: Option<(Value, Value) -> bool>, a: Value, b: Value): bool {
    match compare
    case Some(f) => f(a, b)
    case None => !StrictEquals(a, b)
  }

  /** `getDiffs(newValue, oldValue, compare)`. A property the old value does not
      own (or a falsy old value) always counts as changed. */
  function GetDiffs(newValue: Value, oldValue: Value, compare: Option<(Value, Value) -> bool>): (r: map<string, bool>)
    ensures r.Keys == ForInKeys(newValue)
    ensures forall k :: k in r && !(Truthy(oldValue) && HasOwn(oldValue, k)) ==> r[k]
    ensures forall k :: k in r && Truthy(oldValue) && HasOwn(oldValue, k) ==>
              r[k] == Differs(compare, Member(newValue, k), Member(oldValue, k))
  {
    map k | k in ForInKeys(newValue) ::
      if Truthy(oldValue) && HasOwn(oldValue, k)
      then Differs(compare, Member(newValue, k), Member(oldValue, k))
      else true
  }

  /** Every index an array or string visits is one it owns, and it reads back
      the element at that index. */
  lemma {:induction false} ForInKeysAreOwn(v: Value, k: string)
    requires k in ForInKeys(v)
    ensures HasOwn(v, k)
  {
    match v
    case Obj(_, _) =>
    case Arr(_, items) =>
      var i :| 0 <= i < |items| && i < MaxArrayLength && Decimal.NatToString(i) == k;
      Decimal.ArrayIndexOfNatToString(i);
    case Str(s) =>
      var i :| 0 <= i < |s| && i < MaxArrayLength && Decimal.NatToString(i) == k;
      Decimal.ArrayIndexOfNatToString(i);
  }

  /** Comparing an object with itself under `!==` reports a property as changed
      exactly when its value is NaN. */
  lemma {:induction false} GetDiffsOfSelf(v: Value, k: string)
    requires v.Obj? || v.Arr? || (v.Str? && v.s != "")
    requires k in ForInKeys(v)
    ensures k in GetDiffs(v, v, None)
    ensures GetDiffs(v, v, None)[k] <==> Member(v, k).NaN?
  {
    ForInKeysAreOwn(v, k);
    StrictEqualsReflexive(Member(v, k));
  }

  /** Against null, undefined or any other falsy old value, every property of
      the new value counts as changed. */
  lemma GetDiffsAgainstFalsy(newValue: Value, oldValue: Value, compare: Option<(Value, Value) -> bool>)
    requires !Truthy(oldValue)
    ensures forall k :: k in GetDiffs(newValue, oldValue, compare) ==> GetDiffs(newValue, oldValue, compare)[k]
  {
  }

  /** Two objects: a field is reported changed exactly when the old object lacks
      it or holds a value that is not `===` the new one. */
  lemma GetDiffsOfObjects(r1: nat, f1: map<string, Value>, r2: nat, f2: map<string, Value>, k: string)
    requires k in f1
    ensures k in GetDiffs(Obj(r1, f1), Obj(r2, f2), None)
    ensures GetDiffs(Obj(r1, f1), Obj(r2, f2), None)[k] <==> k !in f2 || !StrictEquals(f1[k], f2[k])
  {
  }
}

=== FILE: html.dfy ===
/** `bindToHtml(reactive_item, element, options)`: the property binder on
    `innerHTML`. */
module HtmlBinder {
  import opened JsValue
  import opened Dom
  import opened BindOptions
  import Binder
  import PropertyBinder

  /** The markup written is the value's string form, and "" for null. */
  function BindToHtml(host: Host, globals: Options, current: Value, element: Node, options: Options)
    : (r: (Node, Binder.Binding<PropertyBinder.PropertyCtx>))
    ensures GetProp(r.0, "innerHTML") == Str(if current.Null? then "" else ToString(host, current))
    ensures forall other :: other != "innerHTML" ==> GetProp(r.0, other) == GetProp(element, other)
    ensures r.0 == element.(props := r.0.props)
    ensures r.1.ctx == PropertyBinder.PropertyCtx("innerHTML") && r.1.subscription.active
  {
    PropertyBinder.BindToProperty(host, globals, current, element, "innerHTML", options)
  }
}

=== FILE: input_value.dfy ===
/** `bindToInputValue(reactive, element, options)`: a two-way binding between a
    value and the `value` of an input or textarea. The element listens for
    "input", or for "change" when the binding is lazy or the input is of type
    number; a number input writes back `parseFloat` of its text, any other
    input its text. The element's listener is registered before the first
    write, so a first write that throws leaves it registered. */
module InputValueBinder {
  import opened Wrappers
  import opened JsValue
  import opened Dom
  import opened BindOptions
  import opened Reactive

  datatype InputBinding = InputBinding(options: Options, event: string, handler: HandlerId, subscription: Subscription)

  /** The binder's own default on top of the library-wide ones. */
  const InputDefaults: Options := map["lazy" := Bool(false)]

  /** `Object.assign({}, globalOptions, { lazy: false }, options)`. */
  function Merged(globals: Options, options: Options): (r: Options)
    ensures "lazy" in r && (("lazy" in options) ==> r["lazy"] == options["lazy"])
    ensures "lazy" !in options ==> r["lazy"] == Bool(false)
    ensures forall k :: k in options ==> k in r && r[k] == options[k]
  {
    Assign(Assign(globals, InputDefaults), options)
  }

  predicate IsNumberInput(element: Node) {
    PropString(element, "type") == "number"
  }

  /** The event the element is watched for: "change" when the merged `lazy`
      option is truthy or the input is of type number, "input" otherwise. */
  function EventOf(options: Options, element: Node): (e: string)
    ensures e == "change" <==> Truthy(Get(options, "lazy")) || IsNumberInput(element)
    ensures e == "change" || e == "input"
  {
    if Truthy(Get(options, "lazy")) || IsNumberInput(element) then "change" else "input"
  }

  /** The text a number input is given for `v`: `parseFloat(v.toString()).toString()`.
      `toString` of null or undefined throws. */
  function NumberText(host: Host, v: Value): (r: Result<string, JsError>)
    ensures r.Err? <==> IsNullish(v)
  {
    if IsNullish(v) then Err(TypeError)
    else match ParseFloat(host, ToString(host, v))
         case Num(x) => Ok(host.numberToString(x))
         case _ => Ok("NaN")
  }

  /** The setter: when the element's text is not loosely equal to `v`, a number
      input receives `NumberText` of it and any other input `String(v)`. */
  function Setter(host: Host, v: Value, element: Node): (r: Result<Node, JsError>)
    ensures LooselyEqualsString(host, PropString(element, "value"), v) ==> r == Ok(element)
    ensures r.Err? <==> !LooselyEqualsString(host, PropString(element, "value"), v) && IsNumberInput(element) && IsNullish(v)
    ensures r.Ok? ==> r.value == element.(props := r.value.props) && IsNumberInput(r.value) == IsNumberInput(element)
    ensures r.Ok? && !LooselyEqualsString(host, PropString(element, "value"), v) ==>
              r.value == WriteProp(host, element, "value",
                                   Str(if IsNumberInput(element) then NumberText(host, v).value else ToString(host, v)))
    ensures r.Ok? ==> forall p :: p != "value" ==> GetProp(r.value, p) == GetProp(element, p)
    ensures r.Ok? && !LooselyEqualsString(host, PropString(element, "value"), v) && !IsNumberInput(element) ==>
              PropString(r.value, "value") == ToString(host, v)
  {
    if LooselyEqualsString(host, PropString(element, "value"), v) then Ok(element)
    else if IsNumberInput(element) then
      match NumberText(host, v)
      case Ok(t) => Ok(WriteProp(host, element, "value", Str(t)))
      case Err(e) => Err(e)
    else Ok(WriteProp(host, element, "value", Str(ToString(host, v))))
  }

  /** The binder call with the reactive value `v`: the listener is added, then
      the setter runs. The element is returned in both outcomes, since a throwing
      setter leaves the listener in place. */
  function BindToInputValue(host: Host, globals: Options, v: Value, element: Node, options: Options, h: HandlerId)
    : (r: (Node, Result<InputBinding, JsError>))
    ensures var l := Listener(EventOf(Merged(globals, options), element), h);
            l in r.0.listeners && r.0.listeners == element.listeners + {l}
    ensures r.1.Err? <==> Setter(host, v, element).Err?
    ensures r.1.Ok? ==> r.1.value.subscription.active && r.1.value.handler == h
                        && r.1.value.event == EventOf(Merged(globals, options), element)
    ensures var l := Listener(EventOf(Merged(globals, options), element), h);
            r.1.Ok? ==> r.0 == AddListener(Setter(host, v, element).value, l)
    ensures r.1.Err? ==> r.0 == element.(listeners := r.0.listeners)
  {
    var merged := Merged(globals, options);
    var l := Listener(EventOf(merged, element), h);
    var listening := AddListener(element, l);
    SetterIgnoresListeners(host, v, element, l);
    match Setter(host, v, listening)
    case Ok(n) => (n, Ok(InputBinding(merged, l.event, h, Subscription(true, DebounceTime(merged)))))
    case Err(e) => (listening, Err(e))
  }

  /** The setter reads and writes properties only, so a listener added before
      it is still there after it. */
  lemma SetterIgnoresListeners(host: Host, v: Value, element: Node, l: Listener)
    ensures Setter(host, v, AddListener(element, l)).Ok? <==> Setter(host, v, element).Ok?
    ensures Setter(host, v, element).Ok? ==>
              Setter(host, v, AddListener(element, l)).value == AddListener(Setter(host, v, element).value, l)
  {
    var listening := AddListener(element, l);
    assert PropString(listening, "value") == PropString(element, "value");
    assert IsNumberInput(listening) == IsNumberInput(element);
  }

  /** The subscriber callback for a new value `v`. */
  function Notify(host: Host, b: InputBinding, v: Value, element: Node): (r: Result<(Node, InputBinding), JsError>)
    ensures !b.subscription.active ==> r == Ok((element, b))
    ensures b.subscription.active && AutoDisconnect(b.options) && !element.connected ==>
              r == Ok((element, b.(subscription := Cancel(b.subscription))))
    ensures b.subscription.active && !(AutoDisconnect(b.options) && !element.connected) ==>
              (r.Ok? <==> Setter(host, v, element).Ok?) && (r.Ok? ==> r.value == (Setter(host, v, element).value, b))
  {
    if !b.subscription.active then Ok((element, b))
    else if AutoDisconnect(b.options) && !element.connected then Ok((element, b.(subscription := Cancel(b.subscription))))
    else match Setter(host, v, element)
         case Ok(n) => Ok((n, b))
         case Err(e) => Err(e)
  }

  /** The element's listener for `event`: the value assigned to the reactive
      variable, when the binding listens for that event. */
  function OnEvent(host: Host, b: InputBinding, element: Node, event: string): (r: Option<Value>)
    ensures r.Some? <==> Listener(event, b.handler) in element.listeners
    ensures r.Some? && IsNumberInput(element) ==> r.value == ParseFloat(host, PropString(element, "value"))
    ensures r.Some? && !IsNumberInput(element) ==> r.value == Str(PropString(element, "value"))
  {
    if Listener(event, b.handler) !in element.listeners then None
    else if IsNumberInput(element) then Some(ParseFloat(host, PropString(element, "value")))
    else Some(Str(PropString(element, "value")))
  }

  /** The unsubscriber as written: it removes an "input" listener only. */
  function Teardown(b: InputBinding, element: Node): (r: (Node, InputBinding))
    ensures r.0.listeners == element.listeners - {Listener("input", b.handler)}
    ensures r.0 == element.(listeners := r.0.listeners) && !r.1.subscription.active
  {
    (RemoveListener(element, Listener("input", b.handler)), b.(subscription := Cancel(b.subscription)))
  }

  /** The unsubscriber as intended: it removes the listener the binding added. */
  function TeardownCorrected(b: InputBinding, element: Node): (r: (Node, InputBinding))
    ensures r.0.listeners == element.listeners - {Listener(b.event, b.handler)}
    ensures r.0 == element.(listeners := r.0.listeners) && !r.1.subscription.active
  {
    (RemoveListener(element, Listener(b.event, b.handler)), b.(subscription := Cancel(b.subscription)))
  }

  // ---------------------------------------------------------------------------
  // Properties

  /** A text input given a string shows exactly that string afterwards, and
      reading it back through the listener gives the string again. */
  lemma TextRoundTrip(host: Host, b: InputBinding, s: string, element: Node)
    requires !IsNumberInput(element) && Listener(b.event, b.handler) in element.listeners
    ensures Setter(host, Str(s), element).Ok?
    ensures PropString(Setter(host, Str(s), element).value, "value") == s
    ensures OnEvent(host, b, Setter(host, Str(s), element).value, b.event) == Some(Str(s))
  {
  }

  /** A value read from a text input and handed back by the store leaves the
      element as it is. */
  lemma TextLoopBackIsQuiet(host: Host, b: InputBinding, element: Node, event: string)
    requires !IsNumberInput(element) && OnEvent(host, b, element, event).Some?
    ensures Setter(host, OnEvent(host, b, element, event).value, element) == Ok(element)
  {
  }

  /** For a number whose decimal form reads back as itself (true of every finite
      JavaScript number), a number input whose text differs from the number
      is given that form, and its listener reads back the same number. */
  lemma NumberRoundTrip(host: Host, b: InputBinding, x: real, element: Node)
    requires IsNumberInput(element) && Listener(b.event, b.handler) in element.listeners
    requires !LooselyEqualsString(host, PropString(element, "value"), Num(x))
    requires host.parseFloat(host.numberToString(x)) == Some(x)
    ensures Setter(host, Num(x), element).Ok?
    ensures PropString(Setter(host, Num(x), element).value, "value") == host.numberToString(x)
    ensures OnEvent(host, b, Setter(host, Num(x), element).value, b.event) == Some(Num(x))
  {
    assert NumberText(host, Num(x)) == Ok(host.numberToString(x));
  }

  /** The comparison before writing is loose: an empty input is "equal" to the
      number 0 (the empty string converts to 0), so binding 0 to an empty input
      leaves it empty, and a number input then reads back NaN. */
  lemma ZeroKeepsEmptyInput(host: Host, element: Node)
    requires PropString(element, "value") == "" && host.stringToNumber("") == Some(0.0)
    ensures Setter(host, Num(0.0), element) == Ok(element)
  {
  }

  /** The setter does not change what it has already written. */
  lemma {:induction false} SetterIdempotentOnText(host: Host, s: string, element: Node)
    requires !IsNumberInput(element)
    ensures Setter(host, Str(s), element).Ok?
    ensures Setter(host, Str(s), Setter(host, Str(s), element).value) == Setter(host, Str(s), element)
  {
    var n := Setter(host, Str(s), element).value;
    assert PropString(n, "value") == s;
    LooselyEqualsStringOnStrings(host, s, s);
  }

  /** A number input bound to null or undefined throws from the first write and
      keeps the listener that was added just before it. */
  lemma NullishNumberBindLeavesListener(host: Host, globals: Options, v: Value, element: Node, options: Options, h: HandlerId)
    requires IsNumberInput(element) && IsNullish(v)
    ensures var r := BindToInputValue(host, globals, v, element, options, h);
            r.1 == Err(TypeError) && Listener("change", h) in r.0.listeners
  {
  }

  /** Finding: a lazy binding, and every binding of a number input, listens for
      "change", which the unsubscriber as written never removes. */
  lemma TeardownLeavesChangeListener(host: Host, globals: Options, v: Value, element: Node, options: Options, h: HandlerId)
    requires IsNumberInput(element) && !IsNullish(v)
    ensures var r := BindToInputValue(host, globals, v, element, options, h);
            r.1.Ok? && Listener("change", h) in Teardown(r.1.value, r.0).0.listeners
  {
  }

  /** The corrected unsubscriber undoes the binder's listener: when the handler
      was not registered before, the element ends with the listeners it started
      with, whatever the event. */
  lemma TeardownCorrectedRestoresListeners(host: Host, globals: Options, v: Value, element: Node, options: Options, h: HandlerId)
    requires forall l :: l in element.listeners ==> l.handler != h
    requires BindToInputValue(host, globals, v, element, options, h).1.Ok?
    ensures var r := BindToInputValue(host, globals, v, element, options, h);
            TeardownCorrected(r.1.value, r.0).0.listeners == element.listeners
  {
    var r := BindToInputValue(host, globals, v, element, options, h);
    var l := Listener(r.1.value.event, h);
    assert l !in element.listeners;
    assert r.0.listeners == element.listeners + {l};
  }
}

=== FILE: js_text.dfy ===
/** ECMAScript string whitespace and the trimming operations
    `String.prototype.trimStart`, `trimEnd` and `trim` (ECMA-262, section 22.1.3). */
module JsText {

  /** WhiteSpace or LineTerminator code points (ECMA-262, sections 12.2 and 12.3):
      TAB, VT, FF, ZWNBSP, every Zs space separator, LF, CR, LS and PS. */
  predicate IsWhiteSpace(c: char) {
    || c == '\t' || c == '\U{000B}' || c == '\U{000C}' || c == '\U{FEFF}'
    || c == ' ' || c == '\U{00A0}' || c == '\U{1680}'
    || ('\U{2000}' <= c <= '\U{200A}')
    || c == '\U{202F}' || c == '\U{205F}' || c == '\U{3000}'
    || c == '\n' || c == '\r' || c == '\U{2028}' || c == '\U{2029}'
  }

  predicate AllWhiteSpace(s: string) {
    forall i :: 0 <= i < |s| ==> IsWhiteSpace(s[i])
  }

  /** `s.trimStart()`: drops the leading whitespace and nothing else. */
  function TrimStart(s: string): (r: string)
    ensures |r| <= |s| && r == s[|s| - |r|..]
    ensures AllWhiteSpace(s[..|s| - |r|])
    ensures r == [] || !IsWhiteSpace(r[0])
  {
    if s == [] || !IsWhiteSpace(s[0]) then s
    else
      var r := TrimStart(s[1..]);
      assert s[..|s| - |r|] == [s[0]] + s[1..][..|s[1..]| - |r|];
      r
  }

  /** `s.trimEnd()`: drops the trailing whitespace and nothing else. */
  function TrimEnd(s: string): (r: string)
    ensures |r| <= |s| && r == s[..|r|]
    ensures AllWhiteSpace(s[|r|..])
    ensures r == [] || !IsWhiteSpace(r[|r| - 1])
  {
    if s == [] || !IsWhiteSpace(s[|s| - 1]) then s
    else
      var r := TrimEnd(s[..|s| - 1]);
      assert s[|r|..] == s[..|s| - 1][|r|..] + [s[|s| - 1]];
      r
  }

  /** `s.trim()`. */
  function Trim(s: string): string {
    TrimEnd(TrimStart(s))
  }

  /** Trimming the start of the first part of a concatenation is absorbed by
      trimming the start of the whole. */
  lemma {:induction false} TrimStartAbsorbs(a: string, b: string)
    ensures TrimStart(TrimStart(a) + b) == TrimStart(a + b)
    decreases |a|
  {
    if a == [] || !IsWhiteSpace(a[0]) {
      assert TrimStart(a) == a;
    } else {
      assert (a + b)[1..] == a[1..] + b;
      TrimStartAbsorbs(a[1..], b);
    }
  }

  /** Trimming the end of the last part of a concatenation is absorbed by
      trimming the end of the whole. */
  lemma {:induction false} TrimEndAbsorbs(a: string, b: string)
    ensures TrimEnd(a + TrimEnd(b)) == TrimEnd(a + b)
    decreases |b|
  {
    if b == [] || !IsWhiteSpace(b[|b| - 1]) {
      assert TrimEnd(b) == b;
    } else {
      var b' := b[..|b| - 1];
      assert (a + b)[..|a + b| - 1] == a + b';
      TrimEndAbsorbs(a, b');
    }
  }

  /** Trimming the end of a string with one more character in front: the
      character stays unless it is whitespace followed only by whitespace. */
  lemma {:induction false} TrimEndCons(c: char, y: string)
    ensures TrimEnd([c] + y) == (if TrimEnd(y) == [] && IsWhiteSpace(c) then [] else [c] + TrimEnd(y))
    decreases |y|
  {
    if y != [] && IsWhiteSpace(y[|y| - 1]) {
      var y' := y[..|y| - 1];
      assert ([c] + y)[..|[c] + y| - 1] == [c] + y';
      TrimEndCons(c, y');
    } else if y == [] {
    } else {
      assert TrimEnd(y) == y;
    }
  }

  /** A non-empty string is its first character followed by the rest. */
  lemma Uncons(x: string)
    requires x != []
    ensures x == [x[0]] + x[1..]
  {
  }

  lemma ConsParts(c: char, y: string)
    ensures ([c] + y)[0] == c && ([c] + y)[1..] == y
  {
  }

  lemma AppendAssoc(a: string, b: string, c: string)
    ensures a + (b + c) == (a + b) + c
  {
  }

  /** Regrouping four concatenated strings. */
  lemma Regroup(a: string, b: string, c: string, d: string)
    ensures a + b + c + d == a + ((b + c) + d)
    ensures a + b + c + d == (a + (b + c)) + d
  {
  }

  /** Trimming the end twice is trimming it once. */
  lemma TrimEndIdempotent(s: string)
    ensures TrimEnd(TrimEnd(s)) == TrimEnd(s)
  {
  }

  /** Trimming the start of a string with one more character in front. */
  lemma TrimStartCons(c: char, y: string)
    ensures TrimStart([c] + y) == (if IsWhiteSpace(c) then TrimStart(y) else [c] + y)
  {
    ConsParts(c, y);
  }

  /** `TrimEndCons`, read on a non-empty string's first character and rest. */
  lemma TrimEndFront(x: string)
    requires x != []
    ensures TrimEnd(x) == (if TrimEnd(x[1..]) == [] && IsWhiteSpace(x[0]) then [] else [x[0]] + TrimEnd(x[1..]))
  {
    Uncons(x);
    TrimEndCons(x[0], x[1..]);
  }

  /** Trimming the start and the end commute, so `trim` may take either order. */
  lemma {:induction false} TrimCommutes(x: string)
    ensures TrimEnd(TrimStart(x)) == TrimStart(TrimEnd(x))
    decreases |x|
  {
    if x != [] {
      var y := x[1..];
      TrimEndFront(x);
      TrimCommutes(y);
      if IsWhiteSpace(x[0]) {
        if TrimEnd(y) != [] {
          TrimStartCons(x[0], TrimEnd(y));
        }
      } else {
        TrimStartCons(x[0], TrimEnd(y));
      }
    }
  }
}

=== FILE: js_value.dfy ===
/** JavaScript values as the binders read and write them, together with the
    conversions the library relies on: `Boolean(v)`, `String(v)`, `===` and the
    two forms of loose `==` that occur in the code. */
module JsValue {
  import opened Wrappers

  /** A JavaScript value. Arrays and objects carry a reference so that `===`
      compares identity; `fields` are an object's own enumerable string-keyed
      properties. Numbers are finite reals or NaN. */
  datatype Value =
    | Undefined
    | Null
    | Bool(b: bool)
    | Num(x: real)
    | NaN
    | Str(s: string)
    | Arr(ref: nat, items: seq<Value>)
    | Obj(ref: nat, fields: map<string, Value>)

  /** An exception: a TypeError raised by the engine (reading a property of
      undefined, calling a method of null) or an `Error` the library throws. */
  datatype JsError = TypeError | ThrownError(message: string)

  /** The floating-point conversions of the host engine, left abstract:
      `numberToString` is Number::toString of a finite number, `stringToNumber` is
      StringToNumber (ECMA-262, section 7.1.4.1.1) and `parseFloat` the global
      function; `None` stands for NaN. */
  datatype Host = Host(
    numberToString: real -> string,
    stringToNumber: string -> Option<real>,
    parseFloat: string -> Option<real>)

  /** `v == null`: true exactly for null and undefined. */
  predicate IsNullish(v: Value) {
    v.Undefined? || v.Null?
  }

  /** `Boolean(v)` (ECMA-262, section 7.1.2 ToBoolean). */
  predicate Truthy(v: Value) {
    match v
    case Undefined => false
    case Null => false
    case Bool(b) => b
    case Num(x) => x != 0.0
    case NaN => false
    case Str(s) => s != ""
    case Arr(_, _) => true
    case Obj(_, _) => true
  }

  /** `a === b`: identity for arrays and objects, value equality otherwise, and
      NaN is not equal to itself. */
  predicate StrictEquals(a: Value, b: Value) {
    match (a, b)
    case (Arr(r1, _), Arr(r2, _)) => r1 == r2
    case (Obj(r1, _), Obj(r2, _)) => r1 == r2
    case (NaN, _) => false
    case (Arr(_, _), _) => false
    case (Obj(_, _), _) => false
    case _ => a == b
  }

  /** `a === a` holds for every value except NaN. */
  lemma StrictEqualsReflexive(a: Value)
    ensures StrictEquals(a, a) <==> !a.NaN?
  {
  }

  /** `String(v)` (ECMA-262, section 7.1.17 ToString); an array becomes its
      elements joined with ",", null and undefined elements becoming "". */
  function ToString(host: Host, v: Value): (r: string)
    ensures v.Str? ==> r == v.s
    ensures v.Bool? ==> (r == "true" <==> v.b)
    ensures v.Undefined? ==> r == "undefined"
    ensures v.Null? ==> r == "null"
    ensures v.Arr? && |v.items| == 0 ==> r == ""
    ensures v.Arr? && |v.items| == 1 ==> r == (if IsNullish(v.items[0]) then "" else ToString(host, v.items[0]))
    decreases v
  {
    match v
    case Undefined => "undefined"
    case Null => "null"
    case Bool(b) => if b then "true" else "false"
    case Num(x) => host.numberToString(x)
    case NaN => "NaN"
    case Str(s) => s
    case Arr(_, items) =>
      Join(seq(|items|, i requires 0 <= i < |items| =>
        if IsNullish(items[i]) then "" else ToString(host, items[i])), ",")
    case Obj(_, _) => "[object Object]"
  }

  /** `parts.join(sep)`. */
  function Join(parts: seq<string>, sep: string): string {
    if |parts| == 0 then ""
    else if |parts| == 1 then parts[0]
    else parts[0] + sep + Join(parts[1..], sep)
  }

  /** ToNumber applied to the primitive a value converts to, for the values whose
      loose comparison with a number goes through a string. */
  function StringToNumber(host: Host, s: string): Value {
    match host.stringToNumber(s)
    case Some(x) => Num(x)
    case None => NaN
  }

  /** `parseFloat(s)`. */
  function ParseFloat(host: Host, s: string): (r: Value)
    ensures r.Num? || r.NaN?
  {
    match host.parseFloat(s)
    case Some(x) => Num(x)
    case None => NaN
  }

  /** `v == false` (ECMA-262, section 7.2.14 IsLooselyEqual): the boolean becomes
      +0, so a value is loosely equal to false when it converts to the number 0;
      null and undefined never are. */
  predicate LooselyEqualsFalse(host: Host, v: Value) {
    match v
    case Undefined => false
    case Null => false
    case Bool(b) => !b
    case Num(x) => x == 0.0
    case NaN => false
    case _ => StringToNumber(host, ToString(host, v)) == Num(0.0)
  }

  /** `s == v` for a string `s`: strings compare by content, a number or boolean
      compares with the number the string converts to, null and undefined never
      equal a string, and an array or object compares through its string form. */
  predicate LooselyEqualsString(host: Host, s: string, v: Value) {
    match v
    case Undefined => false
    case Null => false
    case Bool(b) => StringToNumber(host, s) == Num(if b then 1.0 else 0.0)
    case Num(x) => StringToNumber(host, s) == Num(x)
    case NaN => false
    case Str(t) => s == t
    case _ => s == ToString(host, v)
  }

  /** The falsy values: undefined, null, false, 0, NaN and the empty string;
      every array and object is truthy, even an empty one. */
  lemma FalsyValues(v: Value)
    ensures !Truthy(v) <==> v == Undefined || v == Null || v == Bool(false) || v == Num(0.0) || v == NaN || v == Str("")
    ensures v.Arr? || v.Obj? ==> Truthy(v)
  {
  }

  /** A string is never loosely equal to null, undefined or NaN; it equals an
      array or object exactly when it is that value's string form. */
  lemma LooselyEqualsStringCases(host: Host, s: string, v: Value)
    ensures IsNullish(v) || v.NaN? ==> !LooselyEqualsString(host, s, v)
    ensures v.Arr? || v.Obj? ==> (LooselyEqualsString(host, s, v) <==> s == ToString(host, v))
    ensures v.Num? ==> (LooselyEqualsString(host, s, v) <==> host.stringToNumber(s) == Some(v.x))
  {
  }

  /** Loose equality of two strings is equality of their contents. */
  lemma LooselyEqualsStringOnStrings(host: Host, s: string, t: string)
    ensures LooselyEqualsString(host, s, Str(t)) <==> s == t
  {
  }
}

=== FILE: key_index.dfy ===
/** The lookup tables the two-way binders build with a loop of the form
    `data[key(i)] = element(i)`: each key maps to the LAST position that carries
    it, and positions without a key (filtered out) are skipped. */
module KeyIndex {
  import opened Wrappers

  function LastIndex(keys: seq<Option<string>>): (m: map<string, nat>)
    ensures forall k :: k in m ==> m[k] < |keys| && keys[m[k]] == Some(k)
    decreases |keys|
  {
    if keys == [] then map[]
    else
      var m := LastIndex(keys[..|keys| - 1]);
      match keys[|keys| - 1]
      case Some(k) => m[k := |keys| - 1]
      case None => m
  }

  /** A key is in the table exactly when some position carries it, and it maps
      to the last such position. */
  lemma LastIndexSpec(keys: seq<Option<string>>)
    ensures forall k :: k in LastIndex(keys) <==> exists i :: 0 <= i < |keys| && keys[i] == Some(k)
    ensures forall k, j :: k in LastIndex(keys) && LastIndex(keys)[k] < j < |keys| ==> keys[j] != Some(k)
  {
    LastIndexHasEveryKey(keys);
    LastIndexIsLast(keys);
    forall k | k in LastIndex(keys) ensures exists i :: 0 <= i < |keys| && keys[i] == Some(k) {
      assert keys[LastIndex(keys)[k]] == Some(k);
    }
  }

  /** Every key that some position carries is in the table. */
  lemma {:induction false} LastIndexHasEveryKey(keys: seq<Option<string>>)
    ensures forall i :: 0 <= i < |keys| && keys[i].Some? ==> keys[i].value in LastIndex(keys)
    decreases |keys|
  {
    if keys != [] {
      var front := keys[..|keys| - 1];
      LastIndexHasEveryKey(front);
      forall i | 0 <= i < |keys| - 1 && keys[i].Some? ensures keys[i].value in LastIndex(keys) {
        assert front[i] == keys[i];
      }
    }
  }

  /** No position after the one a key maps to carries that key. */
  lemma LastIndexIsLast(keys: seq<Option<string>>)
    ensures forall k, j :: k in LastIndex(keys) && LastIndex(keys)[k] < j < |keys| ==> keys[j] != Some(k)
  {
    forall k, j | k in LastIndex(keys) && LastIndex(keys)[k] < j < |keys| ensures keys[j] != Some(k) {
      LastIndexIsLastAt(keys, k, j);
    }
  }

  lemma {:induction false} LastIndexIsLastAt(keys: seq<Option<string>>, k: string, j: nat)
    ensures k in LastIndex(keys) && LastIndex(keys)[k] < j < |keys| ==> keys[j] != Some(k)
    decreases |keys|
  {
    if keys != [] {
      var last := |keys| - 1;
      if keys[last] == Some(k) {
        LastIndexOfLast(keys);
      } else {
        var front := keys[..last];
        LastIndexOfFront(keys, k);
        if j < last {
          assert front[j] == keys[j];
          LastIndexIsLastAt(front, k, j);
        }
      }
    }
  }

  /** The key of the last position maps to it. */
  lemma LastIndexOfLast(keys: seq<Option<string>>)
    requires keys != [] && keys[|keys| - 1].Some?
    ensures keys[|keys| - 1].value in LastIndex(keys) && LastIndex(keys)[keys[|keys| - 1].value] == |keys| - 1
  {
  }

  /** A key the last position does not carry has the same entry in the table
      of all positions but the last. */
  lemma LastIndexOfFront(keys: seq<Option<string>>, k: string)
    requires keys != [] && keys[|keys| - 1] != Some(k)
    ensures var front := LastIndex(keys[..|keys| - 1]);
            (k in LastIndex(keys) <==> k in front) && (k in front ==> LastIndex(keys)[k] == front[k])
  {
  }

  /** Whether position `i` is the one its key maps to. */
  predicate IsLastHolder(keys: seq<Option<string>>, i: nat)
    requires i < |keys|
  {
    keys[i].Some? && keys[i].value in LastIndex(keys) && LastIndex(keys)[keys[i].value] == i
  }

  /** Position `i` holds the table entry for its key exactly when no later
      position carries the same key. */
  lemma LastHolderIffNoLater(keys: seq<Option<string>>, i: nat)
    requires i < |keys| && keys[i].Some?
    ensures IsLastHolder(keys, i) <==> forall j :: i < j < |keys| ==> keys[j] != keys[i]
  {
    LastIndexSpec(keys);
    var k := keys[i].value;
    assert k in LastIndex(keys);
  }
}

=== FILE: list.dfy ===
/** `bindToList(collection, container, itemSetter, itemCreator, options)`: one
    element child of the container per element of an array collection. Items
    are created by the caller's creator or as clones of the container's first
    element child, each is stamped with an `item-index` attribute holding its
    index, and the caller's item setter is then called with the item, its index,
    the new and old values and the collection's length. Item positions count
    element children only, as `children.item(index)` does. */
module ElementListBinder {
  import opened Wrappers
  import opened JsValue
  import opened Dom
  import opened BindOptions
  import opened Reactive
  import Decimal
  import Helpers

  const ItemIndexAttr: string := "item-index"

  /** `new ListItemHelper(template)`: holds the template an item creator may
      clone. */
  datatype ListItemHelper = ListItemHelper(template: Option<Node>)

  /** `hasTemplate()`. */
  predicate HasTemplate(h: ListItemHelper) {
    h.template.Some?
  }

  /** `getTemplate()`: a fresh deep clone of the template, or null. */
  function GetTemplate(h: ListItemHelper): (r: Option<Node>)
    ensures r.Some? <==> HasTemplate(h)
    ensures r.Some? ==> r.value == Clone(h.template.value)
  {
    match h.template
    case Some(t) => Some(Clone(t))
    case None => None
  }

  /** `new ListItemSetterDetails(item, index, value, oldValue, length)`. */
  datatype ItemDetails = ItemDetails(item: Node, index: int, value: Value, oldValue: Value, length: nat)

  /** The caller's item setter. It changes the item it is given (its
      attributes, classes, properties and children); the item stays in its
      place in the container. */
  type ItemSetter = (ListItemHelper, ItemDetails) -> Node

  /** The state of an `ElementList`: the container, the helper, the creator of
      new items (already closed over the helper) and the item setter. */
  datatype ElementList = ElementList(container: Node, helper: ListItemHelper, creator: () -> Node, setter: ItemSetter)

  /** What one operation did: the new state and the calls it made to the item
      setter, in order. */
  datatype Step = Step(list: ElementList, calls: seq<ItemDetails>)

  /** The number of element children, `children.length`. */
  function ItemCount(n: Node): nat {
    |ElementPositions(n.children)|
  }

  predicate AllElements(n: Node) {
    forall j :: 0 <= j < |n.children| ==> IsElement(n.children[j])
  }

  lemma ItemCountOfElements(n: Node)
    requires AllElements(n)
    ensures ItemCount(n) == |n.children|
    ensures ElementPositions(n.children) == seq(|n.children|, i requires 0 <= i < |n.children| => i)
  {
    PositionsOfAll(n.children, IsElement);
  }

  lemma ItemCountWhenElements(n: Node)
    ensures AllElements(n) ==> ItemCount(n) == |n.children|
  {
    if AllElements(n) {
      ItemCountOfElements(n);
    }
  }

  /** The position of `children.item(index)`: the index is converted to an
      unsigned 32-bit integer, and a missing item is null. */
  function ItemAt(n: Node, index: int): (r: Option<nat>)
    ensures r.Some? ==> r.value < |n.children| && IsElement(n.children[r.value])
    ensures r.Some? <==> Decimal.ToUint32(index) < ItemCount(n)
  {
    var pos := ElementPositions(n.children);
    var k := Decimal.ToUint32(index);
    if k < |pos| then Some(pos[k]) else None
  }

  /** `collection.value[i]`. */
  function ValueAt(items: seq<Value>, i: nat): Value {
    if i < |items| then items[i] else Undefined
  }

  /** The details handed to the setter for the item at `index`: the item,
      already stamped with its index; `None` when there is no such item. */
  function DetailsFor(l: ElementList, current: seq<Value>, index: int, value: Value, oldValue: Value): (r: Option<ItemDetails>)
    ensures r.Some? <==> ItemAt(l.container, index).Some?
    ensures r.Some? ==> r.value.index == index && r.value.value == value && r.value.oldValue == oldValue
                        && r.value.length == |current|
                        && GetAttribute(r.value.item, ItemIndexAttr) == Some(Decimal.IntToString(index))
  {
    match ItemAt(l.container, index)
    case Some(j) =>
      Some(ItemDetails(SetAttribute(l.container.children[j], ItemIndexAttr, Decimal.IntToString(index)),
                       index, value, oldValue, |current|))
    case None => None
  }

  /** `setElementItemValue(index, value, oldValue)`: stamp the item and call the
      setter; nothing happens when the item does not exist. */
  function SetItemValue(l: ElementList, current: seq<Value>, index: int, value: Value, oldValue: Value): (r: Step)
    ensures SameParts(l, r.list) && r.list.container == l.container.(children := r.list.container.children)
    ensures |r.list.container.children| == |l.container.children|
    ensures forall j :: 0 <= j < |l.container.children| ==> r.list.container.children[j].kind == l.container.children[j].kind
    ensures ItemAt(l.container, index).None? ==> r == Step(l, [])
    ensures ItemAt(l.container, index).Some? ==> r.calls == [DetailsFor(l, current, index, value, oldValue).value]
    ensures ItemAt(l.container, index).Some? ==>
              r.list.container.children[ItemAt(l.container, index).value] == Made(l, r.calls[0])
    ensures ItemAt(l.container, index).Some? ==>
              forall j :: 0 <= j < |l.container.children| && j != ItemAt(l.container, index).value ==>
                r.list.container.children[j] == l.container.children[j]
  {
    match ItemAt(l.container, index)
    case Some(j) =>
      var d := DetailsFor(l, current, index, value, oldValue).value;
      Step(l.(container := l.container.(children := l.container.children[j := Made(l, d)])), [d])
    case None => Step(l, [])
  }

  /** What the setter makes of the item in `d`: the item keeps its place and
      its kind. */
  function Made(l: ElementList, d: ItemDetails): Node {
    l.setter(l.helper, d).(kind := d.item.kind)
  }

  /** The parts of a list that no operation changes: the helper, the
      creator, the setter and whether the container is in the document. */
  ghost predicate SameParts(a: ElementList, b: ElementList) {
    b.helper == a.helper && b.creator == a.creator && b.setter == a.setter
    && b.container.connected == a.container.connected
  }

  /** The growing loop of `setElementListSize`: from item `i` up to `size`, a
      new item is appended and given `collection.value[i]`. */
  function Grow(l: ElementList, current: seq<Value>, i: nat, size: nat): (r: Step)
    ensures SameParts(l, r.list)
    decreases size - i
  {
    if i >= size then Step(l, [])
    else
      var appended := l.(container := Append(l.container, l.creator()));
      var s1 := SetItemValue(appended, current, i, ValueAt(current, i), Undefined);
      var s2 := Grow(s1.list, current, i + 1, size);
      Step(s2.list, s1.calls + s2.calls)
  }

  /** `removeLastElementListItem()`: the last element child is removed. */
  function RemoveLast(n: Node): (r: Node)
    ensures r == n.(children := r.children)
    ensures AllElements(n) && |n.children| > 0 ==> r.children == n.children[..|n.children| - 1]
  {
    var pos := ElementPositions(n.children);
    ItemCountWhenElements(n);
    if pos == [] then n
    else
      var j := pos[|pos| - 1];
      n.(children := n.children[..j] + n.children[j + 1..])
  }

  /** The shrinking loop: `count` removals of the last item. */
  function Shrink(n: Node, count: nat): (r: Node)
    ensures r == n.(children := r.children)
    decreases count
  {
    if count == 0 then n else Shrink(RemoveLast(n), count - 1)
  }

  /** `setElementListSize(size)`. */
  function SetListSize(l: ElementList, current: seq<Value>, size: nat): (r: Step)
    ensures SameParts(l, r.list)
    ensures ItemCount(l.container) == size ==> r == Step(l, [])
  {
    var count := ItemCount(l.container);
    if count == size then Step(l, [])
    else if count < size then Grow(l, current, count, size)
    else Step(l.(container := Shrink(l.container, count - size)), [])
  }

  /** The loop of `setData`: every item from `i` on is given its new value, with
      an undefined old value. */
  function SetAll(l: ElementList, current: seq<Value>, items: seq<Value>, i: nat): (r: Step)
    requires i <= |items|
    ensures SameParts(l, r.list)
    decreases |items| - i
  {
    if i == |items| then Step(l, [])
    else
      var s1 := SetItemValue(l, current, i, items[i], Undefined);
      var s2 := SetAll(s1.list, current, items, i + 1);
      Step(s2.list, s1.calls + s2.calls)
  }

  /** `setData(arr)`: resize, then give every item its value. */
  function SetData(l: ElementList, current: seq<Value>, items: seq<Value>): (r: Step)
    ensures SameParts(l, r.list)
  {
    var s1 := SetListSize(l, current, |items|);
    var s2 := SetAll(s1.list, current, items, 0);
    Step(s2.list, s1.calls + s2.calls)
  }

  /** `setData(v)` for a value that may not be an array: a string is read as the
      array of its characters; null or undefined throw on `.length`; any other
      value has no length, and nothing happens. */
  function SetDataOf(l: ElementList, current: seq<Value>, v: Value): (r: Result<Step, JsError>)
    ensures r.Err? <==> IsNullish(v)
    ensures v.Arr? ==> r == Ok(SetData(l, current, v.items))
  {
    match v
    case Arr(_, items) => Ok(SetData(l, current, items))
    case Str(s) => Ok(SetData(l, current, seq(|s|, i requires 0 <= i < |s| => Str([s[i]]))))
    case Undefined => Err(TypeError)
    case Null => Err(TypeError)
    case _ => Ok(Step(l, []))
  }

  /** `removeElementListItem(index)`. */
  function RemoveItem(n: Node, index: int): (r: Node)
    ensures r == n.(children := r.children)
    ensures ItemAt(n, index).None? ==> r == n
    ensures ItemAt(n, index).Some? ==>
              r.children == n.children[..ItemAt(n, index).value] + n.children[ItemAt(n, index).value + 1..]
  {
    match ItemAt(n, index)
    case Some(j) => n.(children := n.children[..j] + n.children[j + 1..])
    case None => n
  }

  // ---------------------------------------------------------------------------
  // Construction and the binding

  /** The two ways to make new items. */
  datatype Creator = UserCreator(make: ListItemHelper -> Node) | NoCreator

  datatype Constructed = Constructed(step: Step) | ConstructFailed(container: Node, error: JsError)

  /** `new ElementList(collection, container, setter, creator)` for a collection
      whose value is `current`: the template is taken from the first element
      child, the container is emptied, and the list is filled from `current`.
      Without a creator and a template it throws, leaving the container empty. */
  function Construct(container: Node, current: seq<Value>, setter: ItemSetter, creator: Creator): (r: Constructed)
    ensures var h := ListItemHelper(match FirstElementChild(container) case Some(t) => Some(Clone(t)) case None => None);
            r.Constructed? ==> r.step.list.helper == h && r.step.list.setter == setter
    ensures r.ConstructFailed? <==> creator.NoCreator? && FirstElementChild(container).None?
    ensures r.ConstructFailed? ==>
              r.error == ThrownError("element_item_creator or template is not set") && r.container == container.(children := [])
    ensures r.Constructed? ==> r.step.list.container.connected == container.connected
  {
    var helper := ListItemHelper(match FirstElementChild(container) case Some(t) => Some(Clone(t)) case None => None);
    var cleared := container.(children := []);
    match creator
    case UserCreator(make) =>
      Constructed(SetData(ElementList(cleared, helper, () => make(helper), setter), current, current))
    case NoCreator =>
      match helper.template
      case Some(t) =>
        Constructed(SetData(ElementList(cleared, helper, () => Clone(t), setter), current, current))
      case None => ConstructFailed(cleared, ThrownError("element_item_creator or template is not set"))
  }

  datatype ListBinding = ListBinding(options: Options, subscription: Subscription)

  /** `bindToList(...)`: the list is built first, so a failing construction
      subscribes nothing; the subscription has debounce time 0. */
  function BindToList(globals: Options, container: Node, current: seq<Value>, setter: ItemSetter, creator: Creator, options: Options)
    : (r: Result<(Step, ListBinding), (Node, JsError)>)
    ensures r.Err? <==> Construct(container, current, setter, creator).ConstructFailed?
    ensures r.Ok? ==> r.value.0 == Construct(container, current, setter, creator).step
                      && r.value.1 == ListBinding(Assign(globals, options), Subscription(true, Num(0.0)))
  {
    match Construct(container, current, setter, creator)
    case Constructed(step) => Ok((step, ListBinding(Assign(globals, options), Subscription(true, Num(0.0)))))
    case ConstructFailed(n, e) => Err((n, e))
  }

  /** The subscriber callback; `current` is the collection's value after the
      change. */
  function Notify(l: ElementList, b: ListBinding, d: Descriptor, current: seq<Value>): (r: Result<(Step, ListBinding), JsError>)
    ensures !b.subscription.active ==> r == Ok((Step(l, []), b))
    ensures b.subscription.active && AutoDisconnect(b.options) && !l.container.connected ==>
              r == Ok((Step(l, []), b.(subscription := Cancel(b.subscription))))
    ensures r.Ok? ==> SameParts(l, r.value.0.list)
  {
    if !b.subscription.active then Ok((Step(l, []), b))
    else if AutoDisconnect(b.options) && !l.container.connected then Ok((Step(l, []), b.(subscription := Cancel(b.subscription))))
    else match d.property
      case None =>
        (match SetDataOf(l, current, d.value)
         case Ok(s) => Ok((s, b))
         case Err(e) => Err(e))
      case Some(p) =>
        if p == "length" then Ok((SetListSize(l, current, |current|), b))
        else match Decimal.ParseInt(p)
          case None => Ok((Step(l, []), b))
          case Some(index) =>
            if d.eventType == SetEvent then Ok((SetItemValue(l, current, index, d.value, d.oldValue), b))
            else Ok((Step(l.(container := RemoveItem(l.container, index)), []), b))
  }

  /** The unsubscriber. */
  function Teardown(b: ListBinding): (r: ListBinding)
    ensures !r.subscription.active && r.options == b.options
  {
    b.(subscription := Cancel(b.subscription))
  }

  // ---------------------------------------------------------------------------
  // Finding items

  /** The position of the first node carrying attribute `a`. */
  function FirstCarrier(nodes: seq<Node>, a: string): (r: Option<nat>)
    ensures r.Some? ==> r.value < |nodes| && GetAttribute(nodes[r.value], a).Some?
                        && forall m :: 0 <= m < r.value ==> GetAttribute(nodes[m], a).None?
    ensures r.None? ==> forall m :: 0 <= m < |nodes| ==> GetAttribute(nodes[m], a).None?
  {
    if nodes == [] then None
    else if GetAttribute(nodes[0], a).Some? then Some(0)
    else match FirstCarrier(nodes[1..], a)
         case Some(k) => Some(k + 1)
         case None => None
  }

  /** The attribute `getListItem` searches for: the given name, or `item-index`
      when none or an empty one is given. */
  function SearchAttr(attrName: Option<string>): string {
    if attrName.None? || attrName.value == "" then ItemIndexAttr else attrName.value
  }

  /** `getListItem(element, attrName)` for an element whose ancestors, nearest
      first, are `ancestors`: the element itself when it carries the attribute,
      otherwise its nearest ancestor that does (`closest`). */
  function GetListItem(element: Node, ancestors: seq<Node>, attrName: Option<string>): (r: Option<Node>)
    ensures r.Some? ==> GetAttribute(r.value, SearchAttr(attrName)).Some?
    ensures GetAttribute(element, SearchAttr(attrName)).Some? ==> r == Some(element)
    ensures r.None? <==> GetAttribute(element, SearchAttr(attrName)).None?
                         && forall m :: 0 <= m < |ancestors| ==> GetAttribute(ancestors[m], SearchAttr(attrName)).None?
  {
    var a := SearchAttr(attrName);
    if GetAttribute(element, a).Some? then Some(element)
    else match FirstCarrier(ancestors, a)
         case Some(k) => Some(ancestors[k])
         case None => None
  }

  /** `getListItemIndex(element)`: -1 when no item encloses the element,
      otherwise `parseInt` of the item's stamp; `None` stands for NaN. */
  function GetListItemIndex(element: Node, ancestors: seq<Node>): (r: Option<int>)
    ensures GetListItem(element, ancestors, None).None? ==> r == Some(-1)
    ensures GetListItem(element, ancestors, None).Some? ==>
              r == Decimal.ParseInt(GetAttribute(GetListItem(element, ancestors, None).value, ItemIndexAttr).value)
  {
    match GetListItem(element, ancestors, None)
    case None => Some(-1)
    case Some(item) =>
      match GetAttribute(item, ItemIndexAttr)
      case None => Some(-1)
      case Some(s) => Decimal.ParseInt(s)
  }

  // ---------------------------------------------------------------------------
  // Properties

  /** `getListItem` finds the nearest carrier of the attribute: an element that
      does not carry it, below ancestors that do not, below one that does. */
  lemma {:induction false} NearestCarrierFound(element: Node, between: seq<Node>, item: Node, above: seq<Node>, attrName: Option<string>)
    requires GetAttribute(element, SearchAttr(attrName)).None? && GetAttribute(item, SearchAttr(attrName)).Some?
    requires forall m :: 0 <= m < |between| ==> GetAttribute(between[m], SearchAttr(attrName)).None?
    ensures GetListItem(element, between + [item] + above, attrName) == Some(item)
  {
    var chain := between + [item] + above;
    var a := SearchAttr(attrName);
    assert chain[|between|] == item;
    var k := FirstCarrier(chain, a);
    assert k.Some?;
    assert forall m :: 0 <= m < |between| ==> chain[m] == between[m];
  }

  /** Every item the setter is handed reads back, through `getListItemIndex`,
      as the index it was handed with, from the item itself or from any
      element inside it that carries no stamp of its own. */
  lemma StampReadsBack(d: ItemDetails, element: Node, between: seq<Node>, above: seq<Node>)
    requires GetAttribute(d.item, ItemIndexAttr) == Some(Decimal.IntToString(d.index))
    requires GetAttribute(element, ItemIndexAttr).None?
    requires forall m :: 0 <= m < |between| ==> GetAttribute(between[m], ItemIndexAttr).None?
    ensures GetListItemIndex(d.item, above) == Some(d.index)
    ensures GetListItemIndex(element, between + [d.item] + above) == Some(d.index)
  {
    Decimal.ParseIntOfIntToString(d.index);
    NearestCarrierFound(element, between, d.item, above, None);
  }

  lemma KindsKeepElements(a: Node, b: Node)
    requires |a.children| == |b.children|
    requires forall j :: 0 <= j < |a.children| ==> b.children[j].kind == a.children[j].kind
    ensures AllElements(a) ==> AllElements(b)
  {
  }

  /** The item at an index below the count of a container of elements is the
      child at that position. */
  lemma ItemAtOfElements(n: Node, i: nat)
    requires AllElements(n) && i < |n.children| && i < Helpers.MaxArrayLength
    ensures ItemAt(n, i) == Some(i)
  {
    ItemCountOfElements(n);
  }

  /** The item `appendElementListItem` adds: a new item from the creator, in or
      out of the document with the container. */
  function NewItem(l: ElementList): Node {
    WithConnected(l.creator(), l.container.connected)
  }

  /** The call the growing loop makes for index `i`: a new item stamped with
      `i`, given `collection.value[i]` with an undefined old value. */
  predicate GrowCall(c: ItemDetails, l: ElementList, current: seq<Value>, i: nat) {
    c == ItemDetails(SetAttribute(NewItem(l), ItemIndexAttr, Decimal.IntToString(i)), i, ValueAt(current, i), Undefined, |current|)
  }

  /** `r` is what the growing loop does from index `i` up to `size`: the old
      items are kept in front, and for every new index, in order, one setter
      call on a new item, whose result is the item at that index. */
  ghost predicate Grown(r: Step, l: ElementList, current: seq<Value>, i: nat, size: nat)
    requires i <= size
  {
    |r.list.container.children| == size && |r.calls| == size - i
    && r.list.container.children[..i] == l.container.children
    && forall k :: 0 <= k < size - i ==>
         GrowCall(r.calls[k], l, current, i + k) && r.list.container.children[i + k] == Made(l, r.calls[k])
  }

  /** Growing a container of `i` elements with a creator of elements ends with
      `size` elements: the first `i` unchanged, and each new one made by the
      setter from a new item and the collection's value at its index. */
  lemma {:induction false} GrowSpec(l: ElementList, current: seq<Value>, i: nat, size: nat)
    requires AllElements(l.container) && |l.container.children| == i && i <= size <= Helpers.MaxArrayLength
    requires IsElement(l.creator())
    ensures AllElements(Grow(l, current, i, size).list.container)
    ensures Grown(Grow(l, current, i, size), l, current, i, size)
    decreases size - i
  {
    if i < size {
      var appended := l.(container := Append(l.container, l.creator()));
      assert AllElements(appended.container);
      ItemAtOfElements(appended.container, i);
      var s1 := SetItemValue(appended, current, i, ValueAt(current, i), Undefined);
      KindsKeepElements(appended.container, s1.list.container);
      GrowSpec(s1.list, current, i + 1, size);
      GrowStep(l, current, i, size, s1, Grow(s1.list, current, i + 1, size));
    }
  }

  /** One turn of the growing loop followed by the rest is the whole loop. */
  lemma GrowStep(l: ElementList, current: seq<Value>, i: nat, size: nat, s1: Step, s2: Step)
    requires |l.container.children| == i < size
    requires s1 == SetItemValue(l.(container := Append(l.container, l.creator())), current, i, ValueAt(current, i), Undefined)
    requires ItemAt(Append(l.container, l.creator()), i) == Some(i)
    requires s2 == Grow(s1.list, current, i + 1, size) && Grown(s2, s1.list, current, i + 1, size)
    ensures Grown(Grow(l, current, i, size), l, current, i, size)
  {
    var appended := l.(container := Append(l.container, l.creator()));
    assert Grow(l, current, i, size) == Step(s2.list, s1.calls + s2.calls);
    var d := s1.calls[0];
    assert s1.calls == [d];
    assert GrowCall(d, l, current, i);
    var children := s2.list.container.children;
    assert children[..i + 1] == s1.list.container.children;
    PrefixOfPrefix(children, i + 1, i);
    assert s1.list.container.children[..i] == l.container.children;
    assert children[i] == Made(l, d);
    GrowCallsCons(d, s2.calls, children, l, s1.list, current, i, size);
  }

  lemma GrowCallsCons(d: ItemDetails, rest: seq<ItemDetails>, children: seq<Node>, l: ElementList, l1: ElementList,
                      current: seq<Value>, i: nat, size: nat)
    requires i < size && |children| == size && |rest| == size - i - 1 && SameParts(l, l1)
    requires GrowCall(d, l, current, i) && children[i] == Made(l, d)
    requires forall k :: 0 <= k < size - (i + 1) ==>
               GrowCall(rest[k], l1, current, i + 1 + k) && children[i + 1 + k] == Made(l1, rest[k])
    ensures forall k :: 0 <= k < size - i ==>
              GrowCall(([d] + rest)[k], l, current, i + k) && children[i + k] == Made(l, ([d] + rest)[k])
  {
    var calls := [d] + rest;
    forall k | 0 <= k < size - i
      ensures GrowCall(calls[k], l, current, i + k) && children[i + k] == Made(l, calls[k])
    {
      if k > 0 {
        assert calls[k] == rest[k - 1];
        assert GrowCall(rest[k - 1], l1, current, i + 1 + (k - 1));
      }
    }
  }

  /** Shrinking a container of elements by `count` keeps its first items. */
  lemma {:induction false} ShrinkSpec(n: Node, count: nat)
    requires AllElements(n) && count <= |n.children|
    ensures Shrink(n, count).children == n.children[..|n.children| - count]
    decreases count
  {
    if count > 0 {
      var m := RemoveLast(n);
      assert AllElements(m);
      ShrinkSpec(m, count - 1);
      PrefixOfPrefix(n.children, |n.children| - 1, |n.children| - count);
    }
  }

  lemma PrefixOfPrefix<T>(s: seq<T>, a: nat, b: nat)
    requires b <= a <= |s|
    ensures s[..a][..b] == s[..b]
  {
  }

  lemma ItemCountIsSize(n: Node)
    requires AllElements(n)
    ensures ItemCount(n) == |n.children|
  {
    ItemCountOfElements(n);
  }

  /** `setElementListSize(size)` on a container of elements leaves exactly
      `size` elements, keeping the first ones when it shrinks, and when it
      grows keeping all of them and giving each new item the collection's
      value at its index. */
  lemma SetListSizeSpec(l: ElementList, current: seq<Value>, size: nat)
    requires AllElements(l.container) && size <= Helpers.MaxArrayLength && IsElement(l.creator())
    ensures var r := SetListSize(l, current, size);
            AllElements(r.list.container) && |r.list.container.children| == size
            && (size <= |l.container.children| ==> r.calls == [] && r.list.container.children == l.container.children[..size])
            && (size > |l.container.children| ==> Grown(r, l, current, |l.container.children|, size))
  {
    ItemCountIsSize(l.container);
    var count := |l.container.children|;
    if count < size {
      SetListSizeGrows(l, current, size);
    } else if count > size {
      assert SetListSize(l, current, size) == Step(l.(container := Shrink(l.container, count - size)), []);
      ShrinkSpec(l.container, count - size);
    }
  }

  lemma SetListSizeGrows(l: ElementList, current: seq<Value>, size: nat)
    requires AllElements(l.container) && |l.container.children| < size <= Helpers.MaxArrayLength && IsElement(l.creator())
    ensures var r := SetListSize(l, current, size);
            AllElements(r.list.container) && Grown(r, l, current, |l.container.children|, size)
  {
    ItemCountIsSize(l.container);
    assert SetListSize(l, current, size) == Grow(l, current, |l.container.children|, size);
    GrowSpec(l, current, |l.container.children|, size);
  }

  /** The loop of `setData` keeps a container of elements one of elements of
      the same size. */
  lemma {:induction false} SetAllShape(l: ElementList, current: seq<Value>, items: seq<Value>, i: nat)
    requires i <= |items| && AllElements(l.container)
    ensures AllElements(SetAll(l, current, items, i).list.container)
    ensures |SetAll(l, current, items, i).list.container.children| == |l.container.children|
    decreases |items| - i
  {
    if i < |items| {
      var s1 := SetItemValue(l, current, i, items[i], Undefined);
      KindsKeepElements(l.container, s1.list.container);
      SetAllShape(s1.list, current, items, i + 1);
    }
  }

  /** The call the loop of `setData` makes for index `i`. */
  predicate SetAllCall(c: ItemDetails, current: seq<Value>, items: seq<Value>, i: nat)
    requires i < |items|
  {
    c.index == i && c.value == items[i] && c.oldValue == Undefined && c.length == |current|
    && GetAttribute(c.item, ItemIndexAttr) == Some(Decimal.IntToString(i))
  }

  /** `calls` are the calls of the loop of `setData` from index `i` on. */
  predicate CallsFrom(calls: seq<ItemDetails>, current: seq<Value>, items: seq<Value>, i: nat) {
    |calls| == |items| - i && forall k :: 0 <= k < |calls| ==> SetAllCall(calls[k], current, items, i + k)
  }

  /** The loop of `setData` on a container with an item for every index: one
      setter call per index from `i` on, in order, each with the new value, an
      undefined old value and an item stamped with its index. */
  lemma {:induction false} SetAllSpec(l: ElementList, current: seq<Value>, items: seq<Value>, i: nat)
    requires i <= |items| && AllElements(l.container) && |items| <= |l.container.children| && |items| <= Helpers.MaxArrayLength
    ensures CallsFrom(SetAll(l, current, items, i).calls, current, items, i)
    decreases |items| - i
  {
    if i < |items| {
      ItemAtOfElements(l.container, i);
      var s1 := SetItemValue(l, current, i, items[i], Undefined);
      KindsKeepElements(l.container, s1.list.container);
      SetAllSpec(s1.list, current, items, i + 1);
      var s2 := SetAll(s1.list, current, items, i + 1);
      assert SetAll(l, current, items, i).calls == s1.calls + s2.calls;
      var c := s1.calls[0];
      assert s1.calls == [c];
      assert SetAllCall(c, current, items, i);
      CallsFromCons(c, s2.calls, current, items, i);
    }
  }

  /** A call for index `i` followed by the calls from `i + 1` on are the calls
      from `i` on. */
  lemma CallsFromCons(c: ItemDetails, rest: seq<ItemDetails>, current: seq<Value>, items: seq<Value>, i: nat)
    requires i < |items| && SetAllCall(c, current, items, i) && CallsFrom(rest, current, items, i + 1)
    ensures CallsFrom([c] + rest, current, items, i)
  {
    var calls := [c] + rest;
    forall k | 0 <= k < |calls| ensures SetAllCall(calls[k], current, items, i + k) {
      if k > 0 {
        assert calls[k] == rest[k - 1];
      }
    }
  }

  /** `setData(items)` on a container of elements, with a creator that makes
      elements: the container ends with exactly one item per element, and the
      setter's last calls give each index its new value, in order, on an item
      stamped with that index. */
  lemma SetDataSpec(l: ElementList, current: seq<Value>, items: seq<Value>)
    requires AllElements(l.container) && IsElement(l.creator()) && |items| <= Helpers.MaxArrayLength
    ensures var r := SetData(l, current, items);
            AllElements(r.list.container) && |r.list.container.children| == |items|
            && |r.calls| >= |items|
            && CallsFrom(r.calls[|r.calls| - |items|..], current, items, 0)
  {
    var s1 := SetListSize(l, current, |items|);
    SetListSizeSpec(l, current, |items|);
    SetAllShape(s1.list, current, items, 0);
    SetAllSpec(s1.list, current, items, 0);
    var s2 := SetAll(s1.list, current, items, 0);
    var r := SetData(l, current, items);
    assert r.calls == s1.calls + s2.calls;
    assert r.calls[|r.calls| - |items|..] == s2.calls;
  }

  /** A whole-value notification with an array rebuilds the list as `setData`. */
  lemma NotifyWholeIsSetData(l: ElementList, b: ListBinding, ref: nat, items: seq<Value>, oldValue: Value, current: seq<Value>)
    requires b.subscription.active && !(AutoDisconnect(b.options) && !l.container.connected)
    ensures Notify(l, b, Descriptor(None, SetEvent, Arr(ref, items), oldValue), current) == Ok((SetData(l, current, items), b))
  {
  }

  /** The decimal form of an index names that index and is not `length`. */
  lemma IndexName(i: nat)
    ensures Decimal.NatToString(i) != "length" && Decimal.ParseInt(Decimal.NatToString(i)) == Some(i)
  {
    Decimal.ParseIntOfIntToString(i);
    assert Decimal.AllDigits(Decimal.NatToString(i));
  }

  /** A "set" notification for a property other than `length` that `parseInt`
      reads as an index sets the item at that index. */
  lemma NotifySetAt(l: ElementList, b: ListBinding, d: Descriptor, index: int, current: seq<Value>)
    requires b.subscription.active && !(AutoDisconnect(b.options) && !l.container.connected)
    requires d.property.Some? && d.property.value != "length" && Decimal.ParseInt(d.property.value) == Some(index)
    requires d.eventType == SetEvent
    ensures Notify(l, b, d, current) == Ok((SetItemValue(l, current, index, d.value, d.oldValue), b))
  {
  }

  /** Any other notification for such a property removes the item at that index. */
  lemma NotifyDeleteAt(l: ElementList, b: ListBinding, d: Descriptor, index: int, current: seq<Value>)
    requires b.subscription.active && !(AutoDisconnect(b.options) && !l.container.connected)
    requires d.property.Some? && d.property.value != "length" && Decimal.ParseInt(d.property.value) == Some(index)
    requires d.eventType != SetEvent
    ensures Notify(l, b, d, current) == Ok((Step(l.(container := RemoveItem(l.container, index)), []), b))
  {
  }

  /** A set of index `i` calls the setter once, for the item at `i`, with the new
      and old values, and changes no other item. */
  lemma NotifySetIndex(l: ElementList, b: ListBinding, i: nat, value: Value, oldValue: Value, current: seq<Value>)
    requires b.subscription.active && !(AutoDisconnect(b.options) && !l.container.connected)
    requires AllElements(l.container) && i < |l.container.children| && i < Helpers.MaxArrayLength
    ensures var r := Notify(l, b, Descriptor(Some(Decimal.NatToString(i)), SetEvent, value, oldValue), current);
            r.Ok? && |r.value.0.calls| == 1
            && r.value.0.calls[0].index == i && r.value.0.calls[0].value == value && r.value.0.calls[0].oldValue == oldValue
            && GetAttribute(r.value.0.calls[0].item, ItemIndexAttr) == Some(Decimal.NatToString(i))
            && forall j :: 0 <= j < |l.container.children| && j != i ==>
                 r.value.0.list.container.children[j] == l.container.children[j]
  {
    IndexName(i);
    NotifySetAt(l, b, Descriptor(Some(Decimal.NatToString(i)), SetEvent, value, oldValue), i, current);
    ItemAtOfElements(l.container, i);
  }

  /** A delete of index `i` removes exactly the item at `i`. */
  lemma NotifyDeleteIndex(l: ElementList, b: ListBinding, i: nat, oldValue: Value, current: seq<Value>)
    requires b.subscription.active && !(AutoDisconnect(b.options) && !l.container.connected)
    requires AllElements(l.container) && i < |l.container.children| && i < Helpers.MaxArrayLength
    ensures var r := Notify(l, b, Descriptor(Some(Decimal.NatToString(i)), DeleteEvent, Undefined, oldValue), current);
            r.Ok? && r.value.0.calls == []
            && r.value.0.list.container.children == l.container.children[..i] + l.container.children[i + 1..]
  {
    IndexName(i);
    var d := Descriptor(Some(Decimal.NatToString(i)), DeleteEvent, Undefined, oldValue);
    NotifyDeleteAt(l, b, d, i, current);
    ItemAtOfElements(l.container, i);
    var removed := RemoveItem(l.container, i);
    assert removed.children == l.container.children[..i] + l.container.children[i + 1..];
  }

  /** A change of `length` makes the item count the collection's length; when
      the list shrinks, the first items are kept as they are, and when it
      grows, each new item is given the collection's value at its index. */
  lemma NotifyLength(l: ElementList, b: ListBinding, value: Value, oldValue: Value, current: seq<Value>)
    requires b.subscription.active && !(AutoDisconnect(b.options) && !l.container.connected)
    requires AllElements(l.container) && IsElement(l.creator()) && |current| <= Helpers.MaxArrayLength
    ensures var r := Notify(l, b, Descriptor(Some("length"), SetEvent, value, oldValue), current);
            r.Ok? && AllElements(r.value.0.list.container) && |r.value.0.list.container.children| == |current|
            && (|current| <= |l.container.children| ==> r.value.0.list.container.children == l.container.children[..|current|])
            && (|current| > |l.container.children| ==> Grown(r.value.0, l, current, |l.container.children|, |current|))
  {
    SetListSizeSpec(l, current, |current|);
  }

  /** Without a creator, the template is a clone of the first element child, so
      the items it makes are elements and the list is filled from the
      collection. */
  lemma TemplateListIsFilled(container: Node, current: seq<Value>, setter: ItemSetter)
    requires FirstElementChild(container).Some? && |current| <= Helpers.MaxArrayLength
    ensures var r := Construct(container, current, setter, NoCreator);
            r.Constructed? && AllElements(r.step.list.container) && |r.step.list.container.children| == |current|
  {
    var t := Clone(FirstElementChild(container).value);
    var l := ElementList(container.(children := []), ListItemHelper(Some(t)), () => Clone(t), setter);
    assert IsElement(l.creator());
    SetDataSpec(l, current, current);
  }

  /** Whatever makes the items, a list whose items are elements starts with one
      item per element of the collection. */
  lemma ConstructFills(container: Node, current: seq<Value>, setter: ItemSetter, creator: Creator)
    requires Construct(container, current, setter, creator).Constructed? && |current| <= Helpers.MaxArrayLength
    requires IsElement(Construct(container, current, setter, creator).step.list.creator())
    ensures var l := Construct(container, current, setter, creator).step.list;
            AllElements(l.container) && |l.container.children| == |current|
  {
    var helper := ListItemHelper(match FirstElementChild(container) case Some(t) => Some(Clone(t)) case None => None);
    var cleared := container.(children := []);
    match creator
    case UserCreator(make) =>
      SetDataSpec(ElementList(cleared, helper, () => make(helper), setter), current, current);
    case NoCreator =>
      var t := helper.template.value;
      SetDataSpec(ElementList(cleared, helper, () => Clone(t), setter), current, current);
  }
}

=== FILE: multiple_select.dfy ===
/** `bindToMultipleSelect(reactive, select_element, options)`: a two-way binding
    between a collection of strings and a multiple select. Writing never
    deselects on its own: for each item, the last option whose value is the
    item's string form is selected. Notifications about one index select or
    deselect the option at that index; a notification of any other set first
    makes the selection match the collection exactly. */
module MultipleSelectBinder {
  import opened Wrappers
  import opened JsValue
  import opened Dom
  import opened BindOptions
  import opened Reactive
  import opened SelectDom
  import KeyIndex
  import Decimal

  datatype MultipleSelectBinding = MultipleSelectBinding(options: Options, handler: HandlerId, subscription: Subscription)

  function ChangeListener(h: HandlerId): Listener {
    Listener("change", h)
  }

  /** The key each child contributes to `data`: an option's value. */
  function OptionKeys(children: seq<Node>): (keys: seq<Option<string>>)
    ensures |keys| == |children|
    ensures forall j :: 0 <= j < |children| ==> keys[j] == (if IsOption(children[j]) then Some(OptionValue(children[j])) else None)
  {
    seq(|children|, j requires 0 <= j < |children| => if IsOption(children[j]) then Some(OptionValue(children[j])) else None)
  }

  /** Whether two children lists differ at most in the selectedness of options. */
  predicate SameOptions(a: seq<Node>, b: seq<Node>) {
    |a| == |b| && forall j :: 0 <= j < |a| ==> IsOption(a[j]) == IsOption(b[j]) && OptionValue(a[j]) == OptionValue(b[j])
  }

  /** Selects the child at position `j`, as `option.selected = true` does. */
  function SelectAt(children: seq<Node>, j: nat): (r: seq<Node>)
    requires j < |children|
    ensures SameOptions(children, r)
    ensures Selected(r[j]) && forall k :: 0 <= k < |children| && k != j ==> r[k] == children[k]
  {
    children[j := WithSelected(children[j], true)]
  }

  /** The setter loop over the collection from position `i`:
      `if (data[array[i]] && !data[array[i]].selected) data[array[i]].selected = true`. */
  function AddFrom(host: Host, children: seq<Node>, data: map<string, nat>, items: seq<Value>, i: nat): (r: seq<Node>)
    requires i <= |items| && forall k :: k in data ==> data[k] < |children|
    ensures SameOptions(children, r)
    ensures forall j :: 0 <= j < |children| ==>
              (Selected(r[j]) <==> (Selected(children[j]) || NamedFrom(host, data, items, i, j)))
    ensures forall j :: 0 <= j < |children| && !Selected(r[j]) ==> r[j] == children[j]
    decreases |items| - i
  {
    if i == |items| then children
    else
      var key := ToString(host, items[i]);
      var next := if key in data && !Selected(children[data[key]]) then SelectAt(children, data[key]) else children;
      var r := AddFrom(host, next, data, items, i + 1);
      AddFromStep(host, children, next, r, data, items, i);
      r
  }

  /** Some item from position `i` on names position `j` through the table. */
  predicate NamedFrom(host: Host, data: map<string, nat>, items: seq<Value>, i: nat, j: nat) {
    exists t :: i <= t < |items| && ToString(host, items[t]) in data && data[ToString(host, items[t])] == j
  }

  /** One turn of the setter loop: what the rest of the loop does to `next`,
      the state after item `i`, is what the loop from `i` does to `children`. */
  lemma AddFromStep(host: Host, children: seq<Node>, next: seq<Node>, r: seq<Node>, data: map<string, nat>, items: seq<Value>, i: nat)
    requires i < |items| && forall k :: k in data ==> data[k] < |children|
    requires var key := ToString(host, items[i]);
             next == if key in data && !Selected(children[data[key]]) then SelectAt(children, data[key]) else children
    requires SameOptions(next, r)
    requires forall j :: 0 <= j < |next| ==> (Selected(r[j]) <==> (Selected(next[j]) || NamedFrom(host, data, items, i + 1, j)))
    requires forall j :: 0 <= j < |next| && !Selected(r[j]) ==> r[j] == next[j]
    ensures SameOptions(children, r)
    ensures forall j :: 0 <= j < |children| ==> (Selected(r[j]) <==> (Selected(children[j]) || NamedFrom(host, data, items, i, j)))
    ensures forall j :: 0 <= j < |children| && !Selected(r[j]) ==> r[j] == children[j]
  {
    var key := ToString(host, items[i]);
    forall j | 0 <= j < |children|
      ensures (Selected(r[j]) <==> (Selected(children[j]) || NamedFrom(host, data, items, i, j)))
      ensures !Selected(r[j]) ==> r[j] == children[j]
    {
      if key in data && data[key] == j {
        assert NamedFrom(host, data, items, i, j);
      } else {
        assert next[j] == children[j];
        if NamedFrom(host, data, items, i, j) {
          var t :| i <= t < |items| && ToString(host, items[t]) in data && data[ToString(host, items[t])] == j;
          assert t != i;
        }
      }
    }
  }

  /** The setter: a table from option value to its last option, then `AddFrom`. */
  function Setter(host: Host, select: Node, items: seq<Value>): (r: Node)
    ensures SameOptions(select.children, r.children) && r == select.(children := r.children)
    ensures forall j :: 0 <= j < |select.children| && Selected(select.children[j]) ==> Selected(r.children[j])
  {
    var data := KeyIndex.LastIndex(OptionKeys(select.children));
    select.(children := AddFrom(host, select.children, data, items, 0))
  }

  /** `option.selected = reactive.value.indexOf(option.value) != -1` for every
      option. */
  function Rescan(select: Node, items: seq<Value>): (r: Node)
    ensures SameOptions(select.children, r.children) && r == select.(children := r.children)
    ensures forall j :: 0 <= j < |select.children| && IsOption(select.children[j]) ==>
              (Selected(r.children[j]) <==> Str(OptionValue(select.children[j])) in items)
    ensures forall j :: 0 <= j < |select.children| && !IsOption(select.children[j]) ==> r.children[j] == select.children[j]
  {
    select.(children := seq(|select.children|, j requires 0 <= j < |select.children| =>
      if IsOption(select.children[j]) then WithSelected(select.children[j], Str(OptionValue(select.children[j])) in items)
      else select.children[j]))
  }

  /** `select_element.options[p]` for a property name made of digits: the option
      at that index when the name is a canonical index within range. */
  function OptionAtName(select: Node, p: string): (r: Option<nat>)
    ensures r.Some? ==> r.value < |select.children| && IsOption(select.children[r.value])
  {
    var pos := OptionPositions(select);
    match Decimal.ArrayIndex(p)
    case Some(k) => if k < |pos| then Some(pos[k]) else None
    case None => None
  }

  /** The change a notification makes before the setter runs. */
  function Adjust(select: Node, d: Descriptor, items: seq<Value>): (r: Node)
    ensures SameOptions(select.children, r.children) && r == select.(children := r.children)
  {
    if d.property.Some? && Decimal.AllDigits(d.property.value) then
      match OptionAtName(select, d.property.value)
      case Some(j) =>
        if d.eventType == DeleteEvent && Selected(select.children[j]) then
          select.(children := select.children[j := WithSelected(select.children[j], false)])
        else if d.eventType == SetEvent && !Selected(select.children[j]) then
          select.(children := SelectAt(select.children, j))
        else select
      case None => select
    else if d.eventType == SetEvent then Rescan(select, items)
    else select
  }

  function BindToMultipleSelect(host: Host, globals: Options, items: seq<Value>, select: Node, options: Options, h: HandlerId)
    : (r: (Node, MultipleSelectBinding))
    ensures r.0.listeners == select.listeners + {ChangeListener(h)}
    ensures SameOptions(select.children, r.0.children)
    ensures r.0 == Setter(host, select, items).(listeners := r.0.listeners)
    ensures forall j :: 0 <= j < |select.children| && Selected(select.children[j]) ==> Selected(r.0.children[j])
    ensures r.1 == MultipleSelectBinding(Assign(globals, options), h, Subscription(true, DebounceTime(Assign(globals, options))))
  {
    var merged := Assign(globals, options);
    (AddListener(Setter(host, select, items), ChangeListener(h)), MultipleSelectBinding(merged, h, Subscription(true, DebounceTime(merged))))
  }

  /** The subscriber callback; `items` is the collection's current value. */
  function Notify(host: Host, b: MultipleSelectBinding, d: Descriptor, items: seq<Value>, select: Node)
    : (r: (Node, MultipleSelectBinding))
    ensures !b.subscription.active ==> r == (select, b)
    ensures b.subscription.active && AutoDisconnect(b.options) && !select.connected ==>
              r == (select, b.(subscription := Cancel(b.subscription)))
    ensures b.subscription.active && !(AutoDisconnect(b.options) && !select.connected) ==>
              r == (Setter(host, Adjust(select, d, items), items), b)
  {
    if !b.subscription.active then (select, b)
    else if AutoDisconnect(b.options) && !select.connected then (select, b.(subscription := Cancel(b.subscription)))
    else (Setter(host, Adjust(select, d, items), items), b)
  }

  /** A "change" event: the callback assigns the values of the selected options. */
  function OnChange(b: MultipleSelectBinding, select: Node): (r: Option<seq<Value>>)
    ensures r.Some? <==> ChangeListener(b.handler) in select.listeners
    ensures r.Some? ==> |r.value| == |SelectedValues(select)|
                        && forall k :: 0 <= k < |r.value| ==> r.value[k] == Str(SelectedValues(select)[k])
  {
    if ChangeListener(b.handler) in select.listeners then
      var vs := SelectedValues(select);
      Some(seq(|vs|, k requires 0 <= k < |vs| => Str(vs[k])))
    else None
  }

  /** The returned unsubscriber. */
  function Teardown(b: MultipleSelectBinding, select: Node): (r: (Node, MultipleSelectBinding))
    ensures r.0.listeners == select.listeners - {ChangeListener(b.handler)}
    ensures r.0 == select.(listeners := r.0.listeners) && !r.1.subscription.active
  {
    (RemoveListener(select, ChangeListener(b.handler)), b.(subscription := Cancel(b.subscription)))
  }

  // ---------------------------------------------------------------------------
  // Properties

  /** After the setter, every item names a selected option when some option
      carries its string form. */
  lemma SetterSelectsItems(host: Host, select: Node, items: seq<Value>, t: nat, j: nat)
    requires t < |items| && j < |select.children|
    requires IsOption(select.children[j]) && OptionValue(select.children[j]) == ToString(host, items[t])
    ensures exists k :: 0 <= k < |select.children| && IsOption(select.children[k])
                        && OptionValue(select.children[k]) == ToString(host, items[t])
                        && Selected(Setter(host, select, items).children[k])
  {
    var keys := OptionKeys(select.children);
    KeyIndex.LastIndexSpec(keys);
    var s := ToString(host, items[t]);
    assert keys[j] == Some(s);
    var data := KeyIndex.LastIndex(keys);
    var k := data[s];
    assert keys[k] == Some(s);
    assert NamedFrom(host, data, items, 0, k);
  }

  /** The first write of the binder: once bound, every item whose string form
      some option carries has a selected option carrying it. */
  lemma BindSelectsItems(host: Host, globals: Options, items: seq<Value>, select: Node, options: Options, h: HandlerId, t: nat, j: nat)
    requires t < |items| && j < |select.children|
    requires IsOption(select.children[j]) && OptionValue(select.children[j]) == ToString(host, items[t])
    ensures var r := BindToMultipleSelect(host, globals, items, select, options, h).0;
            exists k :: 0 <= k < |select.children| && IsOption(select.children[k])
                        && OptionValue(select.children[k]) == ToString(host, items[t]) && Selected(r.children[k])
  {
    SetterSelectsItems(host, select, items, t, j);
  }

  /** A set of the whole collection (or of any property that is not an index)
      to a list of strings leaves exactly the options whose value is in the list
      selected. */
  lemma WholeSetMatchesCollection(host: Host, select: Node, d: Descriptor, items: seq<Value>, j: nat)
    requires !(d.property.Some? && Decimal.AllDigits(d.property.value)) && d.eventType == SetEvent
    requires forall t :: 0 <= t < |items| ==> items[t].Str?
    requires j < |select.children| && IsOption(select.children[j])
    ensures Selected(Setter(host, Adjust(select, d, items), items).children[j]) <==> Str(OptionValue(select.children[j])) in items
  {
    var mid := Adjust(select, d, items);
    assert mid == Rescan(select, items);
    var data := KeyIndex.LastIndex(OptionKeys(mid.children));
    if NamedFrom(host, data, items, 0, j) {
      NamedIsItem(host, mid.children, items, j);
    }
  }

  /** When every item is a string, an option some item names through the
      table carries the value of an item. */
  lemma NamedIsItem(host: Host, children: seq<Node>, items: seq<Value>, j: nat)
    requires forall t :: 0 <= t < |items| ==> items[t].Str?
    requires j < |children| && NamedFrom(host, KeyIndex.LastIndex(OptionKeys(children)), items, 0, j)
    ensures Str(OptionValue(children[j])) in items
  {
    var keys := OptionKeys(children);
    var data := KeyIndex.LastIndex(keys);
    var t :| 0 <= t < |items| && ToString(host, items[t]) in data && data[ToString(host, items[t])] == j;
    assert keys[j] == Some(ToString(host, items[t]));
    assert items[t] == Str(OptionValue(children[j]));
  }

  /** Deleting index `k` deselects the option at that index, unless some
      remaining item names it again. */
  lemma DeleteDeselects(host: Host, select: Node, p: string, oldValue: Value, items: seq<Value>, j: nat)
    requires Decimal.AllDigits(p) && OptionAtName(select, p) == Some(j)
    requires forall t :: 0 <= t < |items| ==> ToString(host, items[t]) != OptionValue(select.children[j])
    ensures !Selected(Setter(host, Adjust(select, Descriptor(Some(p), DeleteEvent, Undefined, oldValue), items), items).children[j])
  {
    var mid := Adjust(select, Descriptor(Some(p), DeleteEvent, Undefined, oldValue), items);
    assert !Selected(mid.children[j]);
    var keys := OptionKeys(mid.children);
    assert keys[j] == Some(OptionValue(select.children[j]));
  }

  /** Option values are pairwise distinct. */
  predicate DistinctValues(select: Node) {
    forall j, k :: 0 <= j < k < |select.children| && IsOption(select.children[j]) && IsOption(select.children[k])
                   ==> OptionValue(select.children[j]) != OptionValue(select.children[k])
  }

  /** When the values a "change" event assigns come back as a set of the whole
      collection, a select whose option values are distinct keeps its
      selection. */
  lemma ChangeRoundTrip(host: Host, b: MultipleSelectBinding, select: Node, ref: nat, oldValue: Value, j: nat)
    requires b.subscription.active && !(AutoDisconnect(b.options) && !select.connected)
    requires OnChange(b, select).Some? && DistinctValues(select)
    requires j < |select.children| && IsOption(select.children[j])
    ensures var vs := OnChange(b, select).value;
            Selected(Notify(host, b, Descriptor(None, SetEvent, Arr(ref, vs), oldValue), vs, select).0.children[j])
            <==> Selected(select.children[j])
  {
    var vs := OnChange(b, select).value;
    var d := Descriptor(None, SetEvent, Arr(ref, vs), oldValue);
    WholeSetMatchesCollection(host, select, d, vs, j);
    var v := OptionValue(select.children[j]);
    ChangeValuesMembership(b, select, v);
    OwnValueSelected(select, j);
  }

  /** The string form of a value is among the values a "change" event assigns
      exactly when the value is among the selected values. */
  lemma ChangeValuesMembership(b: MultipleSelectBinding, select: Node, v: string)
    requires OnChange(b, select).Some?
    ensures Str(v) in OnChange(b, select).value <==> v in SelectedValues(select)
  {
    var vs := OnChange(b, select).value;
    var names := SelectedValues(select);
    if Str(v) in vs {
      var t :| 0 <= t < |vs| && vs[t] == Str(v);
      assert names[t] == v;
    }
    if v in names {
      var t :| 0 <= t < |names| && names[t] == v;
      assert vs[t] == Str(v);
    }
  }

  /** With distinct option values, an option's value is among the selected
      values exactly when that option is selected. */
  lemma OwnValueSelected(select: Node, j: nat)
    requires DistinctValues(select) && j < |select.children| && IsOption(select.children[j])
    ensures OptionValue(select.children[j]) in SelectedValues(select) <==> Selected(select.children[j])
  {
    var v := OptionValue(select.children[j]);
    SelectedValuesMembership(select.children, v);
    forall k | 0 <= k < |select.children| && k != j && IsOption(select.children[k])
      ensures OptionValue(select.children[k]) != v
    {
      if k < j {
        assert OptionValue(select.children[k]) != OptionValue(select.children[j]);
      } else {
        assert OptionValue(select.children[j]) != OptionValue(select.children[k]);
      }
    }
  }
}

=== FILE: options.dfy ===
/** Binder options. Every binder merges the library-wide defaults with the
    options of the call (`Object.assign({}, globalOptions, options)`), so an
    options record is a map from option name to value, and a name that was
    never given reads as undefined. */
module BindOptions {
  import opened JsValue

  type Options = map<string, Value>

  /** The library-wide defaults as the library ships them. They are mutable at
      run time, so every binder takes the current defaults as a parameter. */
  const Defaults: Options := map["debounce_time" := Num(0.0), "autodisconnect" := Bool(false)]

  /** `Object.assign({}, a, b)`: the later source wins on every shared name. */
  function Assign(a: Options, b: Options): (r: Options)
    ensures r.Keys == a.Keys + b.Keys
    ensures forall k :: k in b ==> r[k] == b[k]
    ensures forall k :: k in a && k !in b ==> r[k] == a[k]
  {
    a + b
  }

  /** `o[key]`. */
  function Get(o: Options, key: string): Value {
    if key in o then o[key] else Undefined
  }

  /** `_options.autodisconnect` read as a condition. */
  predicate AutoDisconnect(o: Options) {
    Truthy(Get(o, "autodisconnect"))
  }

  /** `_options.debounce_time`, handed to the store untouched. */
  function DebounceTime(o: Options): Value {
    Get(o, "debounce_time")
  }

  /** Merging the defaults a second time changes nothing: a binder that merges
      `globalOptions` into options its caller already merged them into sees the
      same options. */
  lemma AssignAbsorbs(g: Options, o: Options)
    ensures Assign(g, Assign(g, o)) == Assign(g, o)
  {
  }

  /** Merging is associative, so nested merges read left to right. */
  lemma AssignAssociative(a: Options, b: Options, c: Options)
    ensures Assign(Assign(a, b), c) == Assign(a, Assign(b, c))
  {
  }
}

=== FILE: property.dfy ===
/** `bindToProperty(reactive_item, element, property_name, options)`: keeps one
    property of the element equal to the reactive item's value, as the DOM
    stores a value assigned to that property. */
module PropertyBinder {
  import opened JsValue
  import opened Dom
  import opened BindOptions
  import Binder

  /** The context object `{property_name}`. */
  datatype PropertyCtx = PropertyCtx(propertyName: string)

  /** The setter: `element[ctx.property_name] = reactive_item.value`. */
  function Write(host: Host, v: Value, element: Node, ctx: PropertyCtx): (r: Node)
    ensures GetProp(r, ctx.propertyName) == Converted(host, ctx.propertyName, v)
    ensures forall other :: other != ctx.propertyName ==> GetProp(r, other) == GetProp(element, other)
    ensures r == element.(props := r.props)
  {
    WriteProp(host, element, ctx.propertyName, v)
  }

  function SetterOf(host: Host): Binder.Setter<PropertyCtx> {
    (v, e, ctx, o) => Write(host, v, e, ctx)
  }

  /** `bindToProperty`: the options are merged with the defaults here and once
      more by the binder core, which changes nothing. */
  function BindToProperty(host: Host, globals: Options, current: Value, element: Node, name: string, options: Options)
    : (r: (Node, Binder.Binding<PropertyCtx>))
    ensures GetProp(r.0, name) == Converted(host, name, current)
    ensures forall other :: other != name ==> GetProp(r.0, other) == GetProp(element, other)
    ensures r.0 == element.(props := r.0.props)
    ensures r.1.ctx == PropertyCtx(name) && r.1.options == Assign(globals, options)
    ensures r.1.subscription.active && r.1.subscription.debounceTime == DebounceTime(Assign(globals, options))
  {
    AssignAbsorbs(globals, options);
    Binder.Bind(globals, SetterOf(host), current, element, PropertyCtx(name), Assign(globals, options))
  }

  /** The run of a property binding from the moment it is made. */
  function RunFrom(host: Host, globals: Options, current: Value, element: Node, name: string, options: Options,
                   steps: seq<Binder.Step>): Binder.World<PropertyCtx>
  {
    var (e, b) := BindToProperty(host, globals, current, element, name, options);
    Binder.Run(SetterOf(host), Binder.World(current, e, b), steps)
  }

  /** Whether an element's property `name` holds a value as the DOM converts it. */
  function Reflects(host: Host, name: string): (Value, Node) -> bool {
    (v: Value, n: Node) => GetProp(n, name) == Converted(host, name, v)
  }

  /** Every write makes the property hold the value written, and attaching or
      detaching the element leaves the property as it is. */
  lemma WriteReflects(host: Host, name: string, options: Options)
    ensures Binder.Establishes(SetterOf(host), Reflects(host, name), PropertyCtx(name), options)
  {
    var reflects := Reflects(host, name);
    forall v, n: Node ensures reflects(v, SetterOf(host)(v, n, PropertyCtx(name), options)) {
      assert GetProp(Write(host, v, n, PropertyCtx(name)), name) == Converted(host, name, v);
    }
    forall v, n: Node, c | reflects(v, n) ensures reflects(v, n.(connected := c)) {
      assert GetProp(n.(connected := c), name) == GetProp(n, name);
    }
  }

  /** While a property binding is subscribed, the property holds the reactive
      item's current value as the DOM converts it. */
  lemma PropertyStaysInSync(host: Host, globals: Options, current: Value, element: Node, name: string,
                            options: Options, steps: seq<Binder.Step>)
    ensures var w := RunFrom(host, globals, current, element, name, options, steps);
            w.binding.subscription.active ==> GetProp(w.element, name) == Converted(host, name, w.source)
  {
    var (e, b) := BindToProperty(host, globals, current, element, name, options);
    var w := Binder.World(current, e, b);
    WriteReflects(host, name, b.options);
    assert Binder.InSync(Reflects(host, name), w);
    Binder.RunKeepsInSync(SetterOf(host), Reflects(host, name), w, steps);
    assert RunFrom(host, globals, current, element, name, options, steps) == Binder.Run(SetterOf(host), w, steps);
  }
}

=== FILE: radios.dfy ===
/** `bindToRadios(reactive, radios, options)`: a two-way binding between a
    reactive item and a group of radio buttons. The group is named by the first
    radio; a value is shown by checking the last radio of that name carrying it.
    An empty list or a first radio without a name gives a binding that does
    nothing. */
module RadiosBinder {
  import opened Wrappers
  import opened JsValue
  import opened Dom
  import opened BindOptions
  import opened Reactive
  import KeyIndex

  /** `data`: the radio for each value. `count` is the length of the list the
      binding was made for. */
  datatype RadiosBinding =
    | Noop
    | Live(options: Options, handler: HandlerId, subscription: Subscription, data: map<string, nat>, count: nat)

  function ChangeListener(h: HandlerId): Listener {
    Listener("change", h)
  }

  function RadioName(r: Node): string {
    PropString(r, "name")
  }

  function RadioValue(r: Node): string {
    PropString(r, "value")
  }

  /** The key each radio contributes to the table: its value, when it has the
      group's name and a non-empty value. */
  function RadioKeys(radios: seq<Node>, name: string): (keys: seq<Option<string>>)
    ensures |keys| == |radios|
    ensures forall i :: 0 <= i < |radios| ==>
              keys[i] == (if RadioName(radios[i]) == name && RadioValue(radios[i]) != "" then Some(RadioValue(radios[i])) else None)
  {
    seq(|radios|, i requires 0 <= i < |radios| =>
      if RadioName(radios[i]) == name && RadioValue(radios[i]) != "" then Some(RadioValue(radios[i])) else None)
  }

  predicate WellFormed(b: RadiosBinding) {
    b.Live? ==> b.count > 0 && forall k :: k in b.data ==> b.data[k] < b.count
  }

  /** The setter: `if (data[value]) data[value].checked = true`. */
  function Write(host: Host, v: Value, radios: seq<Node>, data: map<string, nat>): (r: seq<Node>)
    requires forall k :: k in data ==> data[k] < |radios|
    ensures |r| == |radios|
    ensures ToString(host, v) in data ==> GetProp(r[data[ToString(host, v)]], "checked") == Bool(true)
    ensures forall i :: 0 <= i < |radios| && !(ToString(host, v) in data && data[ToString(host, v)] == i) ==> r[i] == radios[i]
  {
    var key := ToString(host, v);
    if key in data then radios[data[key] := SetProp(radios[data[key]], "checked", Bool(true))] else radios
  }

  function AddListenerAll(radios: seq<Node>, l: Listener): (r: seq<Node>)
    ensures |r| == |radios|
    ensures forall i :: 0 <= i < |radios| ==> r[i] == AddListener(radios[i], l)
  {
    seq(|radios|, i requires 0 <= i < |radios| => AddListener(radios[i], l))
  }

  function RemoveListenerAll(radios: seq<Node>, l: Listener): (r: seq<Node>)
    ensures |r| == |radios|
    ensures forall i :: 0 <= i < |radios| ==> r[i] == RemoveListener(radios[i], l)
  {
    seq(|radios|, i requires 0 <= i < |radios| => RemoveListener(radios[i], l))
  }

  function BindToRadios(host: Host, globals: Options, current: Value, radios: seq<Node>, options: Options, h: HandlerId)
    : (r: (seq<Node>, RadiosBinding))
    ensures r.1.Noop? <==> (|radios| == 0 || RadioName(radios[0]) == "")
    ensures r.1.Noop? ==> r.0 == radios
    ensures r.1.Live? ==> WellFormed(r.1) && r.1.count == |radios| && r.1.handler == h && r.1.subscription.active
    ensures r.1.Live? ==> r.1.data == KeyIndex.LastIndex(RadioKeys(radios, RadioName(radios[0])))
    ensures |r.0| == |radios|
    ensures r.1.Live? ==> forall i :: 0 <= i < |radios| ==> ChangeListener(h) in r.0[i].listeners
    ensures r.1.Live? ==> r.0 == AddListenerAll(Write(host, current, radios, r.1.data), ChangeListener(h))
    ensures r.1.Live? ==>
              var s := ToString(host, current);
              (s in r.1.data ==> GetProp(r.0[r.1.data[s]], "checked") == Bool(true))
              && forall i :: 0 <= i < |radios| && !(s in r.1.data && r.1.data[s] == i) ==>
                   r.0[i] == AddListener(radios[i], ChangeListener(h))
  {
    var merged := Assign(globals, options);
    if |radios| == 0 then (radios, Noop)
    else
      var name := RadioName(radios[0]);
      if name == "" then (radios, Noop)
      else
        var data := KeyIndex.LastIndex(RadioKeys(radios, name));
        (AddListenerAll(Write(host, current, radios, data), ChangeListener(h)),
         Live(merged, h, Subscription(true, DebounceTime(merged)), data, |radios|))
  }

  function Notify(host: Host, b: RadiosBinding, value: Value, radios: seq<Node>): (r: (seq<Node>, RadiosBinding))
    requires WellFormed(b) && (b.Live? ==> |radios| == b.count)
    ensures WellFormed(r.1) && (b.Live? ==> r.1.Live? && r.1.count == b.count)
    ensures (b.Noop? || !b.subscription.active) ==> r == (radios, b)
    ensures b.Live? && b.subscription.active && AutoDisconnect(b.options) && !radios[0].connected ==>
              r == (radios, b.(subscription := Cancel(b.subscription)))
    ensures b.Live? && b.subscription.active && !(AutoDisconnect(b.options) && !radios[0].connected) ==>
              r == (Write(host, value, radios, b.data), b)
  {
    if b.Noop? || !b.subscription.active then (radios, b)
    else if AutoDisconnect(b.options) && !radios[0].connected then (radios, b.(subscription := Cancel(b.subscription)))
    else (Write(host, value, radios, b.data), b)
  }

  /** A "change" event on radio `i`: the callback assigns that radio's value. */
  function OnChange(b: RadiosBinding, radios: seq<Node>, i: nat): (r: Option<Value>)
    requires i < |radios|
    ensures r.Some? <==> b.Live? && ChangeListener(b.handler) in radios[i].listeners
    ensures r.Some? ==> r.value == Str(RadioValue(radios[i]))
  {
    if b.Live? && ChangeListener(b.handler) in radios[i].listeners then Some(Str(RadioValue(radios[i]))) else None
  }

  /** The returned unsubscriber. */
  function Teardown(b: RadiosBinding, radios: seq<Node>): (r: (seq<Node>, RadiosBinding))
    ensures b.Noop? ==> r == (radios, b)
    ensures b.Live? ==> r.0 == RemoveListenerAll(radios, ChangeListener(b.handler)) && r.1.Live? && !r.1.subscription.active
  {
    if b.Noop? then (radios, b)
    else (RemoveListenerAll(radios, ChangeListener(b.handler)), b.(subscription := Cancel(b.subscription)))
  }

  /** Radio `i` belongs to the group `name` and carries the value `s`. */
  predicate Carries(radios: seq<Node>, name: string, s: string, i: int) {
    0 <= i < |radios| && RadioName(radios[i]) == name && RadioValue(radios[i]) == s && s != ""
  }

  /** What a write does, stated without the table: the last radio of the group
      carrying the value's string form is checked and no other radio changes. */
  lemma WriteChecksLastCarrier(host: Host, v: Value, radios: seq<Node>, name: string, i: nat)
    requires Carries(radios, name, ToString(host, v), i)
    requires forall j :: i < j ==> !Carries(radios, name, ToString(host, v), j)
    ensures var r := Write(host, v, radios, KeyIndex.LastIndex(RadioKeys(radios, name)));
            GetProp(r[i], "checked") == Bool(true) && forall j :: 0 <= j < |radios| && j != i ==> r[j] == radios[j]
  {
    var keys := RadioKeys(radios, name);
    var s := ToString(host, v);
    KeyIndex.LastIndexSpec(keys);
    assert keys[i] == Some(s);
    var last := KeyIndex.LastIndex(keys)[s];
    assert Carries(radios, name, s, last);
  }

  /** The first write of the binder: the last radio of the group carrying the
      current value's string form is checked, and every radio only gains the
      listener otherwise. */
  lemma BindChecksLastCarrier(host: Host, globals: Options, current: Value, radios: seq<Node>, options: Options, h: HandlerId, i: nat)
    requires |radios| > 0 && RadioName(radios[0]) != ""
    requires Carries(radios, RadioName(radios[0]), ToString(host, current), i)
    requires forall j :: i < j ==> !Carries(radios, RadioName(radios[0]), ToString(host, current), j)
    ensures var r := BindToRadios(host, globals, current, radios, options, h).0;
            GetProp(r[i], "checked") == Bool(true)
            && forall j :: 0 <= j < |radios| && j != i ==> r[j] == AddListener(radios[j], ChangeListener(h))
  {
    WriteChecksLastCarrier(host, current, radios, RadioName(radios[0]), i);
  }

  /** When no radio of the group carries the value's string form, a write
      changes nothing. */
  lemma WriteMissLeavesRadios(host: Host, v: Value, radios: seq<Node>, name: string)
    requires forall i :: !Carries(radios, name, ToString(host, v), i)
    ensures Write(host, v, radios, KeyIndex.LastIndex(RadioKeys(radios, name))) == radios
  {
    var keys := RadioKeys(radios, name);
    var data := KeyIndex.LastIndex(keys);
    var s := ToString(host, v);
    if s in data {
      assert keys[data[s]] == Some(s);
      assert Carries(radios, name, s, data[s]);
    }
  }

  /** The user's choice survives the round trip: a change on a radio of the group
      that is the last to carry its (non-empty) value is written back by checking
      that same radio and nothing else. */
  lemma ChangeRoundTrip(host: Host, b: RadiosBinding, radios: seq<Node>, i: nat)
    requires WellFormed(b) && b.Live? && |radios| == b.count && i < |radios|
    requires b.data == KeyIndex.LastIndex(RadioKeys(radios, RadioName(radios[0])))
    requires RadioName(radios[i]) == RadioName(radios[0]) && RadioValue(radios[i]) != ""
    requires forall j :: i < j < |radios| && RadioName(radios[j]) == RadioName(radios[0]) ==> RadioValue(radios[j]) != RadioValue(radios[i])
    requires b.subscription.active && !(AutoDisconnect(b.options) && !radios[0].connected)
    requires OnChange(b, radios, i).Some?
    ensures var r := Notify(host, b, OnChange(b, radios, i).value, radios).0;
            GetProp(r[i], "checked") == Bool(true) && forall j :: 0 <= j < |radios| && j != i ==> r[j] == radios[j]
  {
    var keys := RadioKeys(radios, RadioName(radios[0]));
    var s := RadioValue(radios[i]);
    assert ToString(host, Str(s)) == s;
    KeyIndex.LastHolderIffNoLater(keys, i);
  }
}

=== FILE: reactive.dfy ===
/** What a binder sees of a reactive item (an atom, a computed value or a
    collection of the store library): its current value, the change descriptor
    handed to subscribers, and the subscription it holds. The store itself is
    not part of this model. */
module Reactive {
  import opened Wrappers
  import opened JsValue

  /** `"set"` or `"delete"`. */
  datatype EventType = SetEvent | DeleteEvent

  /** A change notification. `property` is the changed property of a collection
      (`None` stands for null, a change of the whole value); `value` and
      `oldValue` are the new and previous values of that property. */
  datatype Descriptor = Descriptor(
    property: Option<string>,
    eventType: EventType,
    value: Value,
    oldValue: Value)

  /** A subscription of one callback with its debounce time. Calling the
      unsubscriber makes it inactive, and an inactive subscription is never
      called again. */
  datatype Subscription = Subscription(active: bool, debounceTime: Value)

  function Cancel(s: Subscription): (r: Subscription)
    ensures !r.active && r.debounceTime == s.debounceTime
  {
    s.(active := false)
  }
}

=== FILE: select.dfy ===
/** `bindToSelectElement(reactive, select_element, options)`: a two-way binding
    between a reactive item and a select element's `value`. Automatic
    disconnection cancels only the subscription: the "change" listener stays
    until the returned unsubscriber runs. */
module SelectBinder {
  import opened Wrappers
  import opened JsValue
  import opened Dom
  import opened BindOptions
  import opened Reactive
  import opened SelectDom

  datatype SelectBinding = SelectBinding(options: Options, handler: HandlerId, subscription: Subscription)

  function ChangeListener(h: HandlerId): Listener {
    Listener("change", h)
  }

  /** Whether some option of the select has the value `s`. */
  predicate HasOptionValued(select: Node, s: string) {
    exists j :: 0 <= j < |select.children| && IsOption(select.children[j]) && OptionValue(select.children[j]) == s
  }

  /** The setter: `select_element.value = value`. */
  function Write(host: Host, v: Value, select: Node): (r: Node)
    ensures SelectValue(r) == (if HasOptionValued(select, ToString(host, v)) then ToString(host, v) else "")
    ensures r == select.(children := r.children)
  {
    SelectValueAfterSet(select, ToString(host, v));
    SetSelectValue(select, ToString(host, v))
  }

  function BindToSelectElement(host: Host, globals: Options, current: Value, select: Node, options: Options, h: HandlerId)
    : (r: (Node, SelectBinding))
    ensures SelectValue(r.0) == (if HasOptionValued(select, ToString(host, current)) then ToString(host, current) else "")
    ensures r.0.listeners == select.listeners + {ChangeListener(h)}
    ensures r.1 == SelectBinding(Assign(globals, options), h, Subscription(true, DebounceTime(Assign(globals, options))))
  {
    var merged := Assign(globals, options);
    (AddListener(Write(host, current, select), ChangeListener(h)),
     SelectBinding(merged, h, Subscription(true, DebounceTime(merged))))
  }

  function Notify(host: Host, b: SelectBinding, value: Value, select: Node): (r: (Node, SelectBinding))
    ensures !b.subscription.active ==> r == (select, b)
    ensures b.subscription.active && AutoDisconnect(b.options) && !select.connected ==>
              r == (select, b.(subscription := Cancel(b.subscription)))
    ensures b.subscription.active && !(AutoDisconnect(b.options) && !select.connected) ==>
              r == (Write(host, value, select), b)
  {
    if !b.subscription.active then (select, b)
    else if AutoDisconnect(b.options) && !select.connected then (select, b.(subscription := Cancel(b.subscription)))
    else (Write(host, value, select), b)
  }

  /** A "change" event: the callback assigns `select_element.value` to the item. */
  function OnChange(b: SelectBinding, select: Node): (r: Option<Value>)
    ensures r.Some? <==> ChangeListener(b.handler) in select.listeners
    ensures r.Some? ==> r.value == Str(SelectValue(select))
  {
    if ChangeListener(b.handler) in select.listeners then Some(Str(SelectValue(select))) else None
  }

  /** The returned unsubscriber. */
  function Teardown(b: SelectBinding, select: Node): (r: (Node, SelectBinding))
    ensures r.0.listeners == select.listeners - {ChangeListener(b.handler)}
    ensures r.0 == select.(listeners := r.0.listeners)
    ensures !r.1.subscription.active
  {
    (RemoveListener(select, ChangeListener(b.handler)), b.(subscription := Cancel(b.subscription)))
  }

  /** A user's choice survives the round trip: the value the "change" callback
      hands to the item, written back by the subscription, leaves `value` as the
      user left it. */
  lemma ChangeRoundTrip(host: Host, b: SelectBinding, select: Node)
    requires OnChange(b, select).Some?
    ensures SelectValue(Notify(host, b, OnChange(b, select).value, select).0) == SelectValue(select)
  {
    var s := SelectValue(select);
    assert ToString(host, Str(s)) == s;
    match FirstWhere(select.children, IsSelectedOption)
    case Some(j) =>
      assert HasOptionValued(select, s);
    case None =>
  }

  /** Automatic disconnection leaves the "change" listener in place, so the
      user's choices still reach the item after the subscription ended. */
  lemma DisconnectKeepsListener(host: Host, b: SelectBinding, value: Value, select: Node)
    requires b.subscription.active && AutoDisconnect(b.options) && !select.connected
    requires ChangeListener(b.handler) in select.listeners
    ensures var (s, b') := Notify(host, b, value, select);
            !b'.subscription.active && OnChange(b', s).Some?
  {
  }
}

=== FILE: select_dom.dfy ===
/** The parts of `HTMLSelectElement` the select binders use: the list of
    options, `value` on reading and on writing, and `selectedOptions`. The
    options of a select are its `option` children. */
module SelectDom {
  import opened Wrappers
  import opened JsValue
  import opened Dom

  predicate IsOption(n: Node) {
    n.kind == ElementNode("option")
  }

  function OptionValue(o: Node): string {
    PropString(o, "value")
  }

  predicate Selected(o: Node) {
    PropFlag(o, "selected")
  }

  predicate IsSelectedOption(n: Node) {
    IsOption(n) && Selected(n)
  }

  /** The positions of the options among the select's children; the k-th entry
      is `select.options[k]`. */
  function OptionPositions(select: Node): (pos: seq<nat>)
    ensures forall k :: 0 <= k < |pos| ==> pos[k] < |select.children| && IsOption(select.children[pos[k]])
    ensures forall j :: 0 <= j < |select.children| && IsOption(select.children[j]) ==> j in pos
  {
    PositionsWhere(select.children, IsOption)
  }

  /** `select.value`: the value of the first selected option, or "" when none
      is selected. */
  function SelectValue(select: Node): (r: string)
    ensures (forall j :: 0 <= j < |select.children| ==> !IsSelectedOption(select.children[j])) ==> r == ""
    ensures forall j :: 0 <= j < |select.children| && IsSelectedOption(select.children[j])
                        && (forall k :: 0 <= k < j ==> !IsSelectedOption(select.children[k])) ==>
              r == OptionValue(select.children[j])
  {
    match FirstWhere(select.children, IsSelectedOption)
    case Some(j) => OptionValue(select.children[j])
    case None => ""
  }

  /** Sets one option's selectedness. */
  function WithSelected(o: Node, b: bool): (r: Node)
    ensures Selected(r) <==> b
    ensures IsOption(r) <==> IsOption(o)
    ensures OptionValue(r) == OptionValue(o)
  {
    SetProp(o, "selected", Bool(b))
  }

  /** `select.value = s`: every option is deselected, then the first option
      whose value is `s`, if any, is selected. */
  function SetSelectValue(select: Node, s: string): (r: Node)
    ensures |r.children| == |select.children|
    ensures forall j :: 0 <= j < |r.children| ==> IsOption(r.children[j]) == IsOption(select.children[j])
    ensures forall j :: 0 <= j < |r.children| ==> OptionValue(r.children[j]) == OptionValue(select.children[j])
    ensures r == select.(children := r.children)
  {
    var first := FirstWhere(select.children, (n: Node) => IsOption(n) && OptionValue(n) == s);
    select.(children := seq(|select.children|, j requires 0 <= j < |select.children| =>
      if IsOption(select.children[j]) then WithSelected(select.children[j], first == Some(j))
      else select.children[j]))
  }

  /** Reading `value` back after writing `s` gives `s` when some option has that
      value, and "" when none has. */
  lemma SelectValueAfterSet(select: Node, s: string)
    ensures SelectValue(SetSelectValue(select, s)) ==
            (if exists j :: 0 <= j < |select.children| && IsOption(select.children[j]) && OptionValue(select.children[j]) == s
             then s else "")
  {
    var first := FirstWhere(select.children, (n: Node) => IsOption(n) && OptionValue(n) == s);
    var r := SetSelectValue(select, s);
    var hit := FirstWhere(r.children, IsSelectedOption);
    match first
    case Some(f) =>
      assert IsSelectedOption(r.children[f]);
    case None =>
  }

  /** `Array.from(select.selectedOptions).map(o => o.value)`. */
  function SelectedValues(select: Node): (vs: seq<string>)
    ensures |vs| <= |select.children|
  {
    SelectedValuesOf(select.children)
  }

  function SelectedValuesOf(children: seq<Node>): (vs: seq<string>)
    ensures |vs| <= |children|
  {
    if children == [] then []
    else (if IsSelectedOption(children[0]) then [OptionValue(children[0])] else []) + SelectedValuesOf(children[1..])
  }

  /** A value is among the selected values exactly when a selected option
      carries it. */
  lemma {:induction false} SelectedValuesMembership(children: seq<Node>, s: string)
    ensures s in SelectedValuesOf(children) <==>
              exists j :: 0 <= j < |children| && IsSelectedOption(children[j]) && OptionValue(children[j]) == s
    decreases |children|
  {
    if children != [] {
      SelectedValuesMembership(children[1..], s);
      if exists j :: 0 <= j < |children| && IsSelectedOption(children[j]) && OptionValue(children[j]) == s {
        var j :| 0 <= j < |children| && IsSelectedOption(children[j]) && OptionValue(children[j]) == s;
        if j > 0 {
          assert children[1..][j - 1] == children[j];
        }
      }
      if exists j :: 0 <= j < |children[1..]| && IsSelectedOption(children[1..][j]) && OptionValue(children[1..][j]) == s {
        var j :| 0 <= j < |children[1..]| && IsSelectedOption(children[1..][j]) && OptionValue(children[1..][j]) == s;
        assert children[j + 1] == children[1..][j];
      }
    }
  }
}

=== FILE: show.dfy ===
/** `bindToShow(reactive_item, element, options)`: the class binder with the
    class named by `hide_class_name` (default "d-none") and `remove_class_flag`
    defaulting to true, so by default the class hides the element exactly when
    the value is falsy. */
module ShowBinder {
  import opened JsValue
  import opened Dom
  import opened BindOptions
  import Binder
  import CssClassBinder

  const ShowDefaults: Options := map["remove_class_flag" := Bool(true), "hide_class_name" := Str("d-none")]

  function Merged(globals: Options, options: Options): Options {
    Assign(Assign(globals, ShowDefaults), options)
  }

  /** The class `bindToShow` toggles: `String(hide_class_name)`. */
  function HideClass(host: Host, globals: Options, options: Options): string {
    ToString(host, Get(Merged(globals, options), "hide_class_name"))
  }

  function BindToShow(host: Host, globals: Options, current: Value, element: Node, options: Options)
    : (r: (Node, Binder.Binding<CssClassBinder.CssCtx>))
    ensures HideClass(host, globals, options) in r.0.classes
            <==> (Truthy(current) <==> CssClassBinder.MarksTruthy(host, Merged(globals, options)))
    ensures forall d :: d != HideClass(host, globals, options) ==> (d in r.0.classes <==> d in element.classes)
    ensures r.0 == element.(classes := r.0.classes)
    ensures r.1.options == Merged(globals, options) && r.1.subscription.active
  {
    var merged := Merged(globals, options);
    ShowOptionsSurviveCssMerge(globals, options);
    CssClassBinder.BindToCssClass(host, globals, current, element, HideClass(host, globals, options), merged)
  }

  /** The class binder's own defaults cannot override the ones `bindToShow`
      already merged in. */
  lemma ShowOptionsSurviveCssMerge(globals: Options, options: Options)
    ensures CssClassBinder.Merged(globals, Merged(globals, options)) == Merged(globals, options)
  {
  }

  /** With both options left at their defaults, the element carries "d-none"
      exactly when the value is falsy. */
  lemma ShowHidesFalsy(host: Host, globals: Options, current: Value, element: Node, options: Options)
    requires "remove_class_flag" !in options && "hide_class_name" !in options
    ensures HideClass(host, globals, options) == "d-none"
    ensures "d-none" in BindToShow(host, globals, current, element, options).0.classes <==> !Truthy(current)
  {
    assert Get(Merged(globals, options), "remove_class_flag") == Bool(true);
  }
}

=== FILE: template.dfy ===
/** The second half of the `html` tagged template. The markup is parsed and
    must yield exactly one node, whose deep copy becomes the fragment's root.
    A tree walker then visits the nodes after the root, in document order:
    - every text node is cut into segments, and each reactive segment becomes
      a text node bound to its item;
    - every attribute `ref="name"` records the element under that name;
    - every attribute whose whole value is a stored placeholder `{{i}}` binds
      the item to the element. `v-text`, `v-html`, `v-show` and `v-disabled`
      select the text, html, show and disabled binders and are removed; any
      other name is bound as an attribute.
    All text bindings are made before any element binding. A value of the
    wrong type for its binding throws, and the bindings made before it stay
    subscribed.

    The parser is a parameter. Element identity is an element path: the
    indices, among element children only, from the root. */
module Template {
  import opened Wrappers
  import opened JsValue
  import opened Dom
  import opened BindOptions
  import opened Reactive
  import Decimal
  import opened TemplateText
  import opened TemplateMarkup
  import TextBinder
  import HtmlBinder
  import ShowBinder
  import CssClassBinder
  import DisabledBinder
  import AttributeBinder

  /** The code as written, or the code with the two corrections listed under
      Findings: the walk visits the root as well, and the static segments of
      a text node are inserted along with the reactive ones. */
  datatype Variant = Variant(visitRoot: bool, keepStaticText: bool)

  const AsWritten: Variant := Variant(false, false)
  const Corrected: Variant := Variant(true, true)

  /** What a reactive item is bound to. */
  datatype Directive = TextContent | VText | VHtml | VShow | VDisabled | AttrDirective(name: string)

  /** The directive an attribute name selects (the `switch` on the name). */
  function DirectiveOf(name: string): (d: Directive)
    ensures d != TextContent
    ensures d.AttrDirective? <==> name !in {"v-text", "v-html", "v-show", "v-disabled"}
    ensures d.AttrDirective? ==> d.name == name
  {
    if name == "v-text" then VText
    else if name == "v-html" then VHtml
    else if name == "v-show" then VShow
    else if name == "v-disabled" then VDisabled
    else AttrDirective(name)
  }

  /** The name of the attribute a directive is written as. */
  function DirectiveAttribute(d: Directive): string {
    match d
    case VText => "v-text"
    case VHtml => "v-html"
    case VShow => "v-show"
    case VDisabled => "v-disabled"
    case AttrDirective(name) => name
    case TextContent => ""
  }

  /** Attribute names map to directives and back. */
  lemma DirectiveOfAttribute(name: string)
    ensures DirectiveAttribute(DirectiveOf(name)) == name
  {
  }

  /** A binding to make: the element path of the element (for a text segment,
      of the text node's parent, or of the root when it is the text node),
      the reactive item and the directive. */
  datatype Request = Request(path: seq<nat>, reactive: ReactiveRef, directive: Directive)

  /** `typeof v == "string" || typeof v == "number"`. */
  predicate IsStringOrNumber(v: Value) {
    v.Str? || v.Num? || v.NaN?
  }

  /** The message thrown when the item's current value does not suit the
      binding, or `None` when it does. */
  function CheckError(r: Request): Option<string> {
    var v := r.reactive.value;
    match r.directive
    case TextContent => if IsStringOrNumber(v) then None else Some("reactive variable must be a string for text binding")
    case VText => if IsStringOrNumber(v) then None else Some("v-text can only be used with strings")
    case VHtml => if v.Str? then None else Some("v-html can only be used with strings")
    case VShow => if v.Bool? then None else Some("v-show can only be used with booleans")
    case VDisabled => if v.Bool? then None else Some("v-disabled can only be used with booleans")
    case AttrDirective(_) => if IsNullish(v) || v.Str? then None else Some("reactive variable must be a string for attribute binding")
  }

  /** The values each binding accepts. */
  lemma CheckErrorAccepts(r: Request)
    ensures r.directive == TextContent || r.directive == VText ==> (CheckError(r).None? <==> IsStringOrNumber(r.reactive.value))
    ensures r.directive == VHtml ==> (CheckError(r).None? <==> r.reactive.value.Str?)
    ensures r.directive == VShow || r.directive == VDisabled ==> (CheckError(r).None? <==> r.reactive.value.Bool?)
    ensures r.directive.AttrDirective? ==> (CheckError(r).None? <==> IsNullish(r.reactive.value) || r.reactive.value.Str?)
  {
  }

  // ---------------------------------------------------------------------------
  // Placeholders in attributes

  /** The whole value is one placeholder: `/^\{\{(\d+)\}\}$/`. */
  predicate WholePlaceholder(s: string) {
    TokenAt(s, 0) && TokenEnd(s, 0) == |s|
  }

  /** The reactive item an attribute value stands for: a whole placeholder
      whose number is a key of the storage. */
  function AttrReactive(storage: Storage, value: string): (r: Option<ReactiveRef>)
    ensures r.Some? ==> WholePlaceholder(value) && r.value in storage.Values
    ensures !WholePlaceholder(value) ==> r.None?
  {
    if WholePlaceholder(value) && Decimal.ValueIn(TokenDigits(value, 0), 10) in storage then
      Some(storage[Decimal.ValueIn(TokenDigits(value, 0), 10)])
    else None
  }

  /** The placeholder the markup assembly writes for expression `i`, used as
      an attribute value, stands for the item stored under `i`. */
  lemma AttrPlaceholderResolves(storage: Storage, i: nat)
    requires i in storage
    ensures AttrReactive(storage, "{{" + Decimal.NatToString(i) + "}}") == Some(storage[i])
  {
    PlaceholderToken(i);
  }

  /** A value with anything around the placeholder binds nothing. */
  lemma PlaceholderMustBeWhole(storage: Storage, s: string)
    requires |s| > 0 && !TokenAt(s, 0)
    ensures AttrReactive(storage, s) == None
  {
  }

  // ---------------------------------------------------------------------------
  // The walk

  /** `refs[name] = element`, recorded in walk order. */
  datatype RefEntry = RefEntry(name: string, path: seq<nat>)

  /** What the walk collects: the text bindings, the element bindings and the
      ref assignments, each in walk order. */
  datatype Collected = Collected(texts: seq<Request>, elements: seq<Request>, refs: seq<RefEntry>)

  const NothingCollected: Collected := Collected([], [], [])

  function Then(a: Collected, b: Collected): Collected {
    Collected(a.texts + b.texts, a.elements + b.elements, a.refs + b.refs)
  }

  /** The reactive segments of a text node, as text bindings. */
  function SegmentRequests(segments: seq<Segment>, path: seq<nat>): (r: seq<Request>)
    ensures forall j :: 0 <= j < |r| ==> r[j].directive == TextContent && r[j].path == path
    ensures forall j :: 0 <= j < |r| ==> exists k :: 0 <= k < |segments| && segments[k].reactive == Some(r[j].reactive)
    ensures (forall k :: 0 <= k < |segments| ==> segments[k].reactive.None?) ==> r == []
  {
    if segments == [] then []
    else
      var rest := SegmentRequests(segments[1..], path);
      assert forall j :: 0 <= j < |rest| ==> exists k :: 0 <= k < |segments| && segments[k].reactive == Some(rest[j].reactive) by {
        forall j | 0 <= j < |rest|
          ensures exists k :: 0 <= k < |segments| && segments[k].reactive == Some(rest[j].reactive)
        {
          var k :| 0 <= k < |segments[1..]| && segments[1..][k].reactive == Some(rest[j].reactive);
          assert segments[k + 1] == segments[1..][k];
        }
      }
      match segments[0].reactive
      case Some(item) => [Request(path, item, TextContent)] + rest
      case None => rest
  }

  /** The visit of one element's attributes, in order: a `ref` is recorded and
      nothing else is done with it; a whole stored placeholder is queued for
      binding. */
  function AttrsCollected(storage: Storage, attrs: seq<Attr>, path: seq<nat>): (c: Collected)
    ensures c.texts == []
    ensures forall j :: 0 <= j < |c.refs| ==> c.refs[j].path == path
    ensures forall j :: 0 <= j < |c.elements| ==> c.elements[j].path == path && c.elements[j].directive != TextContent
  {
    if attrs == [] then NothingCollected
    else
      var a := attrs[0];
      var here :=
        if a.name == "ref" then Collected([], [], [RefEntry(a.value, path)])
        else match AttrReactive(storage, a.value)
             case Some(item) => Collected([], [Request(path, item, DirectiveOf(a.name))], [])
             case None => NothingCollected;
      Then(here, AttrsCollected(storage, attrs[1..], path))
  }

  /** The text of a text node. */
  function TextOf(n: Node): string {
    PropString(n, "textContent")
  }

  /** Everything in `c` was found at or below the element path `path`; the
      text bindings are text bindings and the element bindings are not. */
  predicate Under(c: Collected, path: seq<nat>) {
    && (forall j :: 0 <= j < |c.texts| ==> c.texts[j].directive == TextContent && path <= c.texts[j].path)
    && (forall j :: 0 <= j < |c.elements| ==> c.elements[j].directive != TextContent && path <= c.elements[j].path)
    && (forall j :: 0 <= j < |c.refs| ==> path <= c.refs[j].path)
  }

  lemma UnderThen(a: Collected, b: Collected, path: seq<nat>)
    requires Under(a, path) && Under(b, path)
    ensures Under(Then(a, b), path)
  {
    var c := Then(a, b);
    assert forall j :: 0 <= j < |c.texts| ==> c.texts[j] == if j < |a.texts| then a.texts[j] else b.texts[j - |a.texts|];
    assert forall j :: 0 <= j < |c.elements| ==> c.elements[j] == if j < |a.elements| then a.elements[j] else b.elements[j - |a.elements|];
    assert forall j :: 0 <= j < |c.refs| ==> c.refs[j] == if j < |a.refs| then a.refs[j] else b.refs[j - |a.refs|];
  }

  /** Every element binding and ref in `c` is strictly below `path`. */
  predicate Below(c: Collected, path: seq<nat>) {
    && (forall j :: 0 <= j < |c.elements| ==> |c.elements[j].path| > |path|)
    && (forall j :: 0 <= j < |c.refs| ==> |c.refs[j].path| > |path|)
  }

  lemma BelowThen(a: Collected, b: Collected, path: seq<nat>)
    requires Below(a, path) && Below(b, path)
    ensures Below(Then(a, b), path)
  {
    var c := Then(a, b);
    assert forall j :: 0 <= j < |c.elements| ==> c.elements[j] == if j < |a.elements| then a.elements[j] else b.elements[j - |a.elements|];
    assert forall j :: 0 <= j < |c.refs| ==> c.refs[j] == if j < |a.refs| then a.refs[j] else b.refs[j - |a.refs|];
  }

  /** What was found at or below a child's path was found at or below its
      parent's, and its element bindings and refs strictly below the parent. */
  lemma UnderChild(c: Collected, path: seq<nat>, k: nat)
    requires Under(c, path + [k])
    ensures Under(c, path) && Below(c, path)
  {
    forall j | 0 <= j < |c.elements| ensures |c.elements[j].path| > |path| {
      assert |path + [k]| <= |c.elements[j].path|;
    }
    forall j | 0 <= j < |c.refs| ensures |c.refs[j].path| > |path| {
      assert |path + [k]| <= |c.refs[j].path|;
    }
  }

  /** The walk over `n` and its descendants; `visit` says whether `n` itself is
      visited (the tree walker does not visit its root). */
  function Collect(host: Host, storage: Storage, n: Node, path: seq<nat>, visit: bool): (r: Collected)
    ensures Under(r, path)
    ensures !IsElement(n) ==> r.elements == [] && r.refs == []
    ensures !visit ==> Below(r, path)
    decreases n, 1
  {
    if IsElement(n) then
      var own := if visit then AttrsCollected(storage, n.attrs, path) else NothingCollected;
      var below := CollectChildren(host, storage, n, 0, 0, path);
      UnderThen(own, below, path);
      if visit then Then(own, below)
      else BelowThen(own, below, path); Then(own, below)
    else if visit then Collected(SegmentRequests(Lex(host, storage, TextOf(n), 0), path), [], [])
    else NothingCollected
  }

  /** The walk over the children of `parent` from position `i`; `k` counts the
      element children before `i`. */
  function CollectChildren(host: Host, storage: Storage, parent: Node, i: nat, k: nat, path: seq<nat>): (r: Collected)
    ensures Under(r, path) && Below(r, path)
    decreases parent, 0, |parent.children| - i
  {
    if i >= |parent.children| then NothingCollected
    else
      var c := parent.children[i];
      if IsElement(c) then
        var here := Collect(host, storage, c, path + [k], true);
        var rest := CollectChildren(host, storage, parent, i + 1, k + 1, path);
        UnderChild(here, path, k);
        UnderThen(here, rest, path);
        BelowThen(here, rest, path);
        Then(here, rest)
      else
        var here := Collect(host, storage, c, path, true);
        var rest := CollectChildren(host, storage, parent, i + 1, k, path);
        UnderThen(here, rest, path);
        BelowThen(here, rest, path);
        Then(here, rest)
  }

  /** The walk from the fragment's root: text bindings, then attribute and
      directive bindings; as written, none of them on the root element itself. */
  function Walk(host: Host, storage: Storage, root: Node, v: Variant): (r: Collected)
    ensures Under(r, [])
    ensures !v.visitRoot ==> Below(r, [])
  {
    Collect(host, storage, root, [], v.visitRoot)
  }

  /** The refs object: for each name, the element recorded last under it. */
  function RefsOf(entries: seq<RefEntry>): (refs: map<string, seq<nat>>)
    ensures forall name :: name in refs <==> exists j :: 0 <= j < |entries| && entries[j].name == name
  {
    if entries == [] then map[]
    else
      var init := entries[..|entries| - 1];
      assert forall j :: 0 <= j < |init| ==> init[j] == entries[j];
      RefsOf(init)[entries[|entries| - 1].name := entries[|entries| - 1].path]
  }

  /** Later assignments win: a name's element is the one recorded last. */
  lemma {:induction false} RefsOfLastWins(entries: seq<RefEntry>, j: nat)
    requires j < |entries| && forall l :: j < l < |entries| ==> entries[l].name != entries[j].name
    ensures entries[j].name in RefsOf(entries) && RefsOf(entries)[entries[j].name] == entries[j].path
    decreases |entries|
  {
    var init := entries[..|entries| - 1];
    if j < |entries| - 1 {
      assert forall l :: j < l < |init| ==> init[l] == entries[l];
      RefsOfLastWins(init, j);
      assert init[j] == entries[j];
    }
  }

  // ---------------------------------------------------------------------------
  // The tree after the bindings

  /** The nodes a text node is replaced by: a bound text node per reactive
      segment and, when `keepStatic`, a plain text node per static segment. */
  function NewTextNodes(host: Host, globals: Options, options: Options, segments: seq<Segment>, keepStatic: bool)
    : (r: seq<Node>)
    ensures forall j :: 0 <= j < |r| ==> r[j].kind == TextNode
    ensures keepStatic ==> |r| == |segments|
    ensures !keepStatic && (forall k :: 0 <= k < |segments| ==> segments[k].reactive.None?) ==> r == []
  {
    if segments == [] then []
    else
      var s := segments[0];
      var here :=
        match s.reactive
        case Some(item) => [TextBinder.BindToText(host, globals, item.value, TextNodeOf(s.content), options).0]
        case None => if keepStatic then [TextNodeOf(s.content)] else [];
      here + NewTextNodes(host, globals, options, segments[1..], keepStatic)
  }

  /** The attribute names that select a binder other than the attribute one. */
  const DirectiveNames: set<string> := {"v-text", "v-html", "v-show", "v-disabled"}

  /** The element phase for one attribute: the binder's first write, and for
      the four directives the removal of the attribute. */
  function ApplyDirective(host: Host, globals: Options, options: Options, e: Node, d: Directive, value: Value): (r: Node)
    ensures r.kind == e.kind && r.children == e.children
    ensures d.VText? ==> GetProp(r, "textContent") == Str(ToString(host, value))
    ensures d.VHtml? ==> GetProp(r, "innerHTML") == Str(if value.Null? then "" else ToString(host, value))
    ensures d.VShow? ==> (ShowBinder.HideClass(host, globals, options) in r.classes
                          <==> (Truthy(value) <==> CssClassBinder.MarksTruthy(host, ShowBinder.Merged(globals, options))))
    ensures d.VDisabled? ==> GetProp(r, "disabled") == Bool(Truthy(value))
    ensures d.AttrDirective? ==> AttributeBinder.Reflects(d.name, value, r)
    ensures d.VText? || d.VHtml? || d.VShow? || d.VDisabled? ==> GetAttribute(r, DirectiveAttribute(d)).None?
    ensures forall name :: name != DirectiveAttribute(d) ==> GetAttribute(r, name) == GetAttribute(e, name)
    ensures d.TextContent? ==> r == e
  {
    match d
    case VText => RemoveAttribute(TextBinder.BindToText(host, globals, value, e, options).0, "v-text")
    case VHtml => RemoveAttribute(HtmlBinder.BindToHtml(host, globals, value, e, options).0, "v-html")
    case VShow => RemoveAttribute(ShowBinder.BindToShow(host, globals, value, e, options).0, "v-show")
    case VDisabled => RemoveAttribute(DisabledBinder.BindToDisabled(host, globals, value, e, options).0, "v-disabled")
    case AttrDirective(name) => AttributeBinder.BindToAttr(globals, value, e, name, options).0
    case TextContent => e
  }

  /** Attribute `a` is a whole stored placeholder that the element phase binds. */
  predicate Binds(storage: Storage, a: Attr) {
    a.name != "ref" && AttrReactive(storage, a.value).Some?
  }

  /** No attribute named `name` is bound. */
  predicate Unbound(storage: Storage, attrs: seq<Attr>, name: string) {
    forall j :: 0 <= j < |attrs| && attrs[j].name == name ==> !Binds(storage, attrs[j])
  }

  /** Attributes of names no attribute in `attrs` binds are as in `e`. */
  ghost predicate KeepsUnbound(storage: Storage, attrs: seq<Attr>, e: Node, r: Node) {
    forall name :: Unbound(storage, attrs, name) ==> GetAttribute(r, name) == GetAttribute(e, name)
  }

  /** Every bound directive attribute is gone. */
  predicate RemovesDirectives(storage: Storage, attrs: seq<Attr>, r: Node) {
    forall j :: 0 <= j < |attrs| && Binds(storage, attrs[j]) && attrs[j].name in DirectiveNames ==>
      GetAttribute(r, attrs[j].name).None?
  }

  /** The last bound attribute of any other name reflects its item's value, as
      an attribute binding under that name does. */
  predicate ReflectsLast(storage: Storage, attrs: seq<Attr>, r: Node) {
    forall j :: 0 <= j < |attrs| && Binds(storage, attrs[j]) && attrs[j].name !in DirectiveNames
                && Unbound(storage, attrs[j + 1..], attrs[j].name) ==>
      AttributeBinder.Reflects(attrs[j].name, AttrReactive(storage, attrs[j].value).value.value, r)
  }

  /** The element phase for the attributes of one element, in order. */
  function ApplyAttrs(host: Host, globals: Options, options: Options, storage: Storage, e: Node, attrs: seq<Attr>): (r: Node)
    ensures r.kind == e.kind && r.children == e.children
    ensures KeepsUnbound(storage, attrs, e, r)
    ensures RemovesDirectives(storage, attrs, r)
    ensures ReflectsLast(storage, attrs, r)
    decreases |attrs|
  {
    if attrs == [] then e
    else
      var a := attrs[0];
      var next :=
        if a.name == "ref" then e
        else match AttrReactive(storage, a.value)
             case Some(item) => ApplyDirective(host, globals, options, e, DirectiveOf(a.name), item.value)
             case None => e;
      var r := ApplyAttrs(host, globals, options, storage, next, attrs[1..]);
      ApplyAttrsStep(host, globals, options, storage, e, attrs, next, r);
      r
  }

  /** One turn of the element phase: what the rest does after the first
      attribute is what the whole phase does. */
  lemma ApplyAttrsStep(host: Host, globals: Options, options: Options, storage: Storage, e: Node, attrs: seq<Attr>, next: Node, r: Node)
    requires attrs != []
    requires next == if Binds(storage, attrs[0])
                     then ApplyDirective(host, globals, options, e, DirectiveOf(attrs[0].name), AttrReactive(storage, attrs[0].value).value.value)
                     else e
    requires KeepsUnbound(storage, attrs[1..], next, r) && RemovesDirectives(storage, attrs[1..], r)
    requires ReflectsLast(storage, attrs[1..], r)
    ensures KeepsUnbound(storage, attrs, e, r) && RemovesDirectives(storage, attrs, r) && ReflectsLast(storage, attrs, r)
  {
    var a := attrs[0];
    var rest := attrs[1..];
    forall name | Unbound(storage, attrs, name) ensures GetAttribute(r, name) == GetAttribute(e, name) {
      UnboundRest(storage, attrs, name);
      if Binds(storage, a) {
        DirectiveOfAttribute(a.name);
      }
    }
    forall j | 0 <= j < |attrs| && Binds(storage, attrs[j]) && attrs[j].name in DirectiveNames
      ensures GetAttribute(r, attrs[j].name).None?
    {
      if j == 0 {
        FirstRemoved(storage, attrs, next, r);
      } else {
        assert attrs[j] == rest[j - 1];
      }
    }
    forall j | 0 <= j < |attrs| && Binds(storage, attrs[j]) && attrs[j].name !in DirectiveNames
                && Unbound(storage, attrs[j + 1..], attrs[j].name)
      ensures AttributeBinder.Reflects(attrs[j].name, AttrReactive(storage, attrs[j].value).value.value, r)
    {
      if j == 0 {
        assert attrs[1..] == rest;
      } else {
        assert attrs[j] == rest[j - 1] && attrs[j + 1..] == rest[j - 1 + 1..];
      }
    }
  }

  /** A name unbound in `attrs` is unbound in its tail, and the first attribute
      does not bind it. */
  lemma UnboundRest(storage: Storage, attrs: seq<Attr>, name: string)
    requires attrs != [] && Unbound(storage, attrs, name)
    ensures Unbound(storage, attrs[1..], name)
    ensures attrs[0].name == name ==> !Binds(storage, attrs[0])
  {
    forall j | 0 <= j < |attrs[1..]| && attrs[1..][j].name == name ensures !Binds(storage, attrs[1..][j]) {
      assert attrs[1..][j] == attrs[j + 1];
    }
  }

  /** A bound directive attribute first in the list stays removed: either no
      later attribute binds its name, or a later one removes it again. */
  lemma FirstRemoved(storage: Storage, attrs: seq<Attr>, next: Node, r: Node)
    requires attrs != [] && Binds(storage, attrs[0]) && attrs[0].name in DirectiveNames
    requires GetAttribute(next, attrs[0].name).None?
    requires KeepsUnbound(storage, attrs[1..], next, r) && RemovesDirectives(storage, attrs[1..], r)
    ensures GetAttribute(r, attrs[0].name).None?
  {
    var rest := attrs[1..];
    if !Unbound(storage, rest, attrs[0].name) {
      var k :| 0 <= k < |rest| && rest[k].name == attrs[0].name && Binds(storage, rest[k]);
    }
  }

  /** `n` after both phases; `visit` as in `Collect`. Only elements change; a
      visited element has its bound attributes applied, and an element the walk
      does not visit keeps its attributes as they are. */
  function Rebuild(host: Host, globals: Options, options: Options, storage: Storage, v: Variant, n: Node, visit: bool): (r: Node)
    ensures r.kind == n.kind
    ensures !IsElement(n) ==> r == n
    ensures IsElement(n) && !visit ==> r.attrs == n.attrs
    ensures IsElement(n) && visit ==>
              KeepsUnbound(storage, n.attrs, n, r) && RemovesDirectives(storage, n.attrs, r) && ReflectsLast(storage, n.attrs, r)
    decreases n, 1
  {
    if !IsElement(n) then n
    else
      var e := n.(children := RebuildChildren(host, globals, options, storage, v, n, 0));
      if visit then ApplyAttrs(host, globals, options, storage, e, n.attrs) else e
  }

  /** The children of `parent` from position `i` after both phases. */
  function RebuildChildren(host: Host, globals: Options, options: Options, storage: Storage, v: Variant, parent: Node, i: nat)
    : seq<Node>
    decreases parent, 0, |parent.children| - i
  {
    if i >= |parent.children| then []
    else
      var c := parent.children[i];
      (if IsElement(c) then [Rebuild(host, globals, options, storage, v, c, true)]
       else NewTextNodes(host, globals, options, Lex(host, storage, TextOf(c), 0), v.keepStaticText))
      + RebuildChildren(host, globals, options, storage, v, parent, i + 1)
  }

  // ---------------------------------------------------------------------------
  // The fragment

  /** A binding the template made, with the unsubscriber it keeps. */
  datatype TemplateBinding = TemplateBinding(request: Request, subscription: Subscription)

  /** The fragment: the root, the bindings its unsubscriber ends, and the refs. */
  datatype Fragment = Fragment(root: Node, bindings: seq<TemplateBinding>, refs: map<string, seq<nat>>)

  /** The outcome of `html`: a fragment, or an exception together with the
      bindings made before it, which stay subscribed. */
  datatype Outcome = Built(fragment: Fragment) | Failed(error: JsError, leaked: seq<TemplateBinding>)

  /** The bindings made for the requests, each holding an active subscription. */
  function BindingsOf(globals: Options, options: Options, requests: seq<Request>): (r: seq<TemplateBinding>)
    ensures |r| == |requests|
    ensures forall j :: 0 <= j < |r| ==> r[j].request == requests[j] && r[j].subscription.active
  {
    seq(|requests|, j requires 0 <= j < |requests| =>
      TemplateBinding(requests[j], Subscription(true, DebounceTime(Assign(globals, options)))))
  }

  /** The position of the first request whose value does not suit it. */
  function FirstFailure(requests: seq<Request>, i: nat): (r: Option<nat>)
    requires i <= |requests|
    ensures r.Some? ==> i <= r.value < |requests| && CheckError(requests[r.value]).Some?
                        && forall j :: i <= j < r.value ==> CheckError(requests[j]).None?
    ensures r.None? ==> forall j :: i <= j < |requests| ==> CheckError(requests[j]).None?
    decreases |requests| - i
  {
    if i == |requests| then None
    else if CheckError(requests[i]).Some? then Some(i)
    else FirstFailure(requests, i + 1)
  }

  /** The bindings in the order they are made: all text bindings, then all
      element bindings. */
  function RequestsOf(c: Collected): seq<Request> {
    c.texts + c.elements
  }

  /** `html` on a parsed root: walk, check and bind, rebuild. */
  function BuildFrom(host: Host, globals: Options, options: Options, storage: Storage, root: Node, v: Variant): (r: Outcome)
    ensures var requests := RequestsOf(Walk(host, storage, root, v));
            (r.Built? <==> forall j :: 0 <= j < |requests| ==> CheckError(requests[j]).None?)
            && (r.Failed? ==> exists i :: 0 <= i < |requests| && CheckError(requests[i]).Some?
                                          && r.error == ThrownError(CheckError(requests[i]).value)
                                          && (forall j :: 0 <= j < i ==> CheckError(requests[j]).None?)
                                          && r.leaked == BindingsOf(globals, options, requests[..i]))
    ensures r.Built? ==> r.fragment.bindings == BindingsOf(globals, options, RequestsOf(Walk(host, storage, root, v)))
                         && r.fragment.refs == RefsOf(Walk(host, storage, root, v).refs)
    ensures r.Built? ==> r.fragment.root == Rebuild(host, globals, options, storage, v, root, v.visitRoot)
  {
    Finish(host, globals, options, storage, root, v, Walk(host, storage, root, v))
  }

  /** What `html` does once the walk has collected `c`: check every request in
      order, binding as it goes, and rebuild the tree when all pass. */
  function Finish(host: Host, globals: Options, options: Options, storage: Storage, root: Node, v: Variant, c: Collected)
    : (r: Outcome)
    ensures var requests := RequestsOf(c);
            (r.Built? <==> forall j :: 0 <= j < |requests| ==> CheckError(requests[j]).None?)
            && (r.Failed? ==> exists i :: 0 <= i < |requests| && CheckError(requests[i]).Some?
                                          && r.error == ThrownError(CheckError(requests[i]).value)
                                          && (forall j :: 0 <= j < i ==> CheckError(requests[j]).None?)
                                          && r.leaked == BindingsOf(globals, options, requests[..i]))
    ensures r.Built? ==> r.fragment.bindings == BindingsOf(globals, options, RequestsOf(c))
                         && r.fragment.refs == RefsOf(c.refs)
    ensures r.Built? ==> r.fragment.root == Rebuild(host, globals, options, storage, v, root, v.visitRoot)
  {
    var requests := RequestsOf(c);
    match FirstFailure(requests, 0)
    case Some(i) => Failed(ThrownError(CheckError(requests[i]).value), BindingsOf(globals, options, requests[..i]))
    case None =>
      Built(Fragment(Rebuild(host, globals, options, storage, v, root, v.visitRoot),
                     BindingsOf(globals, options, requests), RefsOf(c.refs)))
  }

  /** `html` with `this` bound by `tagged`, the markup parsed by `parser`
      (the template element's `innerHTML` and `content.childNodes`). */
  function HtmlWith(host: Host, globals: Options, parser: string -> seq<Node>, tagged: TaggedTemplate,
                    literals: seq<string>, exprs: seq<Expr>, v: Variant): (r: Outcome)
    requires |literals| > 0
    ensures var nodes := parser(Assemble(host, literals, exprs).code);
            && (|nodes| > 1 ==> r == Failed(ThrownError("Template literal contains multiple nodes"), []))
            && (|nodes| == 0 ==> r == Failed(ThrownError("Template literal contains no nodes"), []))
            && (|nodes| == 1 ==> r == BuildFrom(host, globals, OptionsOfThis(tagged.boundThis),
                                                Assemble(host, literals, exprs).storage, Clone(nodes[0]), v))
  {
    var options := OptionsOfThis(tagged.boundThis);
    var markup := Assemble(host, literals, exprs);
    var nodes := parser(markup.code);
    if |nodes| > 1 then Failed(ThrownError("Template literal contains multiple nodes"), [])
    else if |nodes| == 0 then Failed(ThrownError("Template literal contains no nodes"), [])
    else BuildFrom(host, globals, options, markup.storage, Clone(nodes[0]), v)
  }

  /** `html` as written: the markup must parse to one node; the root element
      keeps every attribute it was written with, and no attribute or directive
      binding is made for it. */
  function Html(host: Host, globals: Options, parser: string -> seq<Node>, tagged: TaggedTemplate,
                literals: seq<string>, exprs: seq<Expr>): (r: Outcome)
    requires |literals| > 0
    ensures var m := Assemble(host, literals, exprs);
            var nodes := parser(m.code);
            && (|nodes| != 1 ==> r.Failed? && r.leaked == [])
            && (|nodes| == 1 ==> r == BuildFrom(host, globals, OptionsOfThis(tagged.boundThis), m.storage, Clone(nodes[0]), AsWritten))
            && (|nodes| == 1 && IsElement(nodes[0]) && r.Built? ==> r.fragment.root.attrs == nodes[0].attrs)
    ensures r.Built? ==> forall j :: 0 <= j < |r.fragment.bindings| && r.fragment.bindings[j].request.directive != TextContent ==>
                           r.fragment.bindings[j].request.path != []
  {
    var m := Assemble(host, literals, exprs);
    var nodes := parser(m.code);
    if |nodes| == 1 then
      RootNotBound(Walk(host, m.storage, Clone(nodes[0]), AsWritten));
      HtmlWith(host, globals, parser, tagged, literals, exprs, AsWritten)
    else HtmlWith(host, globals, parser, tagged, literals, exprs, AsWritten)
  }

  /** Collected as the as-written walk collects: every binding that is not a
      text binding lies strictly below the root. */
  lemma RootNotBound(c: Collected)
    requires Under(c, []) && Below(c, [])
    ensures forall j :: 0 <= j < |RequestsOf(c)| && RequestsOf(c)[j].directive != TextContent ==> RequestsOf(c)[j].path != []
  {
    forall j | 0 <= j < |RequestsOf(c)| && RequestsOf(c)[j].directive != TextContent
      ensures RequestsOf(c)[j].path != []
    {
      assert j >= |c.texts| ==> RequestsOf(c)[j] == c.elements[j - |c.texts|];
    }
  }

  /** `html` with both corrections: the root element's bound directive
      attributes are removed and its bound attributes reflect their items. */
  function HtmlCorrected(host: Host, globals: Options, parser: string -> seq<Node>, tagged: TaggedTemplate,
                         literals: seq<string>, exprs: seq<Expr>): (r: Outcome)
    requires |literals| > 0
    ensures var m := Assemble(host, literals, exprs);
            var nodes := parser(m.code);
            && (|nodes| != 1 ==> r.Failed? && r.leaked == [])
            && (|nodes| == 1 ==> r == BuildFrom(host, globals, OptionsOfThis(tagged.boundThis), m.storage, Clone(nodes[0]), Corrected))
            && (|nodes| == 1 && IsElement(nodes[0]) && r.Built? ==>
                  RemovesDirectives(m.storage, nodes[0].attrs, r.fragment.root)
                  && ReflectsLast(m.storage, nodes[0].attrs, r.fragment.root))
  {
    HtmlWith(host, globals, parser, tagged, literals, exprs, Corrected)
  }

  /** The fragment's unsubscriber: every binding's unsubscriber, in order. */
  function Unsubscribe(f: Fragment): (r: Fragment)
    ensures r.root == f.root && r.refs == f.refs && |r.bindings| == |f.bindings|
    ensures forall j :: 0 <= j < |r.bindings| ==>
              r.bindings[j].request == f.bindings[j].request && !r.bindings[j].subscription.active
  {
    f.(bindings := seq(|f.bindings|, j requires 0 <= j < |f.bindings| =>
                         f.bindings[j].(subscription := Cancel(f.bindings[j].subscription))))
  }

  // ---------------------------------------------------------------------------
  // Properties

  /** The text shown by a sequence of text nodes. */
  function TextsOf(nodes: seq<Node>): string {
    if nodes == [] then "" else TextOf(nodes[0]) + TextsOf(nodes[1..])
  }

  lemma {:induction false} TextsOfAppend(a: seq<Node>, b: seq<Node>)
    ensures TextsOf(a + b) == TextsOf(a) + TextsOf(b)
    decreases |a|
  {
    if a == [] {
      assert a + b == b;
    } else {
      assert (a + b)[1..] == a[1..] + b;
      TextsOfAppend(a[1..], b);
    }
  }

  /** With the static segments kept, the replacement nodes show exactly the
      segments' contents, so a text node shows its text with each stored
      placeholder replaced by its item's value. */
  lemma {:induction false} KeptSegmentsShowContents(host: Host, globals: Options, options: Options, segments: seq<Segment>)
    requires forall k :: 0 <= k < |segments| && segments[k].reactive.Some? ==>
               segments[k].content == ToString(host, segments[k].reactive.value.value)
    ensures TextsOf(NewTextNodes(host, globals, options, segments, true)) == Contents(segments)
    decreases |segments|
  {
    if segments != [] {
      var s := segments[0];
      var rest := NewTextNodes(host, globals, options, segments[1..], true);
      KeptSegmentsShowContents(host, globals, options, segments[1..]);
      var here := match s.reactive
        case Some(item) => [TextBinder.BindToText(host, globals, item.value, TextNodeOf(s.content), options).0]
        case None => [TextNodeOf(s.content)];
      assert TextOf(here[0]) == s.content;
      assert NewTextNodes(host, globals, options, segments, true) == here + rest;
      TextsOfAppend(here, rest);
      assert TextsOf(here) == s.content + TextsOf([]);
    }
  }

  /** Corrected: the nodes replacing a text node show its text with each stored
      placeholder substituted. */
  lemma CorrectedTextIsSubstituted(host: Host, globals: Options, options: Options, storage: Storage, text: string)
    ensures TextsOf(NewTextNodes(host, globals, options, Lex(host, storage, text, 0), Corrected.keepStaticText))
            == Expand(host, storage, text, 0)
  {
    KeptSegmentsShowContents(host, globals, options, Lex(host, storage, text, 0));
    LexExpands(host, storage, text, 0);
  }

  /** Corrected: a text without placeholders is kept as it is. */
  lemma CorrectedKeepsPlainText(host: Host, globals: Options, options: Options, storage: Storage, text: string)
    requires forall q :: 0 <= q <= |text| ==> !TokenAt(text, q)
    ensures TextsOf(NewTextNodes(host, globals, options, Lex(host, storage, text, 0), Corrected.keepStaticText)) == text
  {
    CorrectedTextIsSubstituted(host, globals, options, storage, text);
    ExpandCopies(host, storage, text, 0, |text|);
  }

  /** Finding, as written: a text node without a stored placeholder — any
      plain text in the markup — is removed and nothing takes its place. */
  lemma AsWrittenDropsPlainText(host: Host, globals: Options, options: Options, storage: Storage, text: string)
    requires forall q :: 0 <= q <= |text| ==> !TokenAt(text, q)
    ensures NewTextNodes(host, globals, options, Lex(host, storage, text, 0), AsWritten.keepStaticText) == []
  {
    assert FindToken(text, 0) == None;
  }

  /** Finding, as written: `<p>hi</p>` loses its text, while the corrected
      code keeps it. */
  lemma ParagraphLosesText(host: Host, globals: Options, options: Options, storage: Storage)
    ensures var p := Node(ElementNode("p"), [], {}, map[], [TextNodeOf("hi")], false, {});
            Rebuild(host, globals, options, storage, AsWritten, p, false).children == []
            && TextsOf(Rebuild(host, globals, options, storage, Corrected, p, true).children) == "hi"
  {
    var p := Node(ElementNode("p"), [], {}, map[], [TextNodeOf("hi")], false, {});
    assert TextOf(TextNodeOf("hi")) == "hi";
    forall q | 0 <= q <= |"hi"| ensures !TokenAt("hi", q) {
    }
    AsWrittenDropsPlainText(host, globals, options, storage, "hi");
    CorrectedKeepsPlainText(host, globals, options, storage, "hi");
    assert RebuildChildren(host, globals, options, storage, AsWritten, p, 1) == [];
    assert RebuildChildren(host, globals, options, storage, Corrected, p, 1) == [];
    var kept := NewTextNodes(host, globals, options, Lex(host, storage, "hi", 0), true);
    assert RebuildChildren(host, globals, options, storage, Corrected, p, 0) == kept + [];
    assert kept + [] == kept;
  }

  /** Finding, as written: a `ref` on the root element is not recorded, while
      the corrected walk records it with the root's (empty) path. */
  lemma RootRefIgnored(host: Host, storage: Storage, name: string)
    ensures var root := Node(ElementNode("div"), [Attr("ref", name)], {}, map[], [], false, {});
            Walk(host, storage, root, AsWritten).refs == []
            && RefsOf(Walk(host, storage, root, AsWritten).refs) == map[]
            && Walk(host, storage, root, Corrected).refs == [RefEntry(name, [])]
            && RefsOf(Walk(host, storage, root, Corrected).refs) == map[name := []]
  {
    var root := Node(ElementNode("div"), [Attr("ref", name)], {}, map[], [], false, {});
    WalkOfLeaf(host, storage, root, AsWritten);
    WalkOfLeaf(host, storage, root, Corrected);
    AttrsCollectedOne(storage, Attr("ref", name), []);
  }

  /** The walk of an element without children is the visit of its own
      attributes, when the root is visited. */
  lemma WalkOfLeaf(host: Host, storage: Storage, root: Node, v: Variant)
    requires IsElement(root) && root.children == []
    ensures Walk(host, storage, root, v) == if v.visitRoot then AttrsCollected(storage, root.attrs, []) else NothingCollected
  {
    assert CollectChildren(host, storage, root, 0, 0, []) == NothingCollected;
  }

  /** The visit of a single attribute. */
  lemma AttrsCollectedOne(storage: Storage, a: Attr, path: seq<nat>)
    ensures AttrsCollected(storage, [a], path)
            == if a.name == "ref" then Collected([], [], [RefEntry(a.value, path)])
               else match AttrReactive(storage, a.value)
                    case Some(item) => Collected([], [Request(path, item, DirectiveOf(a.name))], [])
                    case None => NothingCollected
  {
    assert [a][1..] == [];
  }

  /** Finding, as written: a directive on the root element binds nothing; the
      corrected walk queues it like any other. */
  lemma RootDirectiveIgnored(host: Host, storage: Storage, i: nat, name: string)
    requires i in storage
    ensures var root := Node(ElementNode("div"), [Attr(name, "{{" + Decimal.NatToString(i) + "}}")], {}, map[], [], false, {});
            Walk(host, storage, root, AsWritten).elements == []
            && (name != "ref" ==> Walk(host, storage, root, Corrected).elements == [Request([], storage[i], DirectiveOf(name))])
  {
    var root := Node(ElementNode("div"), [Attr(name, "{{" + Decimal.NatToString(i) + "}}")], {}, map[], [], false, {});
    AttrPlaceholderResolves(storage, i);
    WalkOfLeaf(host, storage, root, AsWritten);
    WalkOfLeaf(host, storage, root, Corrected);
    AttrsCollectedOne(storage, root.attrs[0], []);
  }

  /** The walk visits the root's children in both readings: what differs is
      only the root's own attributes (or, for a text root, its own text). */
  lemma {:induction false} WalksDifferOnlyAtRoot(host: Host, storage: Storage, root: Node)
    ensures IsElement(root) ==>
              Walk(host, storage, root, Corrected)
                == Then(AttrsCollected(storage, root.attrs, []), Walk(host, storage, root, AsWritten))
    ensures !IsElement(root) ==> Walk(host, storage, root, AsWritten) == NothingCollected
  {
    if IsElement(root) {
      var children := CollectChildren(host, storage, root, 0, 0, []);
      assert Walk(host, storage, root, AsWritten) == Then(NothingCollected, children);
      assert Then(NothingCollected, children) == children;
    }
  }

  /** Every binding the fragment holds is subscribed until the fragment's
      unsubscriber runs, and none is afterwards. */
  lemma UnsubscribeEndsAll(host: Host, globals: Options, options: Options, storage: Storage, root: Node, v: Variant)
    requires BuildFrom(host, globals, options, storage, root, v).Built?
    ensures var f := BuildFrom(host, globals, options, storage, root, v).fragment;
            (forall j :: 0 <= j < |f.bindings| ==> f.bindings[j].subscription.active)
            && (forall j :: 0 <= j < |f.bindings| ==> !Unsubscribe(f).bindings[j].subscription.active)
            && |f.bindings| == |RequestsOf(Walk(host, storage, root, v))|
  {
  }

  /** A template whose markup holds the placeholder of a stored item as a whole
      attribute value of a non-root element queues exactly that item. */
  lemma ChildAttributeIsQueued(host: Host, storage: Storage, i: nat, name: string, tag: string, v: Variant)
    requires i in storage && name != "ref"
    ensures var child := Node(ElementNode(tag), [Attr(name, "{{" + Decimal.NatToString(i) + "}}")], {}, map[], [], false, {});
            var root := Node(ElementNode("div"), [], {}, map[], [child], false, {});
            Walk(host, storage, root, v).elements == [Request([0], storage[i], DirectiveOf(name))]
  {
    var child := Node(ElementNode(tag), [Attr(name, "{{" + Decimal.NatToString(i) + "}}")], {}, map[], [], false, {});
    var root := Node(ElementNode("div"), [], {}, map[], [child], false, {});
    AttrPlaceholderResolves(storage, i);
    assert AttrsCollected(storage, child.attrs[1..], [0]) == NothingCollected;
    assert CollectChildren(host, storage, child, 0, 0, [0]) == NothingCollected;
    assert CollectChildren(host, storage, root, 1, 1, []) == NothingCollected;
    var here := Collect(host, storage, child, [0], true);
    assert AttrsCollected(storage, child.attrs, [0]).elements == [Request([0], storage[i], DirectiveOf(name))];
    assert here.elements == [Request([0], storage[i], DirectiveOf(name))];
    assert root.children[0] == child && IsElement(child) && [] + [0] == [0];
    assert CollectChildren(host, storage, root, 0, 0, []) == Then(here, CollectChildren(host, storage, root, 1, 1, []));
    assert here.elements + [] == here.elements;
  }
}

=== FILE: template_markup.dfy ===
/** The first half of the `html` tagged template: the markup is assembled from
    the literal strings and the interpolated expressions. A reactive expression
    at position `i` is written as the placeholder `{{i}}` and stored under `i`;
    null and undefined are written as nothing; any other value as its string
    form. The first literal is trimmed at the start, the last at the end, and
    the whole markup at both ends. Also here: the `this` the template runs
    with, which `createCustomTaggedTemplate` fixes. */
module TemplateMarkup {
  import opened Wrappers
  import opened JsValue
  import JsText
  import Decimal
  import opened BindOptions
  import opened TemplateText

  /** An interpolated expression: an atom, computed value or collection of the
      store, or any other value. */
  datatype Expr = ReactiveExpr(r: ReactiveRef) | PlainExpr(v: Value)

  /** `expressions[i]`, undefined past the end. */
  function ExprAt(exprs: seq<Expr>, i: nat): Expr {
    if i < |exprs| then exprs[i] else PlainExpr(Undefined)
  }

  /** The literals after `strings[0] = literals[0].trimStart()` and then
      `strings[last] = literals[last].trimEnd()`; with a single literal the
      second assignment overwrites the first. */
  function TrimmedLiterals(literals: seq<string>): (r: seq<string>)
    requires |literals| > 0
    ensures |r| == |literals|
    ensures |literals| == 1 ==> r[0] == JsText.TrimEnd(literals[0])
    ensures |literals| > 1 ==> r[0] == JsText.TrimStart(literals[0]) && r[|r| - 1] == JsText.TrimEnd(literals[|r| - 1])
    ensures forall i :: 0 < i < |literals| - 1 ==> r[i] == literals[i]
  {
    var first := literals[0 := JsText.TrimStart(literals[0])];
    first[|first| - 1 := JsText.TrimEnd(literals[|literals| - 1])]
  }

  /** What the expression at position `i` contributes to the markup. */
  function Piece(host: Host, e: Expr, i: nat): (p: string)
    ensures e.ReactiveExpr? ==> p == "{{" + Decimal.NatToString(i) + "}}"
    ensures e.PlainExpr? && IsNullish(e.v) ==> p == ""
  {
    match e
    case ReactiveExpr(_) => "{{" + Decimal.NatToString(i) + "}}"
    case PlainExpr(v) => if IsNullish(v) then "" else ToString(host, v)
  }

  /** Strings joined with nothing between them. */
  function Concat(parts: seq<string>): string {
    if parts == [] then "" else parts[0] + Concat(parts[1..])
  }

  lemma {:induction false} ConcatAppend(a: seq<string>, b: seq<string>)
    ensures Concat(a + b) == Concat(a) + Concat(b)
    decreases |a|
  {
    if a == [] {
      assert a + b == b;
    } else {
      assert (a + b)[1..] == a[1..] + b;
      ConcatAppend(a[1..], b);
    }
  }

  /** Each literal followed by the text of its expression. */
  function Parts(host: Host, strings: seq<string>, exprs: seq<Expr>): (r: seq<string>)
    ensures |r| == |strings|
    ensures forall i :: 0 <= i < |strings| ==> r[i] == strings[i] + Piece(host, ExprAt(exprs, i), i)
  {
    seq(|strings|, i requires 0 <= i < |strings| => strings[i] + Piece(host, ExprAt(exprs, i), i))
  }

  /** The storage: position to reactive item, for the reactive expressions
      the loop over the literals reaches. */
  function StorageOf(exprs: seq<Expr>, n: nat): (s: Storage)
    ensures s.Keys == set i | 0 <= i < n && i < |exprs| && exprs[i].ReactiveExpr?
    ensures forall i :: i in s ==> i < |exprs| && s[i] == exprs[i].r
  {
    map i | 0 <= i < n && i < |exprs| && exprs[i].ReactiveExpr? :: exprs[i].r
  }

  datatype Markup = Markup(code: string, storage: Storage)

  /** The markup `html` hands to the parser, and the storage it fills. */
  function Assemble(host: Host, literals: seq<string>, exprs: seq<Expr>): (m: Markup)
    requires |literals| > 0
    ensures m.storage == StorageOf(exprs, |literals|)
  {
    Markup(Code(host, literals, exprs), StorageOf(exprs, |literals|))
  }

  /** The text of the markup: the parts joined, then trimmed. */
  function Code(host: Host, literals: seq<string>, exprs: seq<Expr>): string
    requires |literals| > 0
  {
    JsText.Trim(Concat(Parts(host, TrimmedLiterals(literals), exprs)))
  }

  /** Trimming the edges of a text before trimming the whole changes nothing. */
  lemma {:induction false} TrimEdges(l0: string, x: string, ll: string)
    ensures JsText.Trim(JsText.TrimStart(l0) + (x + JsText.TrimEnd(ll))) == JsText.Trim((l0 + x) + ll)
  {
    var a := l0 + x;
    var e := JsText.TrimEnd(ll);
    var s1 := JsText.TrimStart(JsText.TrimStart(l0) + (x + e));
    assert s1 == JsText.TrimStart(a + e) by {
      JsText.TrimStartAbsorbs(l0, x + e);
      JsText.AppendAssoc(l0, x, e);
    }
    assert JsText.TrimEnd(JsText.TrimStart(a + e)) == JsText.TrimStart(JsText.TrimEnd(a + e)) by {
      JsText.TrimCommutes(a + e);
    }
    assert JsText.TrimEnd(a + e) == JsText.TrimEnd(a + ll) by {
      JsText.TrimEndAbsorbs(a, ll);
    }
    assert JsText.TrimStart(JsText.TrimEnd(a + ll)) == JsText.TrimEnd(JsText.TrimStart(a + ll)) by {
      JsText.TrimCommutes(a + ll);
    }
  }

  /** The same for a text that is a single literal. */
  lemma {:induction false} TrimEndThenTrim(l: string)
    ensures JsText.Trim(JsText.TrimEnd(l)) == JsText.Trim(l)
  {
    var e := JsText.TrimEnd(l);
    assert JsText.Trim(e) == JsText.TrimStart(JsText.TrimEnd(e)) by {
      JsText.TrimCommutes(e);
    }
    assert JsText.TrimEnd(e) == e by {
      JsText.TrimEndIdempotent(l);
    }
    JsText.TrimCommutes(l);
  }

  /** The parts of the trimmed literals, when the last expression contributes
      nothing: the first part's literal trimmed at the start, the middle parts
      untouched, the last literal trimmed at the end. */
  lemma PartsOfTrimmed(host: Host, literals: seq<string>, exprs: seq<Expr>)
    requires |literals| > 1 && |exprs| < |literals|
    ensures var n := |literals|;
            var b := Parts(host, literals, exprs);
            var p0 := Piece(host, ExprAt(exprs, 0), 0);
            Parts(host, TrimmedLiterals(literals), exprs)
              == [JsText.TrimStart(literals[0]) + p0] + b[1..n - 1] + [JsText.TrimEnd(literals[n - 1])]
            && b == [literals[0] + p0] + b[1..n - 1] + [literals[n - 1]]
  {
    var n := |literals|;
    var t := TrimmedLiterals(literals);
    var a := Parts(host, t, exprs);
    var b := Parts(host, literals, exprs);
    var last := Piece(host, ExprAt(exprs, n - 1), n - 1);
    assert last == "";
    assert a[n - 1] == JsText.TrimEnd(literals[n - 1]) by {
      EmptySuffix(t[n - 1]);
    }
    assert b[n - 1] == literals[n - 1] by {
      EmptySuffix(literals[n - 1]);
    }
    assert a[1..n - 1] == b[1..n - 1] by {
      assert forall k :: 0 < k < n - 1 ==> a[k] == b[k];
      SameMiddle(a, b);
    }
    SplitEnds(a);
    SplitEnds(b);
  }

  lemma EmptySuffix(s: string)
    ensures s + "" == s
  {
  }

  /** Two sequences of one length that agree strictly inside agree on their middles. */
  lemma SameMiddle<T>(a: seq<T>, b: seq<T>)
    requires |a| == |b| > 1
    requires forall k :: 0 < k < |a| - 1 ==> a[k] == b[k]
    ensures a[1..|a| - 1] == b[1..|b| - 1]
  {
  }

  /** A sequence of two or more elements is its first, its middle and its last. */
  lemma SplitEnds<T>(a: seq<T>)
    requires |a| > 1
    ensures a == [a[0]] + a[1..|a| - 1] + [a[|a| - 1]]
  {
  }

  /** Concatenating a first part, some middle parts and a last part. */
  lemma {:induction false} ConcatThree(x: string, mid: seq<string>, y: string)
    ensures Concat([x] + mid + [y]) == x + Concat(mid) + y
  {
    ConcatAppend([x] + mid, [y]);
    ConcatAppend([x], mid);
    assert Concat([y]) == y + Concat([]);
    assert Concat([x]) == x + Concat([]);
  }

  /** The trims of the first and last literal change nothing: the markup is the
      untrimmed assembly trimmed once at both ends. (A tagged template always
      has one expression fewer than literals.) */
  lemma {:induction false} TrimsAreRedundant(host: Host, literals: seq<string>, exprs: seq<Expr>)
    requires |literals| > 0 && |exprs| < |literals|
    ensures Assemble(host, literals, exprs).code == JsText.Trim(Concat(Parts(host, literals, exprs)))
  {
    if |literals| == 1 {
      SingleLiteralTrim(host, literals, exprs);
    } else {
      ManyLiteralsTrim(host, literals, exprs);
    }
  }

  lemma {:induction false} SingleLiteralTrim(host: Host, literals: seq<string>, exprs: seq<Expr>)
    requires |literals| == 1 && |exprs| == 0
    ensures JsText.Trim(Concat(Parts(host, TrimmedLiterals(literals), exprs))) == JsText.Trim(Concat(Parts(host, literals, exprs)))
  {
    var l := literals[0];
    var t := TrimmedLiterals(literals);
    var p := Piece(host, ExprAt(exprs, 0), 0);
    assert p == "";
    var a := Parts(host, t, exprs);
    var b := Parts(host, literals, exprs);
    assert |a| == 1 && a[0] == t[0] + p;
    assert |b| == 1 && b[0] == l + p;
    assert a == [JsText.TrimEnd(l) + ""];
    assert b == [l + ""];
    TrimOfOnePart(l);
  }

  lemma {:induction false} TrimOfOnePart(l: string)
    ensures JsText.Trim(Concat([JsText.TrimEnd(l) + ""])) == JsText.Trim(Concat([l + ""]))
  {
    ConcatOfOne(JsText.TrimEnd(l));
    ConcatOfOne(l);
    TrimEndThenTrim(l);
  }

  lemma ConcatOfOne(s: string)
    ensures Concat([s + ""]) == s
  {
    assert [s + ""][1..] == [];
    assert s + "" + "" == s;
  }

  lemma {:induction false} ManyLiteralsTrim(host: Host, literals: seq<string>, exprs: seq<Expr>)
    requires |literals| > 1 && |exprs| < |literals|
    ensures JsText.Trim(Concat(Parts(host, TrimmedLiterals(literals), exprs))) == JsText.Trim(Concat(Parts(host, literals, exprs)))
  {
    var n := |literals|;
    var b := Parts(host, literals, exprs);
    PartsOfTrimmed(host, literals, exprs);
    TrimOfParts(literals[0], Piece(host, ExprAt(exprs, 0), 0), b[1..n - 1], literals[n - 1]);
  }

  lemma {:induction false} TrimOfParts(l0: string, p0: string, mid: seq<string>, ll: string)
    ensures JsText.Trim(Concat([JsText.TrimStart(l0) + p0] + mid + [JsText.TrimEnd(ll)]))
         == JsText.Trim(Concat([l0 + p0] + mid + [ll]))
  {
    ConcatThree(JsText.TrimStart(l0) + p0, mid, JsText.TrimEnd(ll));
    ConcatThree(l0 + p0, mid, ll);
    var x := p0 + Concat(mid);
    JsText.Regroup(JsText.TrimStart(l0), p0, Concat(mid), JsText.TrimEnd(ll));
    JsText.Regroup(l0, p0, Concat(mid), ll);
    TrimEdges(l0, x, ll);
  }

  /** Every stored reactive item is written into the markup as its placeholder,
      and that placeholder reads back as the same item. */
  lemma StoredPlaceholderReadsBack(host: Host, literals: seq<string>, exprs: seq<Expr>, i: nat)
    requires i in StorageOf(exprs, |literals|)
    ensures i < |literals| && Parts(host, literals, exprs)[i] == literals[i] + "{{" + Decimal.NatToString(i) + "}}"
    ensures var st := StorageOf(exprs, |literals|);
            Lex(host, st, "{{" + Decimal.NatToString(i) + "}}", 0)
              == [Segment("", None), Segment(ToString(host, exprs[i].r.value), Some(exprs[i].r)), Segment("", None)]
  {
    var st := StorageOf(exprs, |literals|);
    StoredIsReactive(exprs, |literals|, i);
    PartOfReactive(host, literals, exprs, i);
    ResolvesTo(host, st, i, exprs[i].r);
  }

  lemma StoredIsReactive(exprs: seq<Expr>, n: nat, i: nat)
    requires i in StorageOf(exprs, n)
    ensures i < n && i < |exprs| && exprs[i].ReactiveExpr? && StorageOf(exprs, n)[i] == exprs[i].r
  {
  }

  lemma PartOfReactive(host: Host, literals: seq<string>, exprs: seq<Expr>, i: nat)
    requires i < |literals| && i < |exprs| && exprs[i].ReactiveExpr?
    ensures Parts(host, literals, exprs)[i] == literals[i] + "{{" + Decimal.NatToString(i) + "}}"
  {
    assert ExprAt(exprs, i) == exprs[i];
  }

  /** `PlaceholderResolves`, for a storage known to hold `r` under `i`. */
  lemma ResolvesTo(host: Host, st: Storage, i: nat, r: ReactiveRef)
    requires i in st && st[i] == r
    ensures Lex(host, st, "{{" + Decimal.NatToString(i) + "}}", 0)
              == [Segment("", None), Segment(ToString(host, r.value), Some(r)), Segment("", None)]
  {
    PlaceholderResolves(host, st, i);
  }

  // ---------------------------------------------------------------------------
  // The options `html` runs with

  /** `typeof v === "object"`: null, arrays and objects. */
  predicate TypeofObject(v: Value) {
    v.Null? || v.Arr? || v.Obj?
  }

  /** `isObject(v)`: `v !== null && !Array.isArray(v) && typeof v === "object"`. */
  predicate IsObject(v: Value) {
    v != Null && !v.Arr? && TypeofObject(v)
  }

  /** Exactly the object values pass `isObject`: with the constructor check
      commented out, any object that is not an array does. */
  lemma IsObjectExactlyObjects(v: Value)
    ensures IsObject(v) <==> v.Obj?
  {
  }

  /** `let options = isObject(this) ? this : {}`. */
  function OptionsOfThis(thisValue: Value): (o: Options)
    ensures thisValue.Obj? ==> o == thisValue.fields
    ensures !thisValue.Obj? ==> o == map[]
  {
    if IsObject(thisValue) then thisValue.fields else map[]
  }

  /** `html.bind(options)`: the template function with its `this` fixed. */
  datatype TaggedTemplate = TaggedTemplate(boundThis: Value)

  /** `createCustomTaggedTemplate(options = {})`; an absent or undefined
      argument is the empty object. */
  function CreateCustomTaggedTemplate(options: Option<Value>): (t: TaggedTemplate)
    ensures options.Some? && options.value.Obj? ==> OptionsOfThis(t.boundThis) == options.value.fields
    ensures options.None? || options.value.Undefined? ==> OptionsOfThis(t.boundThis) == map[]
    ensures options.Some? && !options.value.Obj? ==> OptionsOfThis(t.boundThis) == map[]
  {
    match options
    case Some(v) => if v.Undefined? then TaggedTemplate(Obj(0, map[])) else TaggedTemplate(v)
    case None => TaggedTemplate(Obj(0, map[]))
  }
}

=== FILE: template_text.dfy ===
/** `textToTextNodes(text, storage)`: a text is cut at its `{{digits}}`
    placeholders (the leftmost match of `/\{{(\d+)}}/` each time) into static
    segments and placeholder segments. A placeholder whose number is a key of
    the storage becomes a segment showing `String(value)` of that reactive item
    and carrying it; any other placeholder is kept verbatim as static text. */
module TemplateText {
  import opened Wrappers
  import opened JsValue
  import Decimal

  /** A reactive item of the store (atom, computed value or collection) as the
      template sees it: its identity and its current value. */
  datatype ReactiveRef = ReactiveRef(id: nat, value: Value)

  /** The template's storage: expression position to reactive item. */
  type Storage = map<nat, ReactiveRef>

  /** `{content, reactive}`; `None` stands for `reactive: null`. */
  datatype Segment = Segment(content: string, reactive: Option<ReactiveRef>)

  /** The number of consecutive digits of `s` from position `i`. */
  function DigitRun(s: string, i: nat): (n: nat)
    requires i <= |s|
    ensures i + n <= |s|
    ensures forall k :: i <= k < i + n ==> Decimal.IsDigit(s[k])
    ensures i + n < |s| ==> !Decimal.IsDigit(s[i + n])
    decreases |s| - i
  {
    if i < |s| && Decimal.IsDigit(s[i]) then 1 + DigitRun(s, i + 1) else 0
  }

  /** Whether `{{digits}}` starts at position `p`. */
  predicate TokenAt(s: string, p: nat)
    requires p <= |s|
  {
    p + 2 <= |s| && s[p] == '{' && s[p + 1] == '{'
    && var n := DigitRun(s, p + 2);
       n > 0 && p + 4 + n <= |s| && s[p + 2 + n] == '}' && s[p + 3 + n] == '}'
  }

  /** The digits of the placeholder at `p`. */
  function TokenDigits(s: string, p: nat): (d: string)
    requires p <= |s| && TokenAt(s, p)
    ensures Decimal.AllDigits(d)
  {
    s[p + 2..p + 2 + DigitRun(s, p + 2)]
  }

  /** The position just after the placeholder at `p`. */
  function TokenEnd(s: string, p: nat): (e: nat)
    requires p <= |s| && TokenAt(s, p)
    ensures p + 5 <= e <= |s|
  {
    p + 4 + DigitRun(s, p + 2)
  }

  /** The leftmost placeholder at or after `from`. */
  function FindToken(s: string, from: nat): (r: Option<nat>)
    requires from <= |s|
    ensures r.Some? ==> from <= r.value <= |s| && TokenAt(s, r.value)
                        && forall q :: from <= q < r.value ==> !TokenAt(s, q)
    ensures r.None? ==> forall q :: from <= q <= |s| ==> !TokenAt(s, q)
    decreases |s| - from
  {
    if TokenAt(s, from) then Some(from)
    else if from == |s| then None
    else FindToken(s, from + 1)
  }

  /** The segment a placeholder with these digits turns into: `parseInt` of a
      digit string is its value. */
  function Resolve(host: Host, storage: Storage, digits: string): (r: Segment)
    requires Decimal.AllDigits(digits)
    ensures Decimal.ValueIn(digits, 10) in storage ==>
              r == Segment(ToString(host, storage[Decimal.ValueIn(digits, 10)].value), Some(storage[Decimal.ValueIn(digits, 10)]))
    ensures Decimal.ValueIn(digits, 10) !in storage ==> r == Segment("{{" + digits + "}}", None)
  {
    var key := Decimal.ValueIn(digits, 10);
    if key in storage then Segment(ToString(host, storage[key].value), Some(storage[key]))
    else Segment("{{" + digits + "}}", None)
  }

  /** The shape `textToTextNodes` produces: an odd number of segments, static
      ones at the even positions, and every reactive segment carrying a stored
      item and showing that item's text. */
  predicate WellCut(host: Host, storage: Storage, r: seq<Segment>) {
    && |r| % 2 == 1
    && (forall k :: 0 <= k < |r| && k % 2 == 0 ==> r[k].reactive.None?)
    && (forall k :: 0 <= k < |r| && r[k].reactive.Some? ==>
          r[k].reactive.value in storage.Values && r[k].content == ToString(host, r[k].reactive.value.value))
  }

  /** `textToTextNodes` applied to the text from position `i` on. */
  function Lex(host: Host, storage: Storage, s: string, i: nat): (r: seq<Segment>)
    requires i <= |s|
    ensures WellCut(host, storage, r)
    decreases |s| - i
  {
    match FindToken(s, i)
    case None => [Segment(s[i..], None)]
    case Some(p) =>
      var rest := Lex(host, storage, s, TokenEnd(s, p));
      var placeholder := Resolve(host, storage, TokenDigits(s, p));
      PrependCut(host, storage, Segment(s[i..p], None), placeholder, rest);
      [Segment(s[i..p], None), placeholder] + rest
  }

  /** A static segment and a resolved placeholder in front of a well-cut
      sequence keep it well cut. */
  lemma PrependCut(host: Host, storage: Storage, x: Segment, y: Segment, rest: seq<Segment>)
    requires WellCut(host, storage, rest) && x.reactive.None?
    requires y.reactive.Some? ==> y.reactive.value in storage.Values && y.content == ToString(host, y.reactive.value.value)
    ensures WellCut(host, storage, [x, y] + rest)
  {
    var r := [x, y] + rest;
    PrependTwo(x, y, rest);
    forall k | 0 <= k < |r| && k % 2 == 0 ensures r[k].reactive.None? {
      if k >= 2 {
        assert (k - 2) % 2 == 0;
        assert r[k] == rest[k - 2];
      }
    }
    forall k | 2 <= k < |r| && r[k].reactive.Some?
      ensures r[k].reactive.value in storage.Values && r[k].content == ToString(host, r[k].reactive.value.value)
    {
      assert r[k] == rest[k - 2];
    }
  }

  /** Indexing into two segments followed by more. */
  lemma PrependTwo(x: Segment, y: Segment, rest: seq<Segment>)
    ensures var r := [x, y] + rest;
            |r| == |rest| + 2 && r[0] == x && r[1] == y && r[1..][1..] == rest
            && forall k :: 0 <= k < |rest| ==> r[k + 2] == rest[k]
  {
  }

  /** `textToTextNodes(text, storage)`. */
  function TextToTextNodes(host: Host, storage: Storage, text: string): (r: seq<Segment>)
    ensures |r| % 2 == 1 && r[|r| - 1].reactive.None?
  {
    Lex(host, storage, text, 0)
  }

  /** The contents of the segments, concatenated. */
  function Contents(segments: seq<Segment>): string {
    if segments == [] then "" else segments[0].content + Contents(segments[1..])
  }

  /** An independent reading of the same substitution, one character at a
      time: a placeholder starting here is replaced, any other character is
      copied. */
  function Expand(host: Host, storage: Storage, s: string, i: nat): string
    requires i <= |s|
    decreases |s| - i
  {
    if i == |s| then ""
    else if TokenAt(s, i) then Resolve(host, storage, TokenDigits(s, i)).content + Expand(host, storage, s, TokenEnd(s, i))
    else [s[i]] + Expand(host, storage, s, i + 1)
  }

  /** Characters before the first placeholder are copied one by one. */
  lemma {:induction false} ExpandCopies(host: Host, storage: Storage, s: string, i: nat, p: nat)
    requires i <= p <= |s| && forall q :: i <= q < p ==> !TokenAt(s, q)
    ensures Expand(host, storage, s, i) == s[i..p] + Expand(host, storage, s, p)
    decreases p - i
  {
    if i < p {
      ExpandCopies(host, storage, s, i + 1, p);
      SliceCons(s, i, p, Expand(host, storage, s, p));
    } else {
      EmptySlice(s, i, Expand(host, storage, s, p));
    }
  }

  lemma SliceCons(s: string, i: nat, p: nat, t: string)
    requires i < p <= |s|
    ensures [s[i]] + (s[i + 1..p] + t) == s[i..p] + t
  {
    assert s[i..p] == [s[i]] + s[i + 1..p];
  }

  lemma EmptySlice(s: string, i: nat, t: string)
    requires i <= |s|
    ensures s[i..i] + t == t
  {
  }

  /** The segments' contents, concatenated, are the text with every placeholder
      substituted: the cutting loses no character and invents none. */
  lemma {:induction false} LexExpands(host: Host, storage: Storage, s: string, i: nat)
    requires i <= |s|
    ensures Contents(Lex(host, storage, s, i)) == Expand(host, storage, s, i)
    decreases |s| - i
  {
    match FindToken(s, i)
    case None =>
      ExpandCopies(host, storage, s, i, |s|);
      FullSlice(s, i);
      assert Contents([Segment(s[i..], None)]) == s[i..] + Contents([]);
    case Some(p) =>
      ExpandCopies(host, storage, s, i, p);
      LexExpands(host, storage, s, TokenEnd(s, p));
      var rest := Lex(host, storage, s, TokenEnd(s, p));
      var x := Segment(s[i..p], None);
      var y := Resolve(host, storage, TokenDigits(s, p));
      PrependTwo(x, y, rest);
      assert Contents([x, y] + rest) == x.content + (y.content + Contents(rest));
  }

  lemma FullSlice(s: string, i: nat)
    requires i <= |s|
    ensures s[i..|s|] == s[i..] && s[|s|..] == []
  {
  }

  /** With nothing stored, every placeholder is kept verbatim and the text is
      reproduced exactly. */
  lemma {:induction false} ExpandWithoutStorage(host: Host, s: string, i: nat)
    requires i <= |s|
    ensures Expand(host, map[], s, i) == s[i..]
    decreases |s| - i
  {
    if i < |s| {
      if TokenAt(s, i) {
        ExpandWithoutStorage(host, s, TokenEnd(s, i));
        TokenText(s, i);
      } else {
        ExpandWithoutStorage(host, s, i + 1);
        SuffixCons(s, i);
      }
    } else {
      FullSlice(s, i);
    }
  }

  /** The text from a placeholder on is the placeholder and what follows it. */
  lemma TokenText(s: string, i: nat)
    requires i <= |s| && TokenAt(s, i)
    ensures s[i..] == "{{" + TokenDigits(s, i) + "}}" + s[TokenEnd(s, i)..]
  {
    var d := TokenDigits(s, i);
    var e := TokenEnd(s, i);
    var t := "{{" + d + "}}" + s[e..];
    assert |t| == |s[i..]|;
    forall k | 0 <= k < |t| ensures t[k] == s[i..][k] {
      if k < 2 {
      } else if k < 2 + |d| {
      } else if k < 4 + |d| {
      } else {
      }
    }
  }

  lemma SuffixCons(s: string, i: nat)
    requires i < |s|
    ensures [s[i]] + s[i + 1..] == s[i..]
  {
  }

  /** The placeholder the markup assembly writes for expression `i` reads back
      as the reactive item stored under `i`. */
  lemma PlaceholderResolves(host: Host, storage: Storage, i: nat)
    requires i in storage
    ensures var s := "{{" + Decimal.NatToString(i) + "}}";
            Lex(host, storage, s, 0) ==
              [Segment("", None), Segment(ToString(host, storage[i].value), Some(storage[i])), Segment("", None)]
  {
    var d := Decimal.NatToString(i);
    var s := "{{" + d + "}}";
    PlaceholderToken(i);
    assert FindToken(s, 0) == Some(0);
    assert TokenEnd(s, 0) == |s|;
    assert FindToken(s, |s|) == None;
    assert s[|s|..] == "";
    assert Lex(host, storage, s, |s|) == [Segment("", None)];
    assert Resolve(host, storage, d) == Segment(ToString(host, storage[i].value), Some(storage[i]));
  }

  /** The placeholder for expression `i` is one whole token whose digits are
      the decimal form of `i`. */
  lemma PlaceholderToken(i: nat)
    ensures var d := Decimal.NatToString(i);
            var s := "{{" + d + "}}";
            && TokenAt(s, 0) && TokenDigits(s, 0) == d && TokenEnd(s, 0) == |s|
            && Decimal.ValueIn(d, 10) == i
  {
    var d := Decimal.NatToString(i);
    var s := "{{" + d + "}}";
    PlaceholderChars(d);
    DigitRunOf(s, 2, |d|);
    assert s[2..2 + |d|] == d;
    Decimal.ValueOfNatToString(i);
  }

  lemma PlaceholderChars(d: string)
    ensures var s := "{{" + d + "}}";
            && |s| == |d| + 4 && s[0] == '{' && s[1] == '{' && s[2 + |d|] == '}' && s[3 + |d|] == '}'
            && (forall k :: 0 <= k < |d| ==> s[2 + k] == d[k])
            && s[2..2 + |d|] == d
  {
  }

  /** The digit run from `i` of a string holding `n` digits and then a
      non-digit. */
  lemma {:induction false} DigitRunOf(s: string, i: nat, n: nat)
    requires i + n < |s| && forall k :: i <= k < i + n ==> Decimal.IsDigit(s[k])
    requires !Decimal.IsDigit(s[i + n])
    ensures DigitRun(s, i) == n
    decreases n
  {
    if n > 0 {
      DigitRunOf(s, i + 1, n - 1);
    }
  }
}

=== FILE: text.dfy ===
/** `bindToText(reactive_item, element, options)`: keeps the `textContent` of an
    element or text node equal to `String(reactive_item.value)`. The source
    carries its own copy of the binder loop rather than calling the binder
    core; `TextIsBinderCore` shows the two agree. */
module TextBinder {
  import opened JsValue
  import opened Dom
  import opened BindOptions
  import opened Reactive
  import Binder
  import opened PropertyBinder

  /** The setter: `element[ctx.property_name] = String(reactive_item.value)`. */
  function Write(host: Host, v: Value, element: Node, ctx: PropertyCtx): (r: Node)
    ensures GetProp(r, ctx.propertyName) == Converted(host, ctx.propertyName, Str(ToString(host, v)))
    ensures forall other :: other != ctx.propertyName ==> GetProp(r, other) == GetProp(element, other)
    ensures r == element.(props := r.props)
  {
    WriteProp(host, element, ctx.propertyName, Str(ToString(host, v)))
  }

  function SetterOf(host: Host): Binder.Setter<PropertyCtx> {
    (v, e, ctx, o) => Write(host, v, e, ctx)
  }

  const TextCtx: PropertyCtx := PropertyCtx("textContent")

  /** `bindToText`: one write, then an active subscription. */
  function BindToText(host: Host, globals: Options, current: Value, element: Node, options: Options)
    : (r: (Node, Binder.Binding<PropertyCtx>))
    ensures GetProp(r.0, "textContent") == Str(ToString(host, current))
    ensures forall other :: other != "textContent" ==> GetProp(r.0, other) == GetProp(element, other)
    ensures r.0 == element.(props := r.0.props)
    ensures r.1.ctx == TextCtx && r.1.options == Assign(globals, options) && r.1.subscription.active
  {
    var merged := Assign(globals, options);
    (Write(host, current, element, TextCtx), Binder.Binding(TextCtx, merged, Subscription(true, DebounceTime(merged))))
  }

  /** The subscriber callback of `bindToText`. */
  function NotifyText(host: Host, b: Binder.Binding<PropertyCtx>, current: Value, element: Node)
    : (r: (Node, Binder.Binding<PropertyCtx>))
    ensures !b.subscription.active ==> r == (element, b)
    ensures b.subscription.active && AutoDisconnect(b.options) && !element.connected ==>
              r.0 == element && !r.1.subscription.active
    ensures b.subscription.active && !(AutoDisconnect(b.options) && !element.connected) ==>
              GetProp(r.0, b.ctx.propertyName) == Converted(host, b.ctx.propertyName, Str(ToString(host, current)))
  {
    if !b.subscription.active then (element, b)
    else if AutoDisconnect(b.options) && !element.connected then (element, b.(subscription := Cancel(b.subscription)))
    else (Write(host, current, element, b.ctx), b)
  }

  /** The copied loop behaves exactly as the binder core with the text setter. */
  lemma TextIsBinderCore(host: Host, globals: Options, current: Value, element: Node, options: Options,
                         b: Binder.Binding<PropertyCtx>)
    ensures BindToText(host, globals, current, element, options)
            == Binder.Bind(globals, SetterOf(host), current, element, TextCtx, options)
    ensures NotifyText(host, b, current, element) == Binder.Notify(SetterOf(host), b, current, element)
  {
  }

  /** While a text binding is subscribed, the node's text is the string form of
      the reactive item's current value. */
  lemma TextStaysInSync(host: Host, globals: Options, current: Value, element: Node, options: Options,
                        steps: seq<Binder.Step>)
    ensures var (e, b) := BindToText(host, globals, current, element, options);
            var w := Binder.Run(SetterOf(host), Binder.World(current, e, b), steps);
            w.binding.subscription.active ==> GetProp(w.element, "textContent") == Str(ToString(host, w.source))
  {
    var reflects := (v: Value, n: Node) => GetProp(n, "textContent") == Str(ToString(host, v));
    forall v, n: Node, c | reflects(v, n) ensures reflects(v, n.(connected := c)) {
      assert GetProp(n.(connected := c), "textContent") == GetProp(n, "textContent");
    }
    var (e, b) := BindToText(host, globals, current, element, options);
    Binder.RunKeepsInSync(SetterOf(host), reflects, Binder.World(current, e, b), steps);
  }
}

=== FILE: wrappers.dfy ===
/** Option and Result values.
    `Option` stands for a JavaScript value that may be null or absent; `Result` stands
    for an operation that either returns or throws one of the library's errors. */
module Wrappers {

  datatype Option<+T> = None | Some(value: T) {

    /** The wrapped value, or `default` when there is none. */
    function GetOr(default: T): T {
      match this
      case Some(v) => v
      case None => default
    }
  }

  datatype Result<+T, +E> = Ok(value: T) | Err(error: E)
}
